=== FILE: README.md ===
# stock-morning core, modelled in Dafny

This project models the decision-making core of *stock-morning*, a
pipeline that collects market news and SEC filings and runs a four-persona
investment debate over them.

- **Conclusion parser** (`ConclusionParser`, with `Pattern` for the
  regular-expression searches). It turns the portfolio manager's free-text
  conclusion into a structured record: four scores plus a blended overall
  score, an action, a position size, a summary, debate points, strategies,
  triggers and review items. It falls back to a neutral record when the
  schema rejects what was read, and raises when the schema rejects that too.
- **Debate graph** (`DebateGraph`). Each persona answers only the other
  three personas' previous statements. The round's replies are collected
  by name and appended to the round list. A consensus rule decides whether
  a second debate round runs. The driver walks the graph `collect_data →
  debate_round_1 → [debate_round_2] → conclusion`, and the transcript and
  readable summary are laid out from the result.
- **News crawler** (`NewsCrawler`). It unwraps Google News redirect links,
  removes tracking query keys and filters feed items into articles.
- **News content fetcher** (`NewsContentFetcher`). It cleans page text line
  by line and counts stored article bodies.
- **SEC crawler** (`SecCrawler`). It maps a ticker to its zero-padded CIK,
  picks a filing out of the parallel arrays of a submissions record, builds
  the list of candidate file names, and chains the stages together.
- **Quartr crawler** (`QuartrCrawler`). It checks the shape of the events
  payload and maps an event to a call record. Only calls strictly after the
  last seen call are kept, saved calls are counted, and the per-ticker
  result map is keyed in upper case.

`Wrappers` holds `Option`/`Result`. `Strings` holds the Python string
operations the code relies on: `strip`, ASCII `upper`/`lower`, `in`,
slicing, `splitlines`, `zfill`, `replace` and decimal numerals.

Everything outside the core is a parameter of the model:

- the LLM (`summarize` and the personas' `rebut`);
- the consensus analyser and schema validation;
- URL parsing and HTML unescaping;
- HTTP, JSON decoding, the database, the clock and timestamp parsing.

A failed request, or an exception the code catches or lets escape, is a
`None` or `Err` of the parameter. What the model proves holds for every
behaviour of those parameters.

## Model

| member | source | states |
|---|---|---|
| `Pattern.Search` | multiagent/services/conclusion_parser.py:94 | `re.search`: no result exactly when the pattern matches at no index; otherwise the capture of the leftmost match |
| `Pattern.SearchFromIsLeftmost` | multiagent/services/conclusion_parser.py:94 | scanning from index 0 reports the capture at the leftmost matching index |
| `Pattern.DigitsAt` | multiagent/services/conclusion_parser.py:86 | a greedy `\d+`: the run is non-empty, all digits, maximal, and its value is the decimal value of the run |
| `Pattern.DigitsAtNumeral` | multiagent/services/conclusion_parser.py:86-96 | a written-out numeral followed by a non-digit reads back as its own value |
| `Strings.Strip` | src/news_crawler.py:65 | `str.strip`: the result has no surrounding whitespace, is no longer than the input, is empty exactly when the input is all whitespace, and keeps a line-break-free input free of breaks; it is a contiguous middle of the input with only whitespace before and after it |
| `Strings.Take` | multiagent/services/conclusion_parser.py:152 | `s[:n]`: a prefix of `s` of length `min(n, |s|)` |
| `Strings.RemoveChar` | src/sec_crawler.py:202 | `replace("-", "")`: the result never contains the character, and every other character occurs in it exactly as often as in the input |
| `Strings.RemoveCharKeepsOthers` | src/sec_crawler.py:202 | a string without the character is left unchanged |
| `Strings.RemoveCharDistributes` | src/sec_crawler.py:202 | removal works piece by piece: removing from a concatenation concatenates the removals |
| `Strings.SplitAtBreaks` | src/news_content_fetcher.py:129 | line splitting yields at least one segment and no segment holds a line break |
| `Strings.SplitJoinRoundTrip` | src/news_content_fetcher.py:127-131 | joining break-free lines with `\n` and splitting again gives the lines back |
| `Strings.JoinOnlyNewlines` | src/news_content_fetcher.py:127-131 | joining break-free lines with `\n` leaves `\n` as the only line boundary |
| `Strings.JoinSplitRoundTrip` | src/news_content_fetcher.py:127-131 | a text whose only boundaries are `\n` is rebuilt by joining its segments with `\n` |
| `Strings.NewlineTextDeterminedBySplit` | src/news_content_fetcher.py:127-131 | two texts whose only boundaries are `\n` and whose segments agree are equal |
| `Strings.AllSpaceIffSegmentsBlank` | src/news_content_fetcher.py:127-132 | a text is all whitespace exactly when every one of its lines strips to empty |
| `Strings.NatToStringRoundTrip` | src/sec_crawler.py:54 | `str(n)` is all digits and reads back as `n` |
| `Strings.ZFill` | src/sec_crawler.py:54 | `zfill(w)`: length is `max(|s|, w)`, and a string already that long is unchanged |
| `Strings.LeadingZerosValue` | src/sec_crawler.py:54 | zero-padding a numeral does not change the number it denotes |
| `ConclusionParser.ExtractScore` | multiagent/services/conclusion_parser.py:85-98 | a score is the integer after the leftmost `<Name> Score` label (case-insensitive), and 5 when no label matches |
| `ConclusionParser.ScoreFromLabelledLine` | multiagent/services/conclusion_parser.py:86-96 | text that starts `<Name> Score: n` yields exactly `n` |
| `ConclusionParser.BlendIsWeightedMean` | multiagent/services/conclusion_parser.py:105-109 | the weights sum to one: equal scores (risk inverted) blend to that score |
| `ConclusionParser.BlendRiskInverted` | multiagent/services/conclusion_parser.py:107 | one more point of risk lowers the blend by 0.2 |
| `ConclusionParser.BlendExample` | multiagent/services/conclusion_parser.py:106-109 | f=8, r=3, g=7, s=6 blend to 7.1 |
| `ConclusionParser.ExtractScores` | multiagent/services/conclusion_parser.py:83-111 | each of the four scores is extracted on its own; overall is the leftmost `종합 점수` value, and the weighted blend of the four when there is none |
| `ConclusionParser.DigitsBelowPow10` | multiagent/services/conclusion_parser.py:101-103 | a numeral of `k` digits is below 10 to the `k` |
| `ConclusionParser.FractionBelowOne` | multiagent/services/conclusion_parser.py:101-103 | the digits after the point of a score, read over 10 to their count, stay below 1 |
| `ConclusionParser.Pow10Numeral` | multiagent/services/conclusion_parser.py:101-103 | the scale of a `k`-digit decimal fraction is the value of the numeral 1 followed by `k` zeros |
| `ConclusionParser.FirstListedFrom` | multiagent/services/conclusion_parser.py:130-132 | the first table key (in declared order) contained in the text: it occurs, no earlier key does, and none is found only when no key occurs |
| `ConclusionParser.ExtractAction` | multiagent/services/conclusion_parser.py:113-134 | HOLD when no key of the table occurs in the upper-cased text |
| `ConclusionParser.EmojiKeysNested` | multiagent/services/conclusion_parser.py:115-124 | every emoji key contains the plain key listed before it, so the emoji keys never decide |
| `ConclusionParser.StrongSellKeysNested` | multiagent/services/conclusion_parser.py:123-127 | every STRONG SELL key contains `SELL`, which the table lists earlier |
| `ConclusionParser.FirstActionKey` | multiagent/services/conclusion_parser.py:115-132 | which table index the scan stops at, for each combination of the keywords present |
| `ConclusionParser.ActionIsKeywordCascade` | multiagent/services/conclusion_parser.py:113-134 | the twelve-key table decides exactly as the tests STRONG BUY, BUY, HOLD, SELL in that order, with HOLD by default |
| `ConclusionParser.ActionNeverStrongSell` | multiagent/services/conclusion_parser.py:123-132 | as written, no text is ever read as STRONG_SELL |
| `ConclusionParser.StrongSellReadAsSell` | multiagent/services/conclusion_parser.py:123-127 | the text `STRONG SELL` reads as SELL as written and as STRONG_SELL once corrected |
| `ConclusionParser.ExtractActionCorrected` | multiagent/services/conclusion_parser.py:113-134 | the corrected reading is HOLD when no key occurs |
| `ConclusionParser.RedStrongSellNested` | multiagent/services/conclusion_parser.py:127 | the red-emoji key contains `STRONG SELL` |
| `ConclusionParser.FirstCorrectedActionKey` | multiagent/services/conclusion_parser.py:115-132 | which index the corrected table's scan stops at, for each combination of keywords |
| `ConclusionParser.CorrectedActionIsKeywordCascade` | multiagent/services/conclusion_parser.py:113-134 | the corrected reading is the cascade STRONG BUY, BUY, HOLD, STRONG SELL, SELL, HOLD |
| `ConclusionParser.CorrectionOnlyTouchesStrongSell` | multiagent/services/conclusion_parser.py:113-134 | the correction agrees with the code as written on every text that names no STRONG SELL key, and whenever it does not answer STRONG_SELL |
| `ConclusionParser.ExtractPositionSize` | multiagent/services/conclusion_parser.py:136-146 | at most 20; the leftmost `포트폴리오의 n%` wins (capped at 20), then the leftmost `n% 비중`, else 10 |
| `ConclusionParser.Clip` | multiagent/services/conclusion_parser.py:152 | `strip()[:n]`: a prefix of the stripped text whose length is the smaller of `n` and the stripped length |
| `ConclusionParser.SplitSentencesFrom` | multiagent/services/conclusion_parser.py:155 | splitting at `[.!?]` plus whitespace gives at least one fragment, no longer in total than the text |
| `ConclusionParser.SplitRejoins` | multiagent/services/conclusion_parser.py:155 | putting the removed separators back between the fragments, in order, restores the text |
| `ConclusionParser.FirstFragmentIsPrefix` | multiagent/services/conclusion_parser.py:155 | the first fragment is the text from the start up to some point |
| `ConclusionParser.FragmentClean` | multiagent/services/conclusion_parser.py:155 | a stretch in which no separator starts contains none |
| `ConclusionParser.SplitPiecesWellFormed` | multiagent/services/conclusion_parser.py:155 | every removed separator is a sentence end with whitespace after it, no fragment holds a separator, and no later fragment starts with whitespace: the separators are the leftmost, longest matches |
| `ConclusionParser.SplitSentences` | multiagent/services/conclusion_parser.py:155 | `re.split` yields at least one fragment whose total length is at most the text's |
| `ConclusionParser.SplitSentencesRejoin` | multiagent/services/conclusion_parser.py:155 | the fragments of `re.split(r'[.!?]\s+', s)` and the separators between them rebuild `s`; separators are whole matches and fragments hold none |
| `ConclusionParser.NoSeparatorOneFragment` | multiagent/services/conclusion_parser.py:155 | a text with no sentence separator splits into itself |
| `ConclusionParser.SummaryFallback` | multiagent/services/conclusion_parser.py:154-156 | the fallback summary ends with a full stop and is at most 1005 characters |
| `ConclusionParser.SummaryFallbackOneSentence` | multiagent/services/conclusion_parser.py:155-156 | a single-sentence window is returned with a full stop appended |
| `ConclusionParser.JoinIsWeave` | multiagent/services/conclusion_parser.py:156 | joining with a separator is putting copies of it between the fragments |
| `ConclusionParser.SummaryFallbackRejoins` | multiagent/services/conclusion_parser.py:154-156 | a window of at most three sentences, each separated by ". ", comes back whole with a final "." |
| `ConclusionParser.ExtractExecutiveSummary` | multiagent/services/conclusion_parser.py:148-156 | with a summary section: its body clipped to 500; without one: the sentence fallback |
| `ConclusionParser.ExtractKeyDebates` | multiagent/services/conclusion_parser.py:158-170 | the first three debate matches, in order, item `k` being match `k` clipped to 300 |
| `ConclusionParser.ExtractStrategy` | multiagent/services/conclusion_parser.py:172-193 | present exactly when its section matches; then the body clipped to 200 |
| `ConclusionParser.ExtractTrigger` | multiagent/services/conclusion_parser.py:195-224 | present exactly when the scenario matches; condition and action are the two captures, each clipped to 200 |
| `ConclusionParser.ExtractReviewItems` | multiagent/services/conclusion_parser.py:226-240 | none without a review section; otherwise the first three numbered items, item `k` being item `k` clipped to 200 |
| `ConclusionParser.Assemble` | multiagent/services/conclusion_parser.py:28-68 | the record built from all stages with a given action keeps ticker, raw text and confidence, and respects every length cap |
| `ConclusionParser.Extracted` | multiagent/services/conclusion_parser.py:28-68 | as written: the record carries the extracted scores, action and position size, and respects every cap |
| `ConclusionParser.ExtractedCorrected` | multiagent/services/conclusion_parser.py:28-68 | the same record with the action read by the corrected table |
| `ConclusionParser.Neutral` | multiagent/services/conclusion_parser.py:70-81 | the fallback record respects every cap |
| `ConclusionParser.Validate` | multiagent/services/conclusion_parser.py:28-81 | the built record when the schema accepts it, else the neutral record when that is accepted, else an error; whatever is returned is accepted |
| `ConclusionParser.Parse` | multiagent/services/conclusion_parser.py:16-81 | as written: an accepted extracted record is returned with its scores, action and position size; otherwise the neutral record if accepted; an error exactly when the schema rejects both; ticker, raw text and confidence are kept and every cap holds |
| `ConclusionParser.ParseCorrected` | multiagent/services/conclusion_parser.py:16-81 | the same with the corrected action table |
| `ConclusionParser.ParseCorrectedAgrees` | multiagent/services/conclusion_parser.py:16-81 | away from STRONG_SELL the corrected parse equals the parse as written |
| `ConclusionParser.NoCuesNoScore` | multiagent/services/conclusion_parser.py:93-98 | text without letters or digits yields the default score 5 |
| `ConclusionParser.NoCuesNoAction` | multiagent/services/conclusion_parser.py:130-134 | text without letters yields HOLD, as written and corrected |
| `ConclusionParser.NoCuesDefaults` | multiagent/services/conclusion_parser.py:83-146 | such text gives scores 5/5/5/5 with overall 5.0, HOLD and position 10 |
| `ConclusionParser.NoCuesNoLabel` | multiagent/services/conclusion_parser.py:101-146 | text without letters or digits matches neither the `종합 점수` label nor either position-size pattern at any index |
| `DebateGraph.Others` | multiagent/graph.py:128-149 | the three personas other than `p`, in the fixed persona order |
| `DebateGraph.OpponentsAreOthers` | multiagent/graph.py:128-149 | the written-out opponents table is exactly each persona's peers, tagged and in order |
| `DebateGraph.NeverSeesOwnStatement` | multiagent/graph.py:121-149 | a persona's own previous statement never reaches it |
| `DebateGraph.SeesEveryPeer` | multiagent/graph.py:128-149 | every other persona's previous statement does reach it, with its tag |
| `DebateGraph.FanOut` | multiagent/graph.py:152-166 | the replies are keyed by every persona name |
| `DebateGraph.GatherReplies` | multiagent/graph.py:157-171 | collecting the replies in any order that lists every persona gives the same map |
| `DebateGraph.AsStatements` | multiagent/graph.py:168-171 | each persona's new statement is its reply |
| `DebateGraph.Collect` | multiagent/graph.py:89-100 | the opening round is round 1, its consensus is recorded, and debate continues |
| `DebateGraph.ContinueAfter` | multiagent/graph.py:209-216 | debate stops exactly when consensus reaches 0.85 or the round number reaches 3 |
| `DebateGraph.DebateRound` | multiagent/graph.py:103-228 | appends exactly one round and keeps the earlier ones; each reply answers the others' previous statements; metrics and the continue flag follow the new replies; transcript, conclusion text, structured conclusion and readable summary carry over unchanged |
| `DebateGraph.Route` | multiagent/graph.py:340-352 | to `debate_round_<len>` while continuing with fewer than 3 rounds, otherwise to `conclusion` |
| `DebateGraph.Next` | multiagent/graph.py:356-379 | every edge leads to a lower node, so the walk ends |
| `DebateGraph.RouteAfterFirstDebate` | multiagent/graph.py:367-375 | after the first debate the walk goes to the second debate exactly when the continue flag is set |
| `DebateGraph.Summarize` | multiagent/services/toolkit.py:20-40 | an empty body gets the fixed reply; otherwise the model answers on the first 8000 characters |
| `DebateGraph.AsWrittenIgnoresDebate` | multiagent/graph.py:238-239 | as written, every transcript yields the same fixed reply |
| `DebateGraph.NoContentMessageHasNoCues` | multiagent/services/toolkit.py:24-25 | the fixed reply holds no letter, digit or label the parser looks for |
| `DebateGraph.AsWrittenConclusionIsDefault` | multiagent/graph.py:238-246 | as written, every debate concludes HOLD (as written and corrected) with scores 5 and position 10 |
| `DebateGraph.ConclusionTextConsultsModel` | multiagent/graph.py:233-239 | corrected, the model receives the prompt and the transcript whenever a round took place |
| `DebateGraph.ConfidenceOf` | multiagent/graph.py:243-244 | the parser's confidence is the latest overall consensus, 0.5 without metrics |
| `DebateGraph.Conclude` | multiagent/graph.py:231-266 | as written: keeps rounds, ticker and metrics; the transcript is the formatted rounds; the conclusion text is the fixed reply; a structured record exists exactly when the schema accepts the extracted or the neutral record, and is then HOLD with scores 5, carrying the confidence and the ticker |
| `DebateGraph.ConcludeIgnoresRounds` | multiagent/graph.py:231-246 | as written, states with the same ticker and metrics conclude alike whatever their debates said |
| `DebateGraph.ConcludeCorrected` | multiagent/graph.py:231-266 | with the transcript as the body, the model answers the prompt on the transcript, and the corrected parse of that answer is recorded exactly when the schema accepts it or the neutral record |
| `DebateGraph.Record` | multiagent/graph.py:246-266 | the node records the parsed conclusion and its readable form, or no structured conclusion when parsing raised |
| `DebateGraph.StepCollect` | multiagent/graph.py:362-365 | after collection the walk is at the first debate with one round |
| `DebateGraph.StepFirstDebate` | multiagent/graph.py:367-375 | after the first debate the walk goes on with two rounds |
| `DebateGraph.StepSecondDebate` | multiagent/graph.py:377-378 | after the second debate the walk is at the conclusion with three rounds |
| `DebateGraph.StepConclusion` | multiagent/graph.py:379 | the conclusion finishes the walk with the transcript in place and any structured record HOLD at the last round's consensus |
| `DebateGraph.StepPreserves` | multiagent/graph.py:355-381 | each node keeps the walk's invariant and moves to a successor |
| `DebateGraph.RunPipeline` | multiagent/graph.py:384-395 | the trace is one of the two graph paths; rounds are numbered, at most 3, and start with the opening statements; the second debate is skipped exactly when the first debate round's consensus reached 0.85; the ticker is upper-cased; the conclusion text is the fixed reply, and any structured record is HOLD with scores 5 at the last round's consensus |
| `DebateGraph.Drive` | multiagent/graph.py:384-395 | the walk from the start node arrives at the end with the end's invariant |
| `DebateGraph.FinalTrace` | multiagent/graph.py:356-381 | a run ending at the conclusion after a debated prefix is one of the two wired paths |
| `DebateGraph.EntryLines` | multiagent/graph.py:327-335 | each round contributes seven lines |
| `DebateGraph.RoundLinesLength` | multiagent/graph.py:324-336 | the transcript has seven lines per round |
| `DebateGraph.RoundLinesAppend` | multiagent/graph.py:326-335 | the lines of consecutive rounds are concatenated in order |
| `DebateGraph.RoundLinesLayout` | multiagent/graph.py:324-336 | lines `7i..7i+7` are round `i`'s block |
| `DebateGraph.TranscriptOrder` | multiagent/graph.py:328-335 | line `7i+1` names round `i`, and lines `7i+3..7i+6` hold the four personas' replies in fixed order |
| `DebateGraph.FormatRoundsNonEmpty` | multiagent/graph.py:324-336 | a transcript with at least one round is non-empty |
| `DebateGraph.ActionEmoji` | multiagent/graph.py:274-281 | an unknown action gets the white circle |
| `DebateGraph.EmojiKeysParseBack` | multiagent/graph.py:274-283 | each action's emoji followed by its spaced name is one of the parser's keys for that same action |
| `DebateGraph.PlanLines` | multiagent/graph.py:298-308 | a strategy adds two lines when present, none otherwise |
| `DebateGraph.TriggerLines` | multiagent/graph.py:311-319 | a trigger adds three lines when present, none otherwise |
| `DebateGraph.HeaderLines` | multiagent/graph.py:283-295 | the header and scores take nine lines |
| `DebateGraph.ReadableLayout` | multiagent/graph.py:269-321 | the summary's line count follows the optional sections; line 3 is the executive summary; the immediate action and bearish trigger sit at fixed places |
| `NewsCrawler.StripTracking` | src/news_crawler.py:110-116 | a field is kept exactly when its key is not a tracking key |
| `NewsCrawler.StripTrackingAppend` | src/news_crawler.py:112-116 | filtering works field by field, keeping relative order |
| `NewsCrawler.StripTrackingKeepsClean` | src/news_crawler.py:112-116 | a query with no tracking key is left exactly as it was |
| `NewsCrawler.StripTrackingIdempotent` | src/news_crawler.py:110-116 | filtering twice is filtering once |
| `NewsCrawler.Normalized` | src/news_crawler.py:118-119 | the fragment is cleared, no tracking key is left, every other field is kept, and scheme, host, path and params are untouched |
| `NewsCrawler.NormalizeUrl` | src/news_crawler.py:105-120 | an error exactly where `urlparse` raises; a URL without a scheme comes back as given; otherwise it is re-assembled from its normalised parts |
| `NewsCrawler.NormalizeIdempotent` | src/news_crawler.py:105-120 | with a codec whose parse undoes its unparse, a URL that normalises normalises again to itself |
| `NewsCrawler.FirstNonEmpty` | src/news_crawler.py:97-100 | the first non-empty value, and none exactly when all values are empty |
| `NewsCrawler.RedirectTarget` | src/news_crawler.py:95-100 | the first non-empty value of the first `url` key, and none when there is no `url` key |
| `NewsCrawler.LinkTarget` | src/news_crawler.py:95-100 | a Google News link is replaced by its redirect target when it has one, and raises where `urlparse` does; any other link is kept |
| `NewsCrawler.ExtractLink` | src/news_crawler.py:90-102 | blank input gives ""; a Google News link is replaced by its redirect target when it has one; the result is then normalised; an error where either parse raises |
| `NewsCrawler.ToArticle` | src/news_crawler.py:65-86 | an error exactly when the link raises, whatever the title; otherwise the item is dropped exactly when its title is blank or its link is empty, and a kept article has the stripped title, the extracted link and the upper-cased ticker |
| `NewsCrawler.Gather` | src/news_crawler.py:64-87 | the articles among the outcomes, or an error exactly when some outcome is one; every article comes from an outcome, and every outcome's article is kept |
| `NewsCrawler.GatherSingle` | src/news_crawler.py:64-87 | one outcome gives its error, nothing, or its one article; with `GatherAppend` this fixes the result and its order |
| `NewsCrawler.GatherAppend` | src/news_crawler.py:64-87 | outcomes are gathered one by one, in order |
| `NewsCrawler.Articles` | src/news_crawler.py:64-87 | an error exactly when some item's link raises; otherwise no more articles than items, every article valid, and the article of every item that gives one is kept |
| `NewsCrawler.GatheredRaises` | src/news_crawler.py:64-66 | the loop raises exactly when some item's link does |
| `NewsCrawler.GatheredValid` | src/news_crawler.py:76-87 | every gathered article is valid |
| `NewsCrawler.GatheredKeeps` | src/news_crawler.py:76-87 | the article of every item that gives one is among the gathered articles |
| `NewsCrawler.ArticlesSingle` | src/news_crawler.py:64-87 | one item gives its error, no article, or its one article; with `ArticlesAppend` this fixes the list in feed order |
| `NewsCrawler.ArticlesAppend` | src/news_crawler.py:64-87 | items are handled independently and in order: the articles of a concatenation are the concatenated articles, and it raises exactly when a part does |
| `NewsCrawler.SliceTo` | src/news_crawler.py:64 | Python's `items[:limit]` for any integer, including negative limits |
| `NewsCrawler.FetchNews` | src/news_crawler.py:39-87 | a failed request or parse gives no articles; an error exactly when a link among the first `limit` items raises; at most `limit` articles for a non-negative limit; every article valid; the article of every good item among the first `limit` is returned |
| `NewsContentFetcher.KeptOf` | src/news_content_fetcher.py:127-131 | the kept lines are non-empty and stripped, no more than the input lines, and free of line breaks |
| `NewsContentFetcher.KeptOfAppend` | src/news_content_fetcher.py:127-131 | lines are kept independently and in order |
| `NewsContentFetcher.KeptOfEmptyIffBlank` | src/news_content_fetcher.py:127-132 | nothing is kept exactly when every line is blank |
| `NewsContentFetcher.CleanText` | src/news_content_fetcher.py:123-132 | `None` for a missing, empty or all-whitespace text; otherwise the kept lines joined, which split back into exactly those lines, with `\n` as the only line boundary |
| `NewsContentFetcher.CleanTextUnique` | src/news_content_fetcher.py:127-132 | the cleaned text is the only text with those lines and only `\n` boundaries, so the contract fixes it |
| `NewsContentFetcher.CleanTextIdempotent` | src/news_content_fetcher.py:123-132 | cleaning a cleaned text changes nothing |
| `NewsContentFetcher.KeptOfClean` | src/news_content_fetcher.py:127-131 | lines that are already non-empty and stripped are all kept |
| `NewsContentFetcher.StripOfStripped` | src/news_content_fetcher.py:128 | stripping a stripped line changes nothing |
| `NewsContentFetcher.CountStored` | src/news_content_fetcher.py:59-77 | the number of stored rows is at most the number of rows |
| `NewsContentFetcher.CountStoredAppend` | src/news_content_fetcher.py:60-69 | counts add up over consecutive batches |
| `NewsContentFetcher.CountStoredSkipsMissingUrls` | src/news_content_fetcher.py:61-63 | rows without a URL never count |
| `NewsContentFetcher.FetchAndStore` | src/news_content_fetcher.py:49-77 | the result counts exactly the rows whose URL downloaded to a non-empty body and whose update succeeded; 0 for no rows |
| `SecCrawler.FirstMatch` | src/sec_crawler.py:51-53 | the first entry whose ticker equals the input in upper case; none only when no entry matches |
| `SecCrawler.PaddedCik` | src/sec_crawler.py:54 | exactly 10 characters for a CIK of at most 10 digits and its own length otherwise, all digits, denoting the CIK number |
| `SecCrawler.CikFromTicker` | src/sec_crawler.py:43-63 | `None` on a failed request, no match, or a match without a CIK; otherwise exactly the first match's CIK, zero-padded |
| `SecCrawler.FirstMatchIgnoresCase` | src/sec_crawler.py:51-53 | spellings that differ only in case find the same entry |
| `SecCrawler.CikIgnoresCase` | src/sec_crawler.py:51-56 | a ticker looked up in lower case gives the same CIK |
| `SecCrawler.AcceptanceAt` | src/sec_crawler.py:99-101 | an acceptance time exists at an index exactly when the array reaches it and the string is non-empty |
| `SecCrawler.ReportingFor` | src/sec_crawler.py:106-111 | `None` exactly when `reportDate` is missing or not longer than the index |
| `SecCrawler.FirstQualifying` | src/sec_crawler.py:98-103 | the least index accepted on the target batch date; none only when no index is |
| `SecCrawler.FilingAt` | src/sec_crawler.py:105-122 | `None` exactly when `filingDate` or `accessionNumber` is too short; otherwise that slot's form, dates and accession |
| `SecCrawler.LatestFiling` | src/sec_crawler.py:76-180 | `None` without `recent` or with no forms; with `only_today`, the first index accepted on the target date, present exactly when its date and accession exist; otherwise index 0, present exactly when form, date and accession exist, with acceptance fields only when present and non-empty |
| `SecCrawler.TodayAgreesWithLatestAtSlotZero` | src/sec_crawler.py:94-170 | when slot 0 was accepted on the target date, the filtered and unfiltered lookups agree |
| `SecCrawler.LatestIgnoresTarget` | src/sec_crawler.py:91-170 | without the date filter the target date plays no part |
| `SecCrawler.FormatOf` | src/sec_crawler.py:212-234 | the format word is compared in lower case; anything but xml or html means text |
| `SecCrawler.FirstWithSuffix` | src/sec_crawler.py:219-233 | the index of the first directory name ending in one of the suffixes, and none only when no name does |
| `SecCrawler.Found` | src/sec_crawler.py:219-233 | the directory's first matching name, present exactly when the directory listing exists and a name matches |
| `SecCrawler.Candidates` | src/sec_crawler.py:211-237 | xml: the first `.xml` in the directory in front exactly when there is one, then `form.xml` and `<accession without dashes>.txt`; html likewise with `.htm`/`.html`; otherwise only the `.txt` |
| `SecCrawler.FirstDownloaded` | src/sec_crawler.py:240-257 | the first candidate whose download succeeded, and none only when every one failed |
| `SecCrawler.DownloadFiling` | src/sec_crawler.py:200-267 | a path exactly when the index request succeeds and some candidate downloads; it is the saved path of the first candidate that did |
| `SecCrawler.DirectoryMatchWins` | src/sec_crawler.py:219-257 | in XML mode a directory's first `.xml` file that downloads is the file kept |
| `SecCrawler.XmlTriesSubmissionText` | src/sec_crawler.py:202-217 | in XML mode the dash-free submission text file is always a candidate |
| `SecCrawler.CrawlLatestFiling` | src/sec_crawler.py:289-330 | `None` when the CIK lookup, filing selection or download fails; when all three succeed, exactly the selected filing and its saved path |
| `SecCrawler.SaveDoesNotMatter` | src/sec_crawler.py:310-330 | the database write and its outcome do not change the result |
| `QuartrCrawler.FetchEvents` | src/quartr_crawler.py:91-103 | a list payload is the event list and a dict yields its `events` field; a failed request, a dict whose `events` is not a list, or any other payload is an error |
| `QuartrCrawler.FirstParsed` | src/quartr_crawler.py:162-167 | the time is taken from the first key whose value parses, and is missing only when none does |
| `QuartrCrawler.EventToCallInfo` | src/quartr_crawler.py:160-181 | `None` exactly when there is no truthy `event_id`/`id` or no parseable time; the id is stringified, the language is never empty (`"en"` by default), cursor and hash are copied; `type`, `timezone` and `source_url` are taken when truthy, else `event_type`, `timeZone` and `sourceUrl` |
| `QuartrCrawler.EventIdText` | src/quartr_crawler.py:161-173 | a string id is kept as is; an integer id is written in decimal |
| `QuartrCrawler.LoadSince` | src/quartr_crawler.py:79-87 | the stored time when there is one and it parses; otherwise the batch-window start |
| `QuartrCrawler.Fresh` | src/quartr_crawler.py:196-201 | a dict event goes on exactly when it maps and its time is strictly after `since`; nothing else goes on |
| `QuartrCrawler.Walk` | src/quartr_crawler.py:195-219 | saved count at most the number of events; without an exception it equals the number of fetch-state writes; each write lies strictly after `since` |
| `QuartrCrawler.SavedCalls` | src/quartr_crawler.py:195-212 | the fresh calls whose save succeeded with a truthy record id, no more than the events |
| `QuartrCrawler.WalkRaisedIff` | src/quartr_crawler.py:195-219 | the walk raises exactly when some event is not a mapping, or is fresh and its save fails or its state write fails |
| `QuartrCrawler.WalkCountsSavedCalls` | src/quartr_crawler.py:195-219 | without an exception, the count is the number of saved calls with a truthy id, and the writes are their times and cursors in order |
| `QuartrCrawler.ProcessTicker` | src/quartr_crawler.py:184-223 | 0 when the stored state cannot be read (an exception) or the events request fails; otherwise an exception exactly when the walk raises or marking the run fails, and then 0; without one, the count of saved calls and their writes; the run is marked exactly when the count is positive |
| `QuartrCrawler.Run` | src/quartr_crawler.py:226-235 | one key per ticker in upper case; each value is the count of the last ticker with that key |
| `QuartrCrawler.ResultsKeys` | src/quartr_crawler.py:226-235 | the keys are exactly the upper-cased tickers |
| `QuartrCrawler.ResultsLastWins` | src/quartr_crawler.py:234 | a later ticker with the same key overwrites an earlier one |
| `QuartrCrawler.ResultsValuesAreCounts` | src/quartr_crawler.py:226-235 | every value is the count of some ticker with that key |

## Left out

- Unicode: `str.upper`/`lower` and `\d` are modelled on ASCII only. `splitlines` is modelled as a split at every line-boundary character. It differs from Python's only in empty segments, which every caller discards.
- Floating point: scores and consensus values are reals, and the float rounding of the blend is not modelled. The `:.0%` and `:.1f` renderings in the readable summary are parameters.
- Regular expressions with lazy bodies and look-aheads are parameters that give the captures of each match: the summary, debate, strategy, trigger and review sections. Their stripping, capping and counting is modelled.
- The LLM (`AgentToolkit.summarize`'s model call and the personas' `rebut`), the consensus formula, the prompt text and the schema's validation are parameters. Their code is not part of this model.
- Concurrency: the thread pool that gathers the four replies is modelled as a map filled in any order.
- The agent-creation fallback in the debate node, and the data collector (`prepare_ticker_dataset`), are left out. The opening statements are an input.
- HTTP, XML and JSON decoding, `urllib.parse`, `html.unescape`, BeautifulSoup, `_download_article`, file writes, SQLite and the clock are left out. Each is a parameter; where the code catches or propagates its failure, the failure is a `None` or `Err` of the parameter.
- `_parse_pub_date` reads the clock for missing dates, so it is a parameter.
- `_download_transcript` and `save_earning_call` together form one parameter, whose error stands for an exception from either.
- Printing, logging and the entry points are left out.
- NewsCrawler.NormalizeIdempotent: assumes a codec whose parse undoes its unparse. `urllib` gives no such guarantee for every string.
- QuartrCrawler.ProcessTicker: a failed events request stands only for `QuartrAPIError` (an error status or a body that is not JSON), which the method catches. A transport exception from the HTTP session escapes to `run`, which records 0 too; the model gives the same count without `raised`.
- QuartrCrawler.Run: each ticker's stored fetch state is a fixed parameter. The model does not show a repeated ticker seeing the state an earlier one wrote.
- QuartrCrawler.Json: only integer numbers are modelled. Rendering a list or dict identifier with `str` is a parameter.
- Comparing naive and aware datetimes raises in Python. Call times are integers here, so this does not arise in the model.
- SecCrawler.LatestFiling: an empty or missing `filings.recent` is one case, `None`. A `recent` without a `form` key raises in the code; it is caught, and it is not modelled separately.
- SecCrawler.CikFromTicker: a JSON `null` ticker in the company list raises on `.upper()` and the lookup returns `None`; the model's tickers are strings, so this case does not arise.
- DebateGraph.Conclude: when the schema rejects both records, `parse` raises and the graph run stops with that exception; the model records no structured conclusion and `RunPipeline` still ends.
- DebateGraph.RunPipeline: states what a structured conclusion looks like when there is one; when there is one is stated per node by `DebateGraph.Conclude`.

## Findings

| source | as written | input that shows it | evidently intended | confidence | as-written member | corrected member |
|---|---|---|---|---|---|---|
| multiagent/graph.py:238-239 | the conclusion request passes an empty body to `summarize`, which answers an empty body with a fixed message and never calls the model (multiagent/services/toolkit.py:24-25) | any debate transcript | the transcript goes in as the body, so the model answers the conclusion prompt | not executed; high | `DebateGraph.AsWrittenConclusionIsDefault` | `DebateGraph.ConcludeCorrected` |
| multiagent/services/conclusion_parser.py:123-127 | the action table lists `SELL` before the three STRONG SELL keys, and each of those contains `SELL` | the text `STRONG SELL` parses as SELL | STRONG SELL keys are tested before SELL, so STRONG_SELL can be read (the readable summary has an emoji for it, multiagent/graph.py:279) | not executed; high | `ConclusionParser.StrongSellReadAsSell` | `ConclusionParser.ParseCorrected` |

The pipeline (`Conclude`, `Parse`, `RunPipeline`) models the code as written. The corrected behaviour is modelled beside it: `ConcludeCorrected` sends the transcript as the body, and `ParseCorrected` reads the action with the corrected table (`CorrectedActionIsKeywordCascade`, `ConclusionTextConsultsModel`).

=== FILE: conclusion_parser.dfy ===
/** The conclusion extractor (multiagent/services/conclusion_parser.py):
    turns the free-text final synthesis into a structured `Conclusion`.
    Every stage is independent and has its own default, and the whole
    parse fails only when the schema rejects both records: an extracted
    record it rejects is replaced by a fixed neutral record that still
    carries the ticker, the confidence and the raw text, and only when that
    one is rejected too is the outcome an error. */
module ConclusionParser {
  import opened Wrappers
  import opened Strings
  import opened Pattern

  // ------------------------------------------------------------------
  // the record

  /** The five actions, from most bullish to most bearish. */
  datatype Action = StrongBuy | Buy | Hold | Sell | StrongSell {
    /** The name the record stores. */
    function Name(): string {
      match this
      case StrongBuy => "STRONG_BUY"
      case Buy => "BUY"
      case Hold => "HOLD"
      case Sell => "SELL"
      case StrongSell => "STRONG_SELL"
    }
  }

  datatype Scores = Scores(fundamental: nat, risk: nat, growth: nat, sentiment: nat, overall: real)

  datatype KeyTrigger = KeyTrigger(condition: string, action: string)

  datatype Conclusion = Conclusion(
    ticker: string,
    scores: Scores,
    action: Action,
    positionSize: nat,
    confidence: real,
    executiveSummary: string,
    keyDebates: seq<string>,
    immediateAction: Option<string>,
    shortTermStrategy: Option<string>,
    longTermStrategy: Option<string>,
    bullishTrigger: Option<KeyTrigger>,
    bearishTrigger: Option<KeyTrigger>,
    nextReviewItems: seq<string>,
    rawConclusion: string)

  // ------------------------------------------------------------------
  // fixed configuration

  const DefaultScore: nat := 5
  const PositionCap: nat := 20
  const DefaultPosition: nat := 10
  const SummaryCap: nat := 500
  const SummaryWindow: nat := 1000
  const SummarySentences: nat := 3
  const DebateLimit: nat := 3
  const DebateCap: nat := 300
  const FieldCap: nat := 200
  const ReviewLimit: nat := 3

  // ------------------------------------------------------------------
  // stage 1: per-dimension scores

  datatype Dimension = FundamentalDim | RiskDim | GrowthDim | SentimentDim

  function ScoreLabel(d: Dimension): string {
    match d
    case FundamentalDim => "Fundamental Score"
    case RiskDim => "Risk Score"
    case GrowthDim => "Growth Score"
    case SentimentDim => "Sentiment Score"
  }

  /** Anchored `<label>[:\s]*(\d+)` with the label compared case-insensitively. */
  function LabelledIntAt(word: string, text: string, i: nat): Option<nat> {
    if CaselessAt(text, i, word) then
      match DigitsAt(text, SkipWhile(text, i + |word|, IsColonOrSpace))
      case Some(n) => Some(n.value)
      case None => None
    else None
  }

  function ScoreMatcher(d: Dimension): Matcher<nat> {
    (text: string, i: nat) => LabelledIntAt(ScoreLabel(d), text, i)
  }

  /** One dimension: the integer after the leftmost occurrence of its label, else 5. */
  function ExtractScore(text: string, d: Dimension): (r: nat)
    ensures (forall j :: 0 <= j <= |text| ==> ScoreMatcher(d)(text, j).None?) ==> r == DefaultScore
    ensures forall j :: IsLeftmost(ScoreMatcher(d), text, j) ==> r == ScoreMatcher(d)(text, j).value
  {
    Search(ScoreMatcher(d), text).GetOr(DefaultScore)
  }

  /** A text that opens with `<label>: <n>` scores that dimension `n`. */
  lemma ScoreFromLabelledLine(d: Dimension, n: nat, rest: string)
    requires |rest| == 0 || !IsDigit(rest[0])
    ensures ExtractScore(ScoreLabel(d) + ": " + NatToString(n) + rest, d) == n
  {
    var w := ScoreLabel(d);
    var num := NatToString(n);
    var text := w + ": " + num + rest;
    assert text[..|w|] == w;
    assert CaselessAt(text, 0, w);
    assert text[|w|] == ':' && text[|w| + 1] == ' ';
    assert text[|w| + 2] == num[0];
    var j := SkipWhile(text, |w|, IsColonOrSpace);
    assert j == |w| + 2;
    assert text[j..j + |num|] == num;
    assert j + |num| < |text| ==> text[j + |num|] == rest[0];
    DigitsAtNumeral(text, j, n);
    assert IsLeftmost(ScoreMatcher(d), text, 0);
  }

  const OverallLabel: string := "종합 점수"

  function Pow10(k: nat): (r: nat)
    ensures r >= 1
  {
    if k == 0 then 1 else 10 * Pow10(k - 1)
  }

  /** `Pow10(k)` is the value of the numeral "1" followed by `k` zeros, the
      denominator of a `k`-digit decimal fraction. */
  lemma {:induction false} Pow10Numeral(k: nat)
    ensures AllDigits("1" + Repeat('0', k))
    ensures DigitsValue("1" + Repeat('0', k)) == Pow10(k)
  {
    var t := "1" + Repeat('0', k);
    assert forall i :: 0 <= i < |t| ==> IsDigit(t[i]) by {
      forall i | 0 <= i < |t| ensures IsDigit(t[i]) {
        if i > 0 { assert t[i] == Repeat('0', k)[i - 1]; }
      }
    }
    if k > 0 {
      Pow10Numeral(k - 1);
      assert t[..|t| - 1] == "1" + Repeat('0', k - 1);
      assert t[|t| - 1] == '0';
    }
  }

  /** A `k`-digit numeral is below `Pow10(k)`. */
  lemma {:induction false} DigitsBelowPow10(d: string)
    requires AllDigits(d)
    ensures DigitsValue(d) < Pow10(|d|)
  {
    if |d| > 0 {
      var p := d[..|d| - 1];
      assert AllDigits(p) by {
        forall i | 0 <= i < |p| ensures IsDigit(p[i]) { assert p[i] == d[i]; }
      }
      DigitsBelowPow10(p);
      var v, q, c := DigitsValue(p), Pow10(|p|), d[|d| - 1] as int - '0' as int;
      assert IsDigit(d[|d| - 1]);
      assert DigitsValue(d) == 10 * v + c && c <= 9;
      assert Pow10(|d|) == 10 * q;
    }
  }

  /** A `k`-digit fraction read over `Pow10(k)` is below one, so the digits
      after the point of a score never carry into its whole part. */
  lemma FractionBelowOne(d: string)
    requires AllDigits(d)
    ensures DigitsValue(d) as real / Pow10(|d|) as real < 1.0
  {
    DigitsBelowPow10(d);
    RatioBelowOne(DigitsValue(d), Pow10(|d|));
  }

  lemma RatioBelowOne(a: nat, b: nat)
    requires a < b
    ensures a as real / b as real < 1.0
  {
  }

  /** Anchored `종합 점수[:\s]*(\d+(?:\.\d+)?)`, read as Python's `float`. */
  function OverallAt(text: string, i: nat): Option<real> {
    if LiteralAt(text, i, OverallLabel) then
      match DigitsAt(text, SkipWhile(text, i + |OverallLabel|, IsColonOrSpace))
      case None => None
      case Some(whole) =>
        if whole.end < |text| && text[whole.end] == '.' then
          match DigitsAt(text, whole.end + 1)
          case Some(frac) =>
            Some(whole.value as real + frac.value as real / Pow10(frac.end - whole.end - 1) as real)
          case None => Some(whole.value as real)
        else Some(whole.value as real)
    else None
  }

  function OverallMatcher(): Matcher<real> {
    (text: string, i: nat) => OverallAt(text, i)
  }

  /** The weighted blend: fundamental and growth 30%, sentiment 20%, and
      risk 20% on the inverted scale `10 - risk`. */
  function Blend(f: nat, r: nat, g: nat, s: nat): real {
    0.3 * f as real + 0.2 * (10 - r) as real + 0.3 * g as real + 0.2 * s as real
  }

  /** The weights sum to one: equal scores on every axis (risk inverted) blend to that score. */
  lemma BlendIsWeightedMean(v: nat)
    requires v <= 10
    ensures Blend(v, 10 - v, v, v) == v as real
  {
  }

  /** One more point of risk lowers the blend by exactly 0.2. */
  lemma BlendRiskInverted(f: nat, r: nat, g: nat, s: nat)
    ensures Blend(f, r + 1, g, s) == Blend(f, r, g, s) - 0.2
  {
  }

  lemma BlendExample()
    ensures Blend(8, 3, 7, 6) == 7.1
  {
  }

  function ExtractScores(text: string): (r: Scores)
    ensures r.fundamental == ExtractScore(text, FundamentalDim)
    ensures r.risk == ExtractScore(text, RiskDim)
    ensures r.growth == ExtractScore(text, GrowthDim)
    ensures r.sentiment == ExtractScore(text, SentimentDim)
    ensures forall j :: IsLeftmost(OverallMatcher(), text, j) ==> r.overall == OverallMatcher()(text, j).value
    ensures (forall j :: 0 <= j <= |text| ==> OverallMatcher()(text, j).None?) ==> r.overall == Blend(r.fundamental, r.risk, r.growth, r.sentiment)
  {
    var f := ExtractScore(text, FundamentalDim);
    var r := ExtractScore(text, RiskDim);
    var g := ExtractScore(text, GrowthDim);
    var s := ExtractScore(text, SentimentDim);
    var overall := match Search(OverallMatcher(), text)
      case Some(v) => v
      case None => Blend(f, r, g, s);
    Scores(f, r, g, s, overall)
  }

  // ------------------------------------------------------------------
  // stage 2: action

  /** The source's table in its declared order; the first key found in the
      upper-cased text decides. */
  const ActionTable: seq<(string, Action)> := [
    ("STRONG BUY", StrongBuy),
    ("STRONG_BUY", StrongBuy),
    ("🟢 STRONG BUY", StrongBuy),
    ("BUY", Buy),
    ("🔵 BUY", Buy),
    ("HOLD", Hold),
    ("⚪ HOLD", Hold),
    ("SELL", Sell),
    ("🟠 SELL", Sell),
    ("STRONG SELL", StrongSell),
    ("STRONG_SELL", StrongSell),
    ("🔴 STRONG SELL", StrongSell)
  ]

  /** Index of the first key at or after `i` that occurs in `text`. */
  function FirstListedFrom(table: seq<(string, Action)>, text: string, i: nat): (r: Option<nat>)
    requires i <= |table|
    ensures r.Some? ==> i <= r.value < |table| && Contains(text, table[r.value].0)
    ensures r.Some? ==> forall k :: i <= k < r.value ==> !Contains(text, table[k].0)
    ensures r.None? <==> forall k :: i <= k < |table| ==> !Contains(text, table[k].0)
    decreases |table| - i
  {
    if i == |table| then None
    else if Contains(text, table[i].0) then Some(i)
    else FirstListedFrom(table, text, i + 1)
  }

  function ExtractAction(text: string): (r: Action)
    ensures (forall k :: 0 <= k < |ActionTable| ==> !Contains(Upper(text), ActionTable[k].0)) ==> r == Hold
  {
    match FirstListedFrom(ActionTable, Upper(text), 0)
    case Some(k) => ActionTable[k].1
    case None => Hold
  }

  /** What the table amounts to: four keyword tests in a fixed order. */
  function ActionByKeywords(u: string): Action {
    if Contains(u, "STRONG BUY") || Contains(u, "STRONG_BUY") then StrongBuy
    else if Contains(u, "BUY") then Buy
    else if Contains(u, "HOLD") then Hold
    else if Contains(u, "SELL") then Sell
    else Hold
  }

  /** Every emoji key contains the plain key listed just before it. */
  lemma EmojiKeysNested(u: string)
    ensures Contains(u, "🟢 STRONG BUY") ==> Contains(u, "STRONG BUY")
    ensures Contains(u, "🔵 BUY") ==> Contains(u, "BUY")
    ensures Contains(u, "⚪ HOLD") ==> Contains(u, "HOLD")
    ensures Contains(u, "🟠 SELL") ==> Contains(u, "SELL")
  {
    KeyAfterPrefix(u, "🟢 ", "STRONG BUY", "🟢 STRONG BUY");
    KeyAfterPrefix(u, "🔵 ", "BUY", "🔵 BUY");
    KeyAfterPrefix(u, "⚪ ", "HOLD", "⚪ HOLD");
    KeyAfterPrefix(u, "🟠 ", "SELL", "🟠 SELL");
  }

  /** A key that ends another key occurs wherever the longer one does. */
  lemma KeyAfterPrefix(u: string, pre: string, key: string, whole: string)
    requires whole == pre + key
    ensures Contains(u, whole) ==> Contains(u, key)
  {
    if Contains(u, whole) {
      ContainsSuffix(u, pre, key);
    }
  }

  /** Every STRONG SELL key contains SELL, which is listed before it. */
  lemma StrongSellKeysNested(u: string)
    ensures Contains(u, "STRONG SELL") ==> Contains(u, "SELL")
    ensures Contains(u, "STRONG_SELL") ==> Contains(u, "SELL")
    ensures Contains(u, "🔴 STRONG SELL") ==> Contains(u, "SELL")
  {
    KeyAfterPrefix(u, "STRONG ", "SELL", "STRONG SELL");
    KeyAfterPrefix(u, "STRONG_", "SELL", "STRONG_SELL");
    KeyAfterPrefix(u, "🔴 STRONG ", "SELL", "🔴 STRONG SELL");
  }

  /** The first key of the table found in `u`, by the keyword tests. */
  lemma FirstActionKey(u: string)
    ensures Contains(u, "STRONG BUY") ==> FirstListedFrom(ActionTable, u, 0) == Some(0)
    ensures !Contains(u, "STRONG BUY") && Contains(u, "STRONG_BUY") ==> FirstListedFrom(ActionTable, u, 0) == Some(1)
    ensures !Contains(u, "STRONG BUY") && !Contains(u, "STRONG_BUY") && Contains(u, "BUY") ==>
              FirstListedFrom(ActionTable, u, 0) == Some(3)
    ensures !Contains(u, "STRONG BUY") && !Contains(u, "STRONG_BUY") && !Contains(u, "BUY") && Contains(u, "HOLD") ==>
              FirstListedFrom(ActionTable, u, 0) == Some(5)
    ensures !Contains(u, "STRONG BUY") && !Contains(u, "STRONG_BUY") && !Contains(u, "BUY") && !Contains(u, "HOLD") && Contains(u, "SELL") ==>
              FirstListedFrom(ActionTable, u, 0) == Some(7)
    ensures !Contains(u, "STRONG BUY") && !Contains(u, "STRONG_BUY") && !Contains(u, "BUY") && !Contains(u, "HOLD") && !Contains(u, "SELL") ==>
              FirstListedFrom(ActionTable, u, 0) == None
  {
    EmojiKeysNested(u);
    StrongSellKeysNested(u);
    var t := ActionTable;
    assert t[0].0 == "STRONG BUY" && t[1].0 == "STRONG_BUY" && t[2].0 == "🟢 STRONG BUY";
    assert t[3].0 == "BUY" && t[4].0 == "🔵 BUY" && t[5].0 == "HOLD" && t[6].0 == "⚪ HOLD";
    assert t[7].0 == "SELL" && t[8].0 == "🟠 SELL" && t[9].0 == "STRONG SELL";
    assert t[10].0 == "STRONG_SELL" && t[11].0 == "🔴 STRONG SELL";
  }

  /** The twelve-entry table decides exactly as the four keyword tests do. */
  lemma ActionIsKeywordCascade(text: string)
    ensures ExtractAction(text) == ActionByKeywords(Upper(text))
  {
    var u := Upper(text);
    FirstActionKey(u);
    if Contains(u, "STRONG BUY") {
      ActionAt(u, 0, StrongBuy);
    } else if Contains(u, "STRONG_BUY") {
      ActionAt(u, 1, StrongBuy);
    } else if Contains(u, "BUY") {
      ActionAt(u, 3, Buy);
    } else if Contains(u, "HOLD") {
      ActionAt(u, 5, Hold);
    } else if Contains(u, "SELL") {
      ActionAt(u, 7, Sell);
    }
  }

  /** The table's entry `k` decides when the scan stops there. */
  lemma ActionAt(u: string, k: nat, a: Action)
    requires k < |ActionTable| && ActionTable[k].1 == a
    requires FirstListedFrom(ActionTable, u, 0) == Some(k)
    ensures match FirstListedFrom(ActionTable, u, 0) case Some(j) => ActionTable[j].1 == a case None => false
  {
  }

  /** The declared order makes STRONG_SELL unreachable. */
  lemma ActionNeverStrongSell(text: string)
    ensures ExtractAction(text) != StrongSell
  {
    ActionIsKeywordCascade(text);
  }

  /** The table with the three STRONG SELL keys moved ahead of the SELL
      keys they contain, so that every action can be reached. */
  const CorrectedActionTable: seq<(string, Action)> := [
    ("STRONG BUY", StrongBuy),
    ("STRONG_BUY", StrongBuy),
    ("🟢 STRONG BUY", StrongBuy),
    ("BUY", Buy),
    ("🔵 BUY", Buy),
    ("HOLD", Hold),
    ("⚪ HOLD", Hold),
    ("STRONG SELL", StrongSell),
    ("STRONG_SELL", StrongSell),
    ("🔴 STRONG SELL", StrongSell),
    ("SELL", Sell),
    ("🟠 SELL", Sell)
  ]

  /** The action the parser is evidently meant to read: the first key of the corrected table. */
  function ExtractActionCorrected(text: string): (r: Action)
    ensures (forall k :: 0 <= k < |CorrectedActionTable| ==> !Contains(Upper(text), CorrectedActionTable[k].0)) ==> r == Hold
  {
    match FirstListedFrom(CorrectedActionTable, Upper(text), 0)
    case Some(k) => CorrectedActionTable[k].1
    case None => Hold
  }

  /** The corrected table as keyword tests: STRONG SELL is tested before SELL. */
  function CorrectedActionByKeywords(u: string): Action {
    if Contains(u, "STRONG BUY") || Contains(u, "STRONG_BUY") then StrongBuy
    else if Contains(u, "BUY") then Buy
    else if Contains(u, "HOLD") then Hold
    else if Contains(u, "STRONG SELL") || Contains(u, "STRONG_SELL") then StrongSell
    else if Contains(u, "SELL") then Sell
    else Hold
  }

  /** None of the keys the table lists before the sell keys occurs in `u`. */
  predicate NoBuyOrHold(u: string) {
    !Contains(u, "STRONG BUY") && !Contains(u, "STRONG_BUY") && !Contains(u, "BUY") && !Contains(u, "HOLD")
  }

  lemma RedStrongSellNested(u: string)
    ensures Contains(u, "🔴 STRONG SELL") ==> Contains(u, "STRONG SELL")
  {
    KeyAfterPrefix(u, "🔴 ", "STRONG SELL", "🔴 STRONG SELL");
  }

  /** The first key of the corrected table found in `u`, by the keyword tests. */
  lemma FirstCorrectedActionKey(u: string)
    ensures Contains(u, "STRONG BUY") ==> FirstListedFrom(CorrectedActionTable, u, 0) == Some(0)
    ensures !Contains(u, "STRONG BUY") && Contains(u, "STRONG_BUY") ==> FirstListedFrom(CorrectedActionTable, u, 0) == Some(1)
    ensures !Contains(u, "STRONG BUY") && !Contains(u, "STRONG_BUY") && Contains(u, "BUY") ==>
              FirstListedFrom(CorrectedActionTable, u, 0) == Some(3)
    ensures !Contains(u, "STRONG BUY") && !Contains(u, "STRONG_BUY") && !Contains(u, "BUY") && Contains(u, "HOLD") ==>
              FirstListedFrom(CorrectedActionTable, u, 0) == Some(5)
    ensures NoBuyOrHold(u) && Contains(u, "STRONG SELL") ==> FirstListedFrom(CorrectedActionTable, u, 0) == Some(7)
    ensures NoBuyOrHold(u) && !Contains(u, "STRONG SELL") && Contains(u, "STRONG_SELL") ==>
              FirstListedFrom(CorrectedActionTable, u, 0) == Some(8)
    ensures NoBuyOrHold(u) && !Contains(u, "STRONG SELL") && !Contains(u, "STRONG_SELL") && Contains(u, "SELL") ==>
              FirstListedFrom(CorrectedActionTable, u, 0) == Some(10)
    ensures NoBuyOrHold(u) && !Contains(u, "SELL") ==> FirstListedFrom(CorrectedActionTable, u, 0) == None
  {
    EmojiKeysNested(u);
    StrongSellKeysNested(u);
    RedStrongSellNested(u);
    var t := CorrectedActionTable;
    assert t[0].0 == "STRONG BUY" && t[1].0 == "STRONG_BUY" && t[2].0 == "🟢 STRONG BUY";
    assert t[3].0 == "BUY" && t[4].0 == "🔵 BUY" && t[5].0 == "HOLD" && t[6].0 == "⚪ HOLD";
    assert t[7].0 == "STRONG SELL" && t[8].0 == "STRONG_SELL" && t[9].0 == "🔴 STRONG SELL";
    assert t[10].0 == "SELL" && t[11].0 == "🟠 SELL";
  }

  lemma CorrectedActionIsKeywordCascade(text: string)
    ensures ExtractActionCorrected(text) == CorrectedActionByKeywords(Upper(text))
  {
    var u := Upper(text);
    FirstCorrectedActionKey(u);
    if Contains(u, "STRONG BUY") {
      CorrectedActionAt(u, 0, StrongBuy);
    } else if Contains(u, "STRONG_BUY") {
      CorrectedActionAt(u, 1, StrongBuy);
    } else if Contains(u, "BUY") {
      CorrectedActionAt(u, 3, Buy);
    } else if Contains(u, "HOLD") {
      CorrectedActionAt(u, 5, Hold);
    } else if Contains(u, "STRONG SELL") {
      CorrectedActionAt(u, 7, StrongSell);
    } else if Contains(u, "STRONG_SELL") {
      CorrectedActionAt(u, 8, StrongSell);
    } else if Contains(u, "SELL") {
      CorrectedActionAt(u, 10, Sell);
    }
  }

  lemma CorrectedActionAt(u: string, k: nat, a: Action)
    requires k < |CorrectedActionTable| && CorrectedActionTable[k].1 == a
    requires FirstListedFrom(CorrectedActionTable, u, 0) == Some(k)
    ensures match FirstListedFrom(CorrectedActionTable, u, 0) case Some(j) => CorrectedActionTable[j].1 == a case None => false
  {
  }

  /** The correction changes nothing unless the text names STRONG SELL. */
  lemma CorrectionOnlyTouchesStrongSell(text: string)
    ensures !Contains(Upper(text), "STRONG SELL") && !Contains(Upper(text), "STRONG_SELL") ==>
              ExtractActionCorrected(text) == ExtractAction(text)
    ensures ExtractActionCorrected(text) != StrongSell ==> ExtractActionCorrected(text) == ExtractAction(text)
  {
    ActionIsKeywordCascade(text);
    CorrectedActionIsKeywordCascade(text);
  }

  /** "STRONG SELL" on its own reads as SELL as written, and as STRONG_SELL once corrected. */
  lemma StrongSellReadAsSell()
    ensures ExtractAction("STRONG SELL") == Sell
    ensures ExtractActionCorrected("STRONG SELL") == StrongSell
  {
    var u := "STRONG SELL";
    assert Upper(u) == u;
    StrongSellKeywords(u);
    ActionIsKeywordCascade(u);
    CorrectedActionIsKeywordCascade(u);
  }

  /** The keyword tests on the text `STRONG SELL`, as written and corrected. */
  lemma StrongSellKeywords(u: string)
    requires u == "STRONG SELL"
    ensures ActionByKeywords(u) == Sell
    ensures CorrectedActionByKeywords(u) == StrongSell
  {
    assert 'B' !in u && 'H' !in u;
    NotContainsMissingChar(u, "STRONG BUY", 'B');
    NotContainsMissingChar(u, "STRONG_BUY", 'B');
    NotContainsMissingChar(u, "BUY", 'B');
    NotContainsMissingChar(u, "HOLD", 'H');
    assert Contains(u, u);
    StrongSellKeysNested(u);
  }

  // ------------------------------------------------------------------
  // stage 3: position size

  const PortfolioWord: string := "포트폴리오"
  const WeightWord: string := "비중"

  function Min(a: nat, b: nat): nat {
    if a <= b then a else b
  }

  /** Anchored `포트폴리오의?\s*(\d+)\s*%`. */
  function PortfolioPercentAt(text: string, i: nat): Option<nat> {
    if LiteralAt(text, i, PortfolioWord) then
      var j := i + |PortfolioWord|;
      var j' := if j < |text| && text[j] == '의' then j + 1 else j;
      match DigitsAt(text, SkipWhile(text, j', IsSpace))
      case Some(n) =>
        var k := SkipWhile(text, n.end, IsSpace);
        if k < |text| && text[k] == '%' then Some(n.value) else None
      case None => None
    else None
  }

  /** Anchored `(\d+)%\s*비중`. */
  function WeightPercentAt(text: string, i: nat): Option<nat> {
    if i <= |text| then
      match DigitsAt(text, i)
      case Some(n) =>
        if n.end < |text| && text[n.end] == '%' && LiteralAt(text, SkipWhile(text, n.end + 1, IsSpace), WeightWord)
        then Some(n.value) else None
      case None => None
    else None
  }

  function PortfolioMatcher(): Matcher<nat> {
    (text: string, i: nat) => PortfolioPercentAt(text, i)
  }

  function WeightMatcher(): Matcher<nat> {
    (text: string, i: nat) => WeightPercentAt(text, i)
  }

  /** The portfolio pattern wins over the weight pattern; either is capped at 20; 10 when neither matches. */
  function ExtractPositionSize(text: string): (r: nat)
    ensures r <= PositionCap
    ensures forall j :: IsLeftmost(PortfolioMatcher(), text, j) ==> r == Min(PortfolioMatcher()(text, j).value, PositionCap)
    ensures (forall j :: 0 <= j <= |text| ==> PortfolioMatcher()(text, j).None?) ==>
              forall j :: IsLeftmost(WeightMatcher(), text, j) ==> r == Min(WeightMatcher()(text, j).value, PositionCap)
    ensures (forall j :: 0 <= j <= |text| ==> PortfolioMatcher()(text, j).None? && WeightMatcher()(text, j).None?) ==>
              r == DefaultPosition
  {
    match Search(PortfolioMatcher(), text)
    case Some(v) => Min(v, PositionCap)
    case None =>
      match Search(WeightMatcher(), text)
      case Some(v) => Min(v, PositionCap)
      case None => DefaultPosition
  }

  // ------------------------------------------------------------------
  // the section patterns

  datatype Horizon = Immediate | ShortTerm | LongTerm
  datatype Scenario = Bullish | Bearish

  /** The section patterns, which use lazy `.+?` captures ended by
      look-aheads, as first-match oracles: each returns what its pattern
      captures in the given text, or nothing.
      - `summary`: group 1 of the `## 📊 Executive Summary` pattern;
      - `debates`: every group 1 of the `**쟁점 n**` pattern (`re.findall`);
      - `strategy`: group 1 of the `### 즉시 행동` / `### 단기 전략` / `### 장기 전략` pattern;
      - `trigger`: groups 1 and 2 of the `### 상승 시나리오` / `### 하락 시나리오` pattern;
      - `reviewSection`: group 1 of the `## 🔮 … 재검토 항목` pattern;
      - `reviewItems`: every group 1 of `\d+\.\s*(.+)` in that section (`re.finditer`). */
  datatype SectionMatchers = SectionMatchers(
    summary: string -> Option<string>,
    debates: string -> seq<string>,
    strategy: (Horizon, string) -> Option<string>,
    trigger: (Scenario, string) -> Option<(string, string)>,
    reviewSection: string -> Option<string>,
    reviewItems: string -> seq<string>)

  /** `s.strip()[:n]`. */
  function Clip(s: string, n: nat): (r: string)
    ensures |r| == Min(|Strip(s)|, n)
    ensures r <= Strip(s)
    ensures |Strip(s)| <= n ==> r == Strip(s)
  {
    Take(Strip(s), n)
  }

  // ------------------------------------------------------------------
  // stage 4: executive summary

  predicate IsSentenceEnd(c: char) {
    c == '.' || c == '!' || c == '?'
  }

  /** Sum of the lengths of `xs`. */
  function TotalLength(xs: seq<string>): nat
    decreases |xs|
  {
    if |xs| == 0 then 0 else |xs[0]| + TotalLength(xs[1..])
  }

  lemma {:induction false} TotalLengthPrefix(xs: seq<string>, k: nat)
    requires k <= |xs|
    ensures TotalLength(xs[..k]) <= TotalLength(xs)
    decreases k
  {
    if k > 0 {
      assert xs[..k][1..] == xs[1..][..k - 1];
      TotalLengthPrefix(xs[1..], k - 1);
    }
  }

  lemma {:induction false} JoinLength(sep: string, xs: seq<string>)
    requires |xs| >= 1
    ensures |Join(sep, xs)| == TotalLength(xs) + |sep| * (|xs| - 1)
    decreases |xs|
  {
    if |xs| > 1 {
      JoinLength(sep, xs[1..]);
    } else {
      assert xs[1..] == [];
    }
  }

  /** A separator match `[.!?]\s+` starts at `k`. */
  predicate SeparatorAt(s: string, k: nat) {
    k + 1 < |s| && IsSentenceEnd(s[k]) && IsSpace(s[k + 1])
  }

  /** `re.split(r'[.!?]\s+', s)` from index `start`, scanning at `i`. */
  function SplitSentencesFrom(s: string, start: nat, i: nat): (r: seq<string>)
    requires start <= i <= |s|
    ensures |r| >= 1
    ensures TotalLength(r) <= |s| - start
    decreases |s| - i
  {
    if i + 1 >= |s| then [s[start..]]
    else if SeparatorAt(s, i) then
      var e := SkipWhile(s, i + 1, IsSpace);
      var rest := SplitSentencesFrom(s, e, e);
      assert ([s[start..i]] + rest)[1..] == rest;
      [s[start..i]] + rest
    else SplitSentencesFrom(s, start, i + 1)
  }

  /** The separators the split removes, in order: each is a sentence end
      with the whole run of whitespace after it. */
  function SeparatorsFrom(s: string, start: nat, i: nat): seq<string>
    requires start <= i <= |s|
    decreases |s| - i
  {
    if i + 1 >= |s| then []
    else if SeparatorAt(s, i) then
      var e := SkipWhile(s, i + 1, IsSpace);
      [s[i..e]] + SeparatorsFrom(s, e, e)
    else SeparatorsFrom(s, start, i + 1)
  }

  /** `frags[0] + seps[0] + frags[1] + …`: the fragments with the separators put back. */
  function Weave(frags: seq<string>, seps: seq<string>): string
    requires |frags| == |seps| + 1
    decreases |seps|
  {
    if |seps| == 0 then frags[0] else frags[0] + seps[0] + Weave(frags[1..], seps[1..])
  }

  /** One sentence end followed by at least one whitespace character. */
  predicate IsSeparator(p: string) {
    |p| >= 2 && IsSentenceEnd(p[0]) && forall k :: 1 <= k < |p| ==> IsSpace(p[k])
  }

  predicate NoSeparatorIn(f: string) {
    forall k :: 0 <= k < |f| - 1 ==> !(IsSentenceEnd(f[k]) && IsSpace(f[k + 1]))
  }

  /** Putting the removed separators back between the fragments restores the text. */
  lemma {:induction false} SplitRejoins(s: string, start: nat, i: nat)
    requires start <= i <= |s|
    ensures |SeparatorsFrom(s, start, i)| + 1 == |SplitSentencesFrom(s, start, i)|
    ensures Weave(SplitSentencesFrom(s, start, i), SeparatorsFrom(s, start, i)) == s[start..]
    decreases |s| - i
  {
    if i + 1 >= |s| {
    } else if SeparatorAt(s, i) {
      var e := SkipWhile(s, i + 1, IsSpace);
      SplitRejoins(s, e, e);
      var rest := SplitSentencesFrom(s, e, e);
      var restSeps := SeparatorsFrom(s, e, e);
      var frags := [s[start..i]] + rest;
      var seps := [s[i..e]] + restSeps;
      assert frags[1..] == rest && seps[1..] == restSeps;
      calc {
        Weave(frags, seps);
        s[start..i] + s[i..e] + Weave(rest, restSeps);
        s[start..i] + s[i..e] + s[e..];
        { assert s[start..] == s[start..i] + s[i..e] + s[e..]; }
        s[start..];
      }
    } else {
      SplitRejoins(s, start, i + 1);
    }
  }

  /** The first fragment is the text from `start` up to some point. */
  lemma {:induction false} FirstFragmentIsPrefix(s: string, start: nat, i: nat)
    requires start <= i <= |s|
    ensures start + |SplitSentencesFrom(s, start, i)[0]| <= |s|
    ensures SplitSentencesFrom(s, start, i)[0] == s[start..start + |SplitSentencesFrom(s, start, i)[0]|]
    decreases |s| - i
  {
    if i + 1 < |s| && !SeparatorAt(s, i) {
      FirstFragmentIsPrefix(s, start, i + 1);
    }
  }

  /** A stretch of the text in which no separator starts holds none. */
  lemma FragmentClean(s: string, start: nat, j: nat)
    requires start <= j <= |s|
    requires forall k :: start <= k < j - 1 ==> !SeparatorAt(s, k)
    ensures NoSeparatorIn(s[start..j])
  {
    var f := s[start..j];
    forall k | 0 <= k < |f| - 1 ensures !(IsSentenceEnd(f[k]) && IsSpace(f[k + 1])) {
      assert f[k] == s[start + k] && f[k + 1] == s[start + k + 1];
      assert !SeparatorAt(s, start + k);
    }
  }

  /** Each removed separator is a sentence end with whitespace after it, no
      fragment holds a separator, and no fragment after a separator starts
      with whitespace: the separators are the leftmost, longest matches. */
  lemma {:induction false} SplitPiecesWellFormed(s: string, start: nat, i: nat)
    requires start <= i <= |s|
    requires forall k :: start <= k < i ==> !SeparatorAt(s, k)
    ensures forall k :: 0 <= k < |SeparatorsFrom(s, start, i)| ==> IsSeparator(SeparatorsFrom(s, start, i)[k])
    ensures forall k :: 0 <= k < |SplitSentencesFrom(s, start, i)| ==> NoSeparatorIn(SplitSentencesFrom(s, start, i)[k])
    ensures forall k :: 1 <= k < |SplitSentencesFrom(s, start, i)| ==>
              SplitSentencesFrom(s, start, i)[k] == [] || !IsSpace(SplitSentencesFrom(s, start, i)[k][0])
    decreases |s| - i
  {
    var frags := SplitSentencesFrom(s, start, i);
    var seps := SeparatorsFrom(s, start, i);
    if i + 1 >= |s| {
      FragmentClean(s, start, |s|);
    } else if SeparatorAt(s, i) {
      var e := SkipWhile(s, i + 1, IsSpace);
      SplitPiecesWellFormed(s, e, e);
      var rest := SplitSentencesFrom(s, e, e);
      var restSeps := SeparatorsFrom(s, e, e);
      FragmentClean(s, start, i);
      assert IsSeparator(s[i..e]);
      forall k | 0 <= k < |seps| ensures IsSeparator(seps[k]) {
        if k > 0 { assert seps[k] == restSeps[k - 1]; }
      }
      forall k | 0 <= k < |frags| ensures NoSeparatorIn(frags[k]) {
        if k > 0 { assert frags[k] == rest[k - 1]; }
      }
      forall k | 1 <= k < |frags| ensures frags[k] == [] || !IsSpace(frags[k][0]) {
        assert frags[k] == rest[k - 1];
        if k == 1 && rest[0] != [] {
          FirstFragmentIsPrefix(s, e, e);
          assert rest[0][0] == s[e];
        }
      }
    } else {
      SplitPiecesWellFormed(s, start, i + 1);
    }
  }

  /** The separators `re.split(r'[.!?]\s+', s)` removes. */
  function Separators(s: string): seq<string> {
    SeparatorsFrom(s, 0, 0)
  }

  /** The fragments of `re.split(r'[.!?]\s+', s)`. */
  function SplitSentences(s: string): (r: seq<string>)
    ensures |r| >= 1
    ensures TotalLength(r) <= |s|
  {
    SplitSentencesFrom(s, 0, 0)
  }

  /** With the removed separators put back, the fragments restore `s`;
      every separator is a sentence end with all the whitespace after it,
      and no fragment holds one. */
  lemma SplitSentencesRejoin(s: string)
    ensures |Separators(s)| + 1 == |SplitSentences(s)| && Weave(SplitSentences(s), Separators(s)) == s
    ensures forall k :: 0 <= k < |Separators(s)| ==> IsSeparator(Separators(s)[k])
    ensures forall k :: 0 <= k < |SplitSentences(s)| ==> NoSeparatorIn(SplitSentences(s)[k])
    ensures forall k :: 1 <= k < |SplitSentences(s)| ==> SplitSentences(s)[k] == [] || !IsSpace(SplitSentences(s)[k][0])
  {
    SplitRejoins(s, 0, 0);
    SplitPiecesWellFormed(s, 0, 0);
    assert s[0..] == s;
  }

  /** No sentence separator after `i`: the rest is one fragment. */
  lemma {:induction false} NoSeparatorOneFragment(s: string, start: nat, i: nat)
    requires start <= i <= |s|
    requires forall k :: i <= k < |s| - 1 ==> !(IsSentenceEnd(s[k]) && IsSpace(s[k + 1]))
    ensures SplitSentencesFrom(s, start, i) == [s[start..]]
    decreases |s| - i
  {
    if i + 1 < |s| {
      NoSeparatorOneFragment(s, start, i + 1);
    }
  }

  /** The summary when the section is missing: the first three fragments of
      the first 1000 characters, joined by ". ", with a final ".". */
  function SummaryFallback(text: string): (r: string)
    ensures |r| >= 1 && r[|r| - 1] == '.'
    ensures |r| <= SummaryWindow + 5
  {
    var parts := Take(SplitSentences(Take(text, SummaryWindow)), SummarySentences);
    JoinLength(". ", parts);
    TotalLengthPrefix(SplitSentences(Take(text, SummaryWindow)), |parts|);
    Join(". ", parts) + "."
  }

  /** Text with no sentence separator in its first 1000 characters summarises as those characters plus ".". */
  lemma SummaryFallbackOneSentence(text: string)
    requires forall k :: 0 <= k < |Take(text, SummaryWindow)| - 1 ==>
               !(IsSentenceEnd(Take(text, SummaryWindow)[k]) && IsSpace(Take(text, SummaryWindow)[k + 1]))
    ensures SummaryFallback(text) == Take(text, SummaryWindow) + "."
  {
    var t := Take(text, SummaryWindow);
    NoSeparatorOneFragment(t, 0, 0);
    assert t[0..] == t;
  }

  /** Joining with a separator is weaving with copies of it. */
  lemma {:induction false} JoinIsWeave(sep: string, frags: seq<string>, seps: seq<string>)
    requires |frags| == |seps| + 1
    requires forall k :: 0 <= k < |seps| ==> seps[k] == sep
    ensures Join(sep, frags) == Weave(frags, seps)
    decreases |seps|
  {
    if |seps| > 0 {
      JoinIsWeave(sep, frags[1..], seps[1..]);
    }
  }

  /** When the first 1000 characters split into at most three fragments and
      every separator is exactly ". ", the fallback summary is those
      characters with a final ".". */
  lemma SummaryFallbackRejoins(text: string)
    requires |SplitSentences(Take(text, SummaryWindow))| <= SummarySentences
    requires forall k :: 0 <= k < |Separators(Take(text, SummaryWindow))| ==> Separators(Take(text, SummaryWindow))[k] == ". "
    ensures SummaryFallback(text) == Take(text, SummaryWindow) + "."
  {
    var t := Take(text, SummaryWindow);
    var frags := SplitSentences(t);
    SplitSentencesRejoin(t);
    assert Take(frags, SummarySentences) == frags;
    JoinIsWeave(". ", frags, Separators(t));
  }

  function ExtractExecutiveSummary(text: string, m: SectionMatchers): (r: string)
    ensures m.summary(text).Some? ==> r == Clip(m.summary(text).value, SummaryCap)
    ensures m.summary(text).Some? ==> |r| <= SummaryCap && r <= Strip(m.summary(text).value)
    ensures m.summary(text).None? ==> r == SummaryFallback(text)
    ensures |r| <= SummaryWindow + 5
  {
    match m.summary(text)
    case Some(g) => Clip(g, SummaryCap)
    case None => SummaryFallback(text)
  }

  // ------------------------------------------------------------------
  // stages 5-8: debates, strategies, triggers, review items

  /** At most three debate points, each stripped and cut to 300 characters, in the order found. */
  function ExtractKeyDebates(text: string, m: SectionMatchers): (r: seq<string>)
    ensures |r| == Min(|m.debates(text)|, DebateLimit)
    ensures forall k :: 0 <= k < |r| ==> r[k] == Clip(m.debates(text)[k], DebateCap)
    ensures forall k :: 0 <= k < |r| ==> |r[k]| <= DebateCap && r[k] <= Strip(m.debates(text)[k])
  {
    var found := Take(m.debates(text), DebateLimit);
    seq(|found|, k requires 0 <= k < |found| => Clip(found[k], DebateCap))
  }

  function ExtractStrategy(text: string, m: SectionMatchers, h: Horizon): (r: Option<string>)
    ensures r.Some? <==> m.strategy(h, text).Some?
    ensures r.Some? ==> r.value == Clip(m.strategy(h, text).value, FieldCap)
  {
    match m.strategy(h, text)
    case Some(g) => Some(Clip(g, FieldCap))
    case None => None
  }

  function ExtractTrigger(text: string, m: SectionMatchers, sc: Scenario): (r: Option<KeyTrigger>)
    ensures r.Some? <==> m.trigger(sc, text).Some?
    ensures r.Some? ==> r.value.condition == Clip(m.trigger(sc, text).value.0, FieldCap)
    ensures r.Some? ==> r.value.action == Clip(m.trigger(sc, text).value.1, FieldCap)
  {
    match m.trigger(sc, text)
    case Some(g) => Some(KeyTrigger(Clip(g.0, FieldCap), Clip(g.1, FieldCap)))
    case None => None
  }

  /** The first three numbered items of the review section, each cut to 200; none when the section is missing. */
  function ExtractReviewItems(text: string, m: SectionMatchers): (r: seq<string>)
    ensures m.reviewSection(text).None? ==> r == []
    ensures m.reviewSection(text).Some? ==> |r| == Min(|m.reviewItems(m.reviewSection(text).value)|, ReviewLimit)
    ensures m.reviewSection(text).Some? ==>
              forall k :: 0 <= k < |r| ==> r[k] == Clip(m.reviewItems(m.reviewSection(text).value)[k], FieldCap)
    ensures forall k :: 0 <= k < |r| ==> |r[k]| <= FieldCap
  {
    match m.reviewSection(text)
    case Some(content) =>
      var items := m.reviewItems(content);
      var clipped := seq(|items|, k requires 0 <= k < |items| => Clip(items[k], FieldCap));
      Take(clipped, ReviewLimit)
    case None => []
  }

  // ------------------------------------------------------------------
  // the whole parse

  /** Every length cap and bound the stages promise. */
  predicate Capped(c: Conclusion) {
    && c.positionSize <= PositionCap
    && |c.executiveSummary| <= SummaryWindow + 5
    && |c.keyDebates| <= DebateLimit
    && (forall k :: 0 <= k < |c.keyDebates| ==> |c.keyDebates[k]| <= DebateCap)
    && (c.immediateAction.Some? ==> |c.immediateAction.value| <= FieldCap)
    && (c.shortTermStrategy.Some? ==> |c.shortTermStrategy.value| <= FieldCap)
    && (c.longTermStrategy.Some? ==> |c.longTermStrategy.value| <= FieldCap)
    && (c.bullishTrigger.Some? ==> |c.bullishTrigger.value.condition| <= FieldCap && |c.bullishTrigger.value.action| <= FieldCap)
    && (c.bearishTrigger.Some? ==> |c.bearishTrigger.value.condition| <= FieldCap && |c.bearishTrigger.value.action| <= FieldCap)
    && |c.nextReviewItems| <= ReviewLimit
    && (forall k :: 0 <= k < |c.nextReviewItems| ==> |c.nextReviewItems[k]| <= FieldCap)
  }

  /** The record the stages build before schema validation, with the
      action read by `action`. */
  function Assemble(ticker: string, raw: string, confidence: real, m: SectionMatchers, action: Action): (r: Conclusion)
    ensures Capped(r)
    ensures r.ticker == ticker && r.rawConclusion == raw && r.confidence == confidence && r.action == action
  {
    Conclusion(
      ticker,
      ExtractScores(raw),
      action,
      ExtractPositionSize(raw),
      confidence,
      ExtractExecutiveSummary(raw, m),
      ExtractKeyDebates(raw, m),
      ExtractStrategy(raw, m, Immediate),
      ExtractStrategy(raw, m, ShortTerm),
      ExtractStrategy(raw, m, LongTerm),
      ExtractTrigger(raw, m, Bullish),
      ExtractTrigger(raw, m, Bearish),
      ExtractReviewItems(raw, m),
      raw)
  }

  /** The record the stages of `parse` build, as written. */
  function Extracted(ticker: string, raw: string, confidence: real, m: SectionMatchers): (r: Conclusion)
    ensures Capped(r)
    ensures r.ticker == ticker && r.rawConclusion == raw && r.confidence == confidence
    ensures r.scores == ExtractScores(raw) && r.action == ExtractAction(raw) && r.positionSize == ExtractPositionSize(raw)
  {
    Assemble(ticker, raw, confidence, m, ExtractAction(raw))
  }

  /** The same record with the action read by the corrected table. */
  function ExtractedCorrected(ticker: string, raw: string, confidence: real, m: SectionMatchers): (r: Conclusion)
    ensures Capped(r)
    ensures r.ticker == ticker && r.rawConclusion == raw && r.confidence == confidence
    ensures r.scores == ExtractScores(raw) && r.action == ExtractActionCorrected(raw) && r.positionSize == ExtractPositionSize(raw)
  {
    Assemble(ticker, raw, confidence, m, ExtractActionCorrected(raw))
  }

  const ParseFailedSummary: string := "파싱 실패"

  /** The safe record the catch-all builds. */
  function Neutral(ticker: string, raw: string, confidence: real): (r: Conclusion)
    ensures Capped(r)
  {
    Conclusion(
      ticker,
      Scores(5, 5, 5, 5, 5.0),
      Hold,
      5,
      confidence,
      ParseFailedSummary,
      [], None, None, None, None, None, [],
      raw)
  }

  /** The `try`/`except` of `parse` around a built record `c`: the record if
      the schema accepts it, else the neutral record if the schema accepts
      that, else the exception the catch-all raises. */
  function Validate(c: Conclusion, ticker: string, raw: string, confidence: real, accepts: Conclusion -> bool): (r: Result<Conclusion>)
    ensures r.Ok? ==> accepts(r.value)
    ensures r.Err? <==> !accepts(c) && !accepts(Neutral(ticker, raw, confidence))
    ensures r.Ok? ==> r.value == c || r.value == Neutral(ticker, raw, confidence)
    ensures accepts(c) ==> r == Ok(c)
  {
    if accepts(c) then Ok(c)
    else if accepts(Neutral(ticker, raw, confidence)) then Ok(Neutral(ticker, raw, confidence))
    else Err("schema rejected the fallback record")
  }

  /** `ConclusionParser.parse`. `accepts` is the schema's validation of a
      record: a rejected record raises inside the `try`, the catch-all
      builds the neutral record, and a rejection of that one escapes. */
  function Parse(ticker: string, raw: string, confidence: real, m: SectionMatchers,
                 accepts: Conclusion -> bool): (r: Result<Conclusion>)
    ensures r.Ok? ==> r.value.ticker == ticker && r.value.rawConclusion == raw && r.value.confidence == confidence
    ensures r.Ok? ==> Capped(r.value) && accepts(r.value)
    ensures r.Err? <==> !accepts(Extracted(ticker, raw, confidence, m)) && !accepts(Neutral(ticker, raw, confidence))
    ensures accepts(Extracted(ticker, raw, confidence, m)) ==>
              r.Ok? && r.value.action == ExtractAction(raw) && r.value.scores == ExtractScores(raw)
              && r.value.positionSize == ExtractPositionSize(raw)
    ensures !accepts(Extracted(ticker, raw, confidence, m)) && accepts(Neutral(ticker, raw, confidence)) ==>
              r == Ok(Neutral(ticker, raw, confidence))
  {
    Validate(Extracted(ticker, raw, confidence, m), ticker, raw, confidence, accepts)
  }

  /** `parse` with the corrected action table. */
  function ParseCorrected(ticker: string, raw: string, confidence: real, m: SectionMatchers,
                          accepts: Conclusion -> bool): (r: Result<Conclusion>)
    ensures r.Ok? ==> r.value.ticker == ticker && r.value.rawConclusion == raw && r.value.confidence == confidence
    ensures r.Ok? ==> Capped(r.value) && accepts(r.value)
    ensures r.Err? <==> !accepts(ExtractedCorrected(ticker, raw, confidence, m)) && !accepts(Neutral(ticker, raw, confidence))
    ensures accepts(ExtractedCorrected(ticker, raw, confidence, m)) ==>
              r.Ok? && r.value.action == ExtractActionCorrected(raw) && r.value.scores == ExtractScores(raw)
              && r.value.positionSize == ExtractPositionSize(raw)
  {
    Validate(ExtractedCorrected(ticker, raw, confidence, m), ticker, raw, confidence, accepts)
  }

  /** Away from a strong sell the corrected parse is the parse as written. */
  lemma ParseCorrectedAgrees(ticker: string, raw: string, confidence: real, m: SectionMatchers, accepts: Conclusion -> bool)
    requires ExtractActionCorrected(raw) != StrongSell
    ensures ParseCorrected(ticker, raw, confidence, m, accepts) == Parse(ticker, raw, confidence, m, accepts)
  {
    CorrectionOnlyTouchesStrongSell(raw);
    assert ExtractedCorrected(ticker, raw, confidence, m) == Extracted(ticker, raw, confidence, m);
  }

  // ------------------------------------------------------------------
  // text with nothing to extract

  predicate IsAsciiLetter(c: char) {
    ('a' <= c <= 'z') || ('A' <= c <= 'Z')
  }

  /** No character any concrete pattern could start with or needs. */
  predicate NoCues(text: string) {
    forall i :: 0 <= i < |text| ==>
      !IsAsciiLetter(text[i]) && !IsDigit(text[i]) && text[i] != OverallLabel[0] && text[i] != PortfolioWord[0]
  }

  lemma NoCuesNoScore(text: string, d: Dimension)
    requires NoCues(text)
    ensures ExtractScore(text, d) == DefaultScore
  {
    var w := ScoreLabel(d);
    forall j | 0 <= j <= |text| ensures ScoreMatcher(d)(text, j).None? {
      assert !CaselessAt(text, j, w) by {
        if j + |w| <= |text| {
          assert Lower(text[j..j + |w|])[0] == LowerChar(text[j]) == text[j];
          assert IsAsciiLetter(Lower(w)[0]);
        }
      }
    }
  }

  lemma NoCuesNoAction(text: string)
    requires NoCues(text)
    ensures ExtractAction(text) == Hold
    ensures ExtractActionCorrected(text) == Hold
  {
    var u := Upper(text);
    assert forall i :: 0 <= i < |u| ==> u[i] == text[i];
    assert 'B' !in u && 'H' !in u && 'S' !in u;
    NoKeywordsHold(u);
    ActionIsKeywordCascade(text);
    CorrectedActionIsKeywordCascade(text);
  }

  /** Upper-cased text without B, H or S names no action, as written or corrected. */
  lemma NoKeywordsHold(u: string)
    requires 'B' !in u && 'H' !in u && 'S' !in u
    ensures ActionByKeywords(u) == Hold && CorrectedActionByKeywords(u) == Hold
  {
    NotContainsMissingChar(u, "STRONG BUY", 'B');
    NotContainsMissingChar(u, "STRONG_BUY", 'B');
    NotContainsMissingChar(u, "BUY", 'B');
    NotContainsMissingChar(u, "HOLD", 'H');
    NotContainsMissingChar(u, "STRONG SELL", 'S');
    NotContainsMissingChar(u, "STRONG_SELL", 'S');
    NotContainsMissingChar(u, "SELL", 'S');
  }

  /** Text with no cue at all scores 5 on every axis, blends to 5.0, holds,
      and takes the default position size. */
  lemma NoCuesDefaults(text: string)
    requires NoCues(text)
    ensures ExtractScores(text) == Scores(5, 5, 5, 5, 5.0)
    ensures ExtractActionCorrected(text) == Hold
    ensures ExtractPositionSize(text) == DefaultPosition
  {
    NoCuesNoScore(text, FundamentalDim);
    NoCuesNoScore(text, RiskDim);
    NoCuesNoScore(text, GrowthDim);
    NoCuesNoScore(text, SentimentDim);
    NoCuesNoLabel(text);
    NoCuesNoAction(text);
  }

  /** Text with no cue matches neither the overall label nor either position pattern anywhere. */
  lemma NoCuesNoLabel(text: string)
    requires NoCues(text)
    ensures forall j :: 0 <= j <= |text| ==> OverallMatcher()(text, j).None?
    ensures forall j :: 0 <= j <= |text| ==> PortfolioMatcher()(text, j).None?
    ensures forall j :: 0 <= j <= |text| ==> WeightMatcher()(text, j).None?
  {
    forall j | 0 <= j <= |text|
      ensures OverallMatcher()(text, j).None?
      ensures PortfolioMatcher()(text, j).None?
      ensures WeightMatcher()(text, j).None?
    {
      assert !LiteralAt(text, j, OverallLabel) by {
        if j + |OverallLabel| <= |text| { assert text[j..j + |OverallLabel|][0] == text[j]; }
      }
      assert !LiteralAt(text, j, PortfolioWord) by {
        if j + |PortfolioWord| <= |text| { assert text[j..j + |PortfolioWord|][0] == text[j]; }
      }
    }
  }
}

=== FILE: debate_graph.dfy ===
/** The four-analyst debate pipeline (multiagent/graph.py): a blind
    opening round, a debate round that always runs, an optional third
    round, then a conclusion. Each node is a pure function of the state;
    the analysts' replies, the consensus measure, the language model and
    number formatting are parameters. */
module DebateGraph {
  import opened Wrappers
  import opened Strings
  import opened ConclusionParser

  // ------------------------------------------------------------------
  // personas

  datatype Persona = Fundamental | Risk | Growth | Sentiment

  /** The fixed order used by the peer lists, the fan-out and the transcript. */
  const Personas: seq<Persona> := [Fundamental, Risk, Growth, Sentiment]

  function Rank(p: Persona): (r: nat)
    ensures r < |Personas| && Personas[r] == p
  {
    match p
    case Fundamental => 0
    case Risk => 1
    case Growth => 2
    case Sentiment => 3
  }

  /** The tag that introduces a peer's statement in a debate prompt. */
  function PeerTag(p: Persona): string {
    match p
    case Fundamental => "[Fundamental Analyst] "
    case Risk => "[Risk Manager] "
    case Growth => "[Growth Hunter] "
    case Sentiment => "[Sentiment Analyst] "
  }

  /** The heading of a persona's block in the transcript. */
  function TranscriptTag(p: Persona): string {
    match p
    case Fundamental => "[Fundamental Analyst]"
    case Risk => "[Risk Manager]"
    case Growth => "[Growth Catalyst Hunter]"
    case Sentiment => "[Market Sentiment Analyst]"
  }

  /** One statement per persona. */
  datatype Statements = Statements(fundamental: string, risk: string, growth: string, sentiment: string) {
    function Of(p: Persona): string {
      match p
      case Fundamental => fundamental
      case Risk => risk
      case Growth => growth
      case Sentiment => sentiment
    }

    function With(p: Persona, x: string): (r: Statements)
      ensures r.Of(p) == x
      ensures forall q :: q != p ==> r.Of(q) == Of(q)
    {
      match p
      case Fundamental => this.(fundamental := x)
      case Risk => this.(risk := x)
      case Growth => this.(growth := x)
      case Sentiment => this.(sentiment := x)
    }
  }

  // ------------------------------------------------------------------
  // peer context

  /** `qs` with every `p` removed, order kept. */
  function Without(qs: seq<Persona>, p: Persona): (r: seq<Persona>)
    ensures forall q :: q in r <==> q in qs && q != p
    ensures |r| <= |qs|
  {
    if |qs| == 0 then []
    else if qs[0] == p then Without(qs[1..], p)
    else [qs[0]] + Without(qs[1..], p)
  }

  /** The three other personas, in the fixed order. */
  function Others(p: Persona): (r: seq<Persona>)
    ensures |r| == 3
    ensures p !in r
    ensures forall q :: q != p ==> q in r
    ensures forall i, j :: 0 <= i < j < |r| ==> Rank(r[i]) < Rank(r[j])
  {
    var r := Without(Personas, p);
    assert r == match p
      case Fundamental => [Risk, Growth, Sentiment]
      case Risk => [Fundamental, Growth, Sentiment]
      case Growth => [Fundamental, Risk, Sentiment]
      case Sentiment => [Fundamental, Risk, Growth];
    r
  }

  /** What a persona is shown of the previous round: every other persona's tagged statement. */
  function PeerContext(p: Persona, prev: Statements): (r: seq<string>)
    ensures |r| == 3
  {
    var o := Others(p);
    seq(3, i requires 0 <= i < 3 => PeerTag(o[i]) + prev.Of(o[i]))
  }

  /** The source's table of opponents, written out entry by entry. */
  function Opponents(p: Persona, prev: Statements): seq<string> {
    match p
    case Fundamental =>
      ["[Risk Manager] " + prev.risk, "[Growth Hunter] " + prev.growth, "[Sentiment Analyst] " + prev.sentiment]
    case Risk =>
      ["[Fundamental Analyst] " + prev.fundamental, "[Growth Hunter] " + prev.growth, "[Sentiment Analyst] " + prev.sentiment]
    case Growth =>
      ["[Fundamental Analyst] " + prev.fundamental, "[Risk Manager] " + prev.risk, "[Sentiment Analyst] " + prev.sentiment]
    case Sentiment =>
      ["[Fundamental Analyst] " + prev.fundamental, "[Risk Manager] " + prev.risk, "[Growth Hunter] " + prev.growth]
  }

  /** The table is exactly "the other three, tagged, in the fixed order". */
  lemma OpponentsAreOthers(p: Persona, prev: Statements)
    ensures Opponents(p, prev) == PeerContext(p, prev)
  {
  }

  /** A persona's own previous statement never reaches it: changing it changes nothing it is shown. */
  lemma NeverSeesOwnStatement(p: Persona, prev: Statements, x: string)
    ensures Opponents(p, prev.With(p, x)) == Opponents(p, prev)
  {
    OpponentsAreOthers(p, prev);
    OpponentsAreOthers(p, prev.With(p, x));
    var o := Others(p);
    assert forall i :: 0 <= i < 3 ==> prev.With(p, x).Of(o[i]) == prev.Of(o[i]);
  }

  /** Every other persona's statement is shown, under its tag. */
  lemma SeesEveryPeer(p: Persona, q: Persona, prev: Statements)
    requires q != p
    ensures PeerTag(q) + prev.Of(q) in Opponents(p, prev)
  {
    OpponentsAreOthers(p, prev);
    var o := Others(p);
    assert q in o;
    var i :| 0 <= i < 3 && o[i] == q;
    assert PeerContext(p, prev)[i] == PeerTag(q) + prev.Of(q);
  }

  // ------------------------------------------------------------------
  // fan-out and fan-in

  /** An analyst's reply: persona, ticker and peer list to a new statement. */
  type Rebut = (Persona, string, seq<string>) -> string

  function Reply(p: Persona, ticker: string, prev: Statements, rebut: Rebut): string {
    rebut(p, ticker, Opponents(p, prev))
  }

  /** The replies keyed by persona. */
  function FanOut(ticker: string, prev: Statements, rebut: Rebut): (r: map<Persona, string>)
    ensures forall p: Persona :: p in r
  {
    assert forall p: Persona :: p in Personas by {
      forall p: Persona ensures p in Personas {
        assert Personas[Rank(p)] == p;
      }
    }
    map p: Persona | p in Personas :: Reply(p, ticker, prev, rebut)
  }

  /** Collects the replies into a map in whatever order the workers finish;
      since each is stored under its persona, the map does not depend on
      that order. */
  method GatherReplies(order: seq<Persona>, ticker: string, prev: Statements, rebut: Rebut)
    returns (results: map<Persona, string>)
    requires forall p: Persona :: p in order
    ensures results == FanOut(ticker, prev, rebut)
  {
    results := map[];
    var i := 0;
    while i < |order|
      invariant 0 <= i <= |order|
      invariant forall p :: p in results <==> p in order[..i]
      invariant forall p :: p in results ==> results[p] == Reply(p, ticker, prev, rebut)
    {
      results := results[order[i] := Reply(order[i], ticker, prev, rebut)];
      i := i + 1;
    }
    assert order[..i] == order;
  }

  function AsStatements(m: map<Persona, string>): (r: Statements)
    requires forall p: Persona :: p in m
    ensures forall p :: r.Of(p) == m[p]
  {
    Statements(m[Fundamental], m[Risk], m[Growth], m[Sentiment])
  }

  // ------------------------------------------------------------------
  // state and nodes

  /** The consensus measure of one round; its formula is not part of this model. */
  datatype Metrics = Metrics(overall: real, actionConsensus: real, scoreVariance: real)

  datatype RoundRecord = RoundRecord(round: nat, replies: Statements)

  /** Everything the nodes need from outside: the analysts, the consensus
      measure, the language model, the conclusion prompt template, the
      section patterns, the schema check, and Python's `:.0%` / `:.1f`
      formatting of floats. */
  datatype Services = Services(
    rebut: Rebut,
    consensus: Statements -> Metrics,
    llm: (string, string) -> string,
    conclusionPrompt: string -> string,
    sections: SectionMatchers,
    accepts: Conclusion -> bool,
    percent: real -> string,
    oneDecimal: real -> string)

  datatype State = State(
    ticker: string,
    rounds: seq<RoundRecord>,
    latest: Statements,
    metrics: Option<Metrics>,
    shouldContinue: bool,
    transcript: string,
    conclusionText: string,
    structured: Option<Conclusion>,
    readable: string)

  /** The state the pipeline starts from: only the ticker is set. */
  function Initial(ticker: string): State {
    State(ticker, [], Statements("", "", "", ""), None, true, "", "", None, "")
  }

  /** Round numbers run 1, 2, ... in list order. */
  predicate Numbered(rounds: seq<RoundRecord>) {
    forall i :: 0 <= i < |rounds| ==> rounds[i].round == i + 1
  }

  /** The blind opening round: the four opening statements become round 1. */
  function Collect(s: State, opening: Statements, svc: Services): (r: State)
    ensures r.rounds == [RoundRecord(1, opening)] && Numbered(r.rounds)
    ensures r.latest == opening && r.metrics == Some(svc.consensus(opening)) && r.shouldContinue
    ensures r.ticker == s.ticker
  {
    s.(rounds := [RoundRecord(1, opening)], latest := opening,
       metrics := Some(svc.consensus(opening)), shouldContinue := true)
  }

  const ConsensusTarget: real := 0.85
  const MaxRounds: nat := 3

  /** Whether another round may follow round `n`. */
  function ContinueAfter(n: nat, overall: real): (r: bool)
    ensures !r <==> overall >= ConsensusTarget || n >= MaxRounds
  {
    if overall >= ConsensusTarget then false
    else if n >= MaxRounds then false
    else true
  }

  /** Debate round `n`: every persona answers the others' latest statements,
      and one record is appended. */
  function DebateRound(n: nat, s: State, svc: Services): (r: State)
    ensures |r.rounds| == |s.rounds| + 1
    ensures r.rounds[..|s.rounds|] == s.rounds
    ensures r.rounds[|s.rounds|] == RoundRecord(n, r.latest)
    ensures forall p :: r.latest.Of(p) == svc.rebut(p, s.ticker, Opponents(p, s.latest))
    ensures r.metrics == Some(svc.consensus(r.latest))
    ensures r.shouldContinue <==> svc.consensus(r.latest).overall < ConsensusTarget && n < MaxRounds
    ensures r.ticker == s.ticker
    ensures r.transcript == s.transcript && r.conclusionText == s.conclusionText
    ensures r.structured == s.structured && r.readable == s.readable
  {
    var replies := AsStatements(FanOut(s.ticker, s.latest, svc.rebut));
    var m := svc.consensus(replies);
    s.(rounds := s.rounds + [RoundRecord(n, replies)], latest := replies,
       metrics := Some(m), shouldContinue := ContinueAfter(n, m.overall))
  }

  // ------------------------------------------------------------------
  // routing

  function DebateNodeName(k: nat): string {
    "debate_round_" + NatToString(k)
  }

  /** The conditional edge's decision after a debate round. */
  function Route(s: State): (r: string)
    ensures s.shouldContinue && |s.rounds| < MaxRounds ==> r == DebateNodeName(|s.rounds|)
    ensures !(s.shouldContinue && |s.rounds| < MaxRounds) ==> r == "conclusion"
  {
    if s.shouldContinue && |s.rounds| < MaxRounds then DebateNodeName(|s.rounds|) else "conclusion"
  }

  datatype Node = CollectData | DebateRound1 | DebateRound2 | ConclusionStep | Finish

  /** Topological position; every edge goes down. */
  function Height(n: Node): nat {
    match n
    case CollectData => 4
    case DebateRound1 => 3
    case DebateRound2 => 2
    case ConclusionStep => 1
    case Finish => 0
  }

  /** The conditional edge's path map; any other name is not a node. */
  function PathMap(name: string): Option<Node> {
    if name == "debate_round_2" then Some(DebateRound2)
    else if name == "conclusion" then Some(ConclusionStep)
    else None
  }

  /** The wired edges, evaluated on the state the node produced. */
  function Next(n: Node, s: State): (r: Option<Node>)
    ensures r.Some? ==> Height(r.value) < Height(n)
  {
    match n
    case CollectData => Some(DebateRound1)
    case DebateRound1 => PathMap(Route(s))
    case DebateRound2 => Some(ConclusionStep)
    case ConclusionStep => Some(Finish)
    case Finish => None
  }

  /** After the first debate round (two records) the route always names a node. */
  lemma RouteAfterFirstDebate(s: State)
    requires |s.rounds| == 2
    ensures Next(DebateRound1, s) == Some(if s.shouldContinue then DebateRound2 else ConclusionStep)
  {
    assert NatToString(2) == "2";
  }

  // ------------------------------------------------------------------
  // the conclusion node

  const NoContentMessage: string := "본문이 없어 요약할 수 없습니다."
  const ContentWindow: nat := 8000

  /** `AgentToolkit.summarize`: an empty body gets a fixed reply and the model
      is not consulted; otherwise the model answers the instruction on the
      first 8000 characters. */
  function Summarize(content: string, instruction: string, llm: (string, string) -> string): (r: string)
    ensures content == [] ==> r == NoContentMessage
    ensures content != [] ==> r == llm(instruction, Take(content, ContentWindow))
  {
    if content == [] then NoContentMessage
    else llm(instruction, Take(content, ContentWindow))
  }

  /** The conclusion request as the node writes it: the prompt holding the
      transcript goes in as the instruction and the body is empty. */
  function ConclusionTextAsWritten(transcript: string, svc: Services): string {
    Summarize("", svc.conclusionPrompt(transcript), svc.llm)
  }

  /** As written, the model never sees the debate: every transcript gets the same fixed reply. */
  lemma AsWrittenIgnoresDebate(t1: string, t2: string, svc: Services)
    ensures ConclusionTextAsWritten(t1, svc) == ConclusionTextAsWritten(t2, svc) == NoContentMessage
  {
  }

  lemma NoContentMessageHasNoCues()
    ensures NoCues(NoContentMessage)
  {
    var m := NoContentMessage;
    assert m == ['본', '문', '이', ' ', '없', '어', ' ', '요', '약', '할', ' ', '수', ' ', '없', '습', '니', '다', '.'];
  }

  /** ... so every debate concludes HOLD with all scores 5 and the default position. */
  lemma AsWrittenConclusionIsDefault(transcript: string, svc: Services)
    ensures ExtractScores(ConclusionTextAsWritten(transcript, svc)) == Scores(5, 5, 5, 5, 5.0)
    ensures ExtractAction(ConclusionTextAsWritten(transcript, svc)) == Hold
    ensures ExtractActionCorrected(ConclusionTextAsWritten(transcript, svc)) == Hold
    ensures ExtractPositionSize(ConclusionTextAsWritten(transcript, svc)) == DefaultPosition
  {
    NoContentMessageHasNoCues();
    NoCuesDefaults(NoContentMessage);
    NoCuesNoAction(NoContentMessage);
  }

  /** The conclusion request with the transcript as the body, as the prompt intends. */
  function ConclusionText(transcript: string, svc: Services): string {
    Summarize(transcript, svc.conclusionPrompt(transcript), svc.llm)
  }

  /** With the transcript as the body, the model is consulted whenever a round took place. */
  lemma ConclusionTextConsultsModel(rounds: seq<RoundRecord>, svc: Services)
    requires |rounds| >= 1
    ensures ConclusionText(FormatRounds(rounds), svc) ==
            svc.llm(svc.conclusionPrompt(FormatRounds(rounds)), Take(FormatRounds(rounds), ContentWindow))
  {
    FormatRoundsNonEmpty(rounds);
  }

  /** The parser's confidence: the latest overall consensus, 0.5 without metrics. */
  function ConfidenceOf(metrics: Option<Metrics>): (r: real)
    ensures metrics.Some? ==> r == metrics.value.overall
    ensures metrics.None? ==> r == 0.5
  {
    match metrics
    case Some(m) => m.overall
    case None => 0.5
  }

  /** The node's updates once the parser has answered: the conclusion and
      its readable form, or no structured conclusion when `parse` raised. */
  function Record(s: State, transcript: string, text: string, parsed: Result<Conclusion>, svc: Services): (r: State)
    ensures r.rounds == s.rounds && r.ticker == s.ticker && r.metrics == s.metrics
    ensures r.transcript == transcript && r.conclusionText == text
    ensures r.structured.Some? <==> parsed.Ok?
    ensures parsed.Ok? ==> r.structured.value == parsed.value && r.readable == FormatReadable(parsed.value, svc)
  {
    match parsed
    case Ok(c) =>
      s.(transcript := transcript, conclusionText := text, structured := Some(c), readable := FormatReadable(c, svc))
    case Err(_) =>
      s.(transcript := transcript, conclusionText := text, structured := None)
  }

  /** The schema lets a conclusion of the fixed reply through: the
      extracted record or, failing that, the neutral one. */
  predicate FixedReplyAdmitted(ticker: string, confidence: real, svc: Services) {
    || svc.accepts(Extracted(ticker, NoContentMessage, confidence, svc.sections))
    || svc.accepts(Neutral(ticker, NoContentMessage, confidence))
  }

  /** `conclusion_node` as written: the model answers the fixed reply, so a
      conclusion, when the schema lets one through, is HOLD with every score 5. */
  function Conclude(s: State, svc: Services): (r: State)
    ensures r.rounds == s.rounds && r.ticker == s.ticker && r.metrics == s.metrics
    ensures r.transcript == FormatRounds(s.rounds)
    ensures r.conclusionText == NoContentMessage
    ensures r.structured.Some? <==> FixedReplyAdmitted(s.ticker, ConfidenceOf(s.metrics), svc)
    ensures r.structured.Some? ==>
              && svc.accepts(r.structured.value)
              && r.structured.value.action == Hold
              && r.structured.value.scores == Scores(5, 5, 5, 5, 5.0)
              && r.structured.value.confidence == ConfidenceOf(s.metrics)
              && r.structured.value.ticker == s.ticker
              && r.structured.value.rawConclusion == NoContentMessage
              && r.readable == FormatReadable(r.structured.value, svc)
  {
    var transcript := FormatRounds(s.rounds);
    var text := ConclusionTextAsWritten(transcript, svc);
    AsWrittenIgnoresDebate(transcript, "", svc);
    AsWrittenConclusionIsDefault(transcript, svc);
    var parsed := Parse(s.ticker, text, ConfidenceOf(s.metrics), svc.sections, svc.accepts);
    assert parsed.Ok? <==> FixedReplyAdmitted(s.ticker, ConfidenceOf(s.metrics), svc);
    assert parsed.Ok? ==> parsed.value.action == Hold && parsed.value.scores == Scores(5, 5, 5, 5, 5.0);
    Record(s, transcript, text, parsed, svc)
  }

  /** As written, two states with the same ticker and metrics conclude alike,
      whatever their debates said. */
  lemma ConcludeIgnoresRounds(s1: State, s2: State, svc: Services)
    requires s1.ticker == s2.ticker && s1.metrics == s2.metrics
    ensures Conclude(s1, svc).structured == Conclude(s2, svc).structured
    ensures Conclude(s1, svc).conclusionText == Conclude(s2, svc).conclusionText
  {
    AsWrittenIgnoresDebate(FormatRounds(s1.rounds), FormatRounds(s2.rounds), svc);
  }

  /** `conclusion_node` with the transcript as the body: the model sees the
      debate, and the corrected parser reads its answer. */
  function ConcludeCorrected(s: State, svc: Services): (r: State)
    ensures r.rounds == s.rounds && r.ticker == s.ticker && r.metrics == s.metrics
    ensures r.transcript == FormatRounds(s.rounds)
    ensures |s.rounds| >= 1 ==>
              r.conclusionText == svc.llm(svc.conclusionPrompt(r.transcript), Take(r.transcript, ContentWindow))
    ensures r.structured.Some? <==>
              svc.accepts(ExtractedCorrected(s.ticker, r.conclusionText, ConfidenceOf(s.metrics), svc.sections))
              || svc.accepts(Neutral(s.ticker, r.conclusionText, ConfidenceOf(s.metrics)))
    ensures r.structured.Some? ==>
              && svc.accepts(r.structured.value)
              && r.structured.value.confidence == ConfidenceOf(s.metrics)
              && r.structured.value.ticker == s.ticker
              && r.structured.value.rawConclusion == r.conclusionText
              && r.readable == FormatReadable(r.structured.value, svc)
  {
    var transcript := FormatRounds(s.rounds);
    var text := ConclusionText(transcript, svc);
    var parsed := ParseCorrected(s.ticker, text, ConfidenceOf(s.metrics), svc.sections, svc.accepts);
    if |s.rounds| >= 1 then
      ConclusionTextConsultsModel(s.rounds, svc);
      Record(s, transcript, text, parsed, svc)
    else
      Record(s, transcript, text, parsed, svc)
  }

  // ------------------------------------------------------------------
  // running the graph

  function RunNode(n: Node, s: State, opening: Statements, svc: Services): State {
    match n
    case CollectData => Collect(s, opening, svc)
    case DebateRound1 => DebateRound(2, s, svc)
    case DebateRound2 => DebateRound(3, s, svc)
    case ConclusionStep => Conclude(s, svc)
    case Finish => s
  }

  /** The overall consensus of the first debate round (the second record). */
  function SecondRoundConsensus(rounds: seq<RoundRecord>, svc: Services): real
    requires |rounds| >= 2
  {
    svc.consensus(rounds[1].replies).overall
  }

  /** The rounds are numbered, start with the opening statements, and the metrics are the last round's. */
  predicate WellFormed(s: State, opening: Statements, svc: Services) {
    && |s.rounds| >= 1
    && Numbered(s.rounds)
    && s.rounds[0].replies == opening
    && s.metrics == Some(svc.consensus(s.rounds[|s.rounds| - 1].replies))
  }

  /** The debate is over: two records when the first debate round reached
      the target, three otherwise, with the trace that produced them. */
  predicate Debated(trace: seq<Node>, s: State, svc: Services) {
    || (trace == [CollectData, DebateRound1] && |s.rounds| == 2 && SecondRoundConsensus(s.rounds, svc) >= ConsensusTarget)
    || (trace == [CollectData, DebateRound1, DebateRound2] && |s.rounds| == 3 && SecondRoundConsensus(s.rounds, svc) < ConsensusTarget)
  }

  /** The conclusion node has run on the final rounds. */
  predicate Concluded(s: State, svc: Services)
    requires |s.rounds| >= 1
  {
    && s.transcript == FormatRounds(s.rounds)
    && s.conclusionText == NoContentMessage
    && ConcludedRecord(s, svc.consensus(s.rounds[|s.rounds| - 1].replies).overall)
  }

  /** A structured conclusion at the end, if the schema let one through,
      carries `confidence` and is HOLD with every score 5. */
  predicate ConcludedRecord(s: State, confidence: real) {
    s.structured.Some? ==>
      s.structured.value.confidence == confidence && s.structured.value.action == Hold
      && s.structured.value.scores == Scores(5, 5, 5, 5, 5.0)
  }

  /** What holds on arrival at each node, given the nodes already run. */
  predicate Reached(n: Node, trace: seq<Node>, s: State, ticker: string, opening: Statements, svc: Services) {
    && s.ticker == Upper(ticker)
    && match n
       case CollectData => trace == []
       case DebateRound1 => trace == [CollectData] && WellFormed(s, opening, svc) && |s.rounds| == 1
       case DebateRound2 =>
         && trace == [CollectData, DebateRound1] && WellFormed(s, opening, svc) && |s.rounds| == 2
         && SecondRoundConsensus(s.rounds, svc) < ConsensusTarget
       case ConclusionStep => WellFormed(s, opening, svc) && Debated(trace, s, svc)
       case Finish =>
         && WellFormed(s, opening, svc) && |trace| >= 1 && trace[|trace| - 1] == ConclusionStep
         && Debated(trace[..|trace| - 1], s, svc) && Concluded(s, svc)
  }

  lemma StepCollect(s: State, ticker: string, opening: Statements, svc: Services)
    requires Reached(CollectData, [], s, ticker, opening, svc)
    ensures Next(CollectData, RunNode(CollectData, s, opening, svc)) == Some(DebateRound1)
    ensures Reached(DebateRound1, [] + [CollectData], RunNode(CollectData, s, opening, svc), ticker, opening, svc)
  {
    assert [] + [CollectData] == [CollectData];
  }

  lemma StepFirstDebate(trace: seq<Node>, s: State, ticker: string, opening: Statements, svc: Services)
    requires Reached(DebateRound1, trace, s, ticker, opening, svc)
    ensures Next(DebateRound1, RunNode(DebateRound1, s, opening, svc)).Some?
    ensures Reached(Next(DebateRound1, RunNode(DebateRound1, s, opening, svc)).value, trace + [DebateRound1],
                    RunNode(DebateRound1, s, opening, svc), ticker, opening, svc)
  {
    var s' := DebateRound(2, s, svc);
    RouteAfterFirstDebate(s');
    assert s'.rounds[..1] == s.rounds;
    assert s'.rounds[0] == s.rounds[0];
    assert s'.rounds[1].replies == s'.latest;
  }

  lemma StepSecondDebate(trace: seq<Node>, s: State, ticker: string, opening: Statements, svc: Services)
    requires Reached(DebateRound2, trace, s, ticker, opening, svc)
    ensures Next(DebateRound2, RunNode(DebateRound2, s, opening, svc)) == Some(ConclusionStep)
    ensures Reached(ConclusionStep, trace + [DebateRound2], RunNode(DebateRound2, s, opening, svc), ticker, opening, svc)
  {
    var s' := DebateRound(3, s, svc);
    assert s'.rounds[..2] == s.rounds;
    assert s'.rounds[0] == s.rounds[0] && s'.rounds[1] == s.rounds[1];
  }

  lemma StepConclusion(trace: seq<Node>, s: State, ticker: string, opening: Statements, svc: Services)
    requires Reached(ConclusionStep, trace, s, ticker, opening, svc)
    ensures Next(ConclusionStep, RunNode(ConclusionStep, s, opening, svc)) == Some(Finish)
    ensures Reached(Finish, trace + [ConclusionStep], RunNode(ConclusionStep, s, opening, svc), ticker, opening, svc)
  {
    var s' := Conclude(s, svc);
    var t := trace + [ConclusionStep];
    SameRoundsWellFormed(s, s', opening, svc);
    SameRoundsDebated(trace, s, s', svc);
    assert t[..|t| - 1] == trace;
    assert Concluded(s', svc);
  }

  lemma SameRoundsWellFormed(s: State, s': State, opening: Statements, svc: Services)
    requires WellFormed(s, opening, svc)
    requires s'.rounds == s.rounds && s'.metrics == s.metrics
    ensures WellFormed(s', opening, svc)
  {
  }

  lemma SameRoundsDebated(trace: seq<Node>, s: State, s': State, svc: Services)
    requires Debated(trace, s, svc)
    requires s'.rounds == s.rounds
    ensures Debated(trace, s', svc)
  {
  }

  /** Every node but the end leads, along a wired edge, to a node whose arrival condition holds. */
  lemma StepPreserves(n: Node, trace: seq<Node>, s: State, ticker: string, opening: Statements, svc: Services)
    requires n != Finish && Reached(n, trace, s, ticker, opening, svc)
    ensures Next(n, RunNode(n, s, opening, svc)).Some?
    ensures Reached(Next(n, RunNode(n, s, opening, svc)).value, trace + [n], RunNode(n, s, opening, svc), ticker, opening, svc)
  {
    if n == CollectData {
      StepCollect(s, ticker, opening, svc);
    } else if n == DebateRound1 {
      StepFirstDebate(trace, s, ticker, opening, svc);
    } else if n == DebateRound2 {
      StepSecondDebate(trace, s, ticker, opening, svc);
    } else {
      StepConclusion(trace, s, ticker, opening, svc);
    }
  }

  /** What arriving at the end says about the run. */
  lemma Finished(trace: seq<Node>, s: State, ticker: string, opening: Statements, svc: Services)
    requires Reached(Finish, trace, s, ticker, opening, svc)
    ensures trace == [CollectData, DebateRound1, ConclusionStep] || trace == [CollectData, DebateRound1, DebateRound2, ConclusionStep]
    ensures |s.rounds| == |trace| - 1 && |s.rounds| <= MaxRounds
    ensures Numbered(s.rounds) && s.rounds[0].replies == opening
    ensures |s.rounds| == 2 <==> SecondRoundConsensus(s.rounds, svc) >= ConsensusTarget
    ensures s.ticker == Upper(ticker)
    ensures s.transcript == FormatRounds(s.rounds) && s.conclusionText == NoContentMessage
    ensures s.structured.Some? ==>
              && s.structured.value.confidence == svc.consensus(s.rounds[|s.rounds| - 1].replies).overall
              && s.structured.value.action == Hold && s.structured.value.scores == Scores(5, 5, 5, 5, 5.0)
  {
    FinalTrace(trace);
  }

  /** A trace ending in the conclusion after a debated prefix is one of the two wired runs. */
  lemma FinalTrace(trace: seq<Node>)
    requires |trace| >= 1 && trace[|trace| - 1] == ConclusionStep
    requires trace[..|trace| - 1] == [CollectData, DebateRound1] || trace[..|trace| - 1] == [CollectData, DebateRound1, DebateRound2]
    ensures trace == [CollectData, DebateRound1, ConclusionStep] || trace == [CollectData, DebateRound1, DebateRound2, ConclusionStep]
  {
    var pre := trace[..|trace| - 1];
    assert forall j :: 0 <= j < |pre| ==> trace[j] == pre[j];
    if |pre| == 2 {
      assert trace == [pre[0], pre[1], ConclusionStep];
    } else {
      assert trace == [pre[0], pre[1], pre[2], ConclusionStep];
    }
  }

  /** Drives the wired graph from the start node to the end. The ticker is
      upper-cased first; the opening statements are the four blind analyses. */
  method RunPipeline(ticker: string, opening: Statements, svc: Services) returns (s: State, trace: seq<Node>)
    ensures trace == [CollectData, DebateRound1, ConclusionStep] || trace == [CollectData, DebateRound1, DebateRound2, ConclusionStep]
    ensures |s.rounds| == |trace| - 1 && |s.rounds| <= MaxRounds
    ensures Numbered(s.rounds) && s.rounds[0].replies == opening
    ensures |s.rounds| == 2 <==> SecondRoundConsensus(s.rounds, svc) >= ConsensusTarget
    ensures s.ticker == Upper(ticker)
    ensures s.transcript == FormatRounds(s.rounds) && s.conclusionText == NoContentMessage
    ensures s.structured.Some? ==>
              && s.structured.value.confidence == svc.consensus(s.rounds[|s.rounds| - 1].replies).overall
              && s.structured.value.action == Hold && s.structured.value.scores == Scores(5, 5, 5, 5, 5.0)
  {
    s, trace := Drive(ticker, opening, svc);
    Finished(trace, s, ticker, opening, svc);
  }

  /** The graph loop: follow the wired edges from the start node until the end. */
  method Drive(ticker: string, opening: Statements, svc: Services) returns (s: State, trace: seq<Node>)
    ensures Reached(Finish, trace, s, ticker, opening, svc)
  {
    s := Initial(Upper(ticker));
    trace := [];
    var node := CollectData;
    while node != Finish
      invariant Reached(node, trace, s, ticker, opening, svc)
      decreases Height(node)
    {
      StepPreserves(node, trace, s, ticker, opening, svc);
      s := RunNode(node, s, opening, svc);
      trace := trace + [node];
      node := Next(node, s).value;
    }
  }

  // ------------------------------------------------------------------
  // the transcript

  const Rule: string := Repeat('=', 80)

  function PersonaBlock(replies: Statements, p: Persona): string {
    "\n" + TranscriptTag(p) + "\n" + replies.Of(p)
  }

  /** The seven lines one round contributes. */
  function EntryLines(e: RoundRecord): (r: seq<string>)
    ensures |r| == 7
  {
    ["\n" + Rule, "Round " + NatToString(e.round), Rule,
     PersonaBlock(e.replies, Fundamental), PersonaBlock(e.replies, Risk),
     PersonaBlock(e.replies, Growth), PersonaBlock(e.replies, Sentiment)]
  }

  /** The blocks of lines, one per round, concatenated in order. */
  function Flatten<T>(blocks: seq<seq<T>>): seq<T>
    decreases |blocks|
  {
    if |blocks| == 0 then [] else blocks[0] + Flatten(blocks[1..])
  }

  predicate Uniform<T>(blocks: seq<seq<T>>, w: nat) {
    forall k :: 0 <= k < |blocks| ==> |blocks[k]| == w
  }

  lemma {:induction false} FlattenLength<T>(blocks: seq<seq<T>>)
    requires Uniform(blocks, 7)
    ensures |Flatten(blocks)| == 7 * |blocks|
    decreases |blocks|
  {
    if |blocks| > 0 {
      FlattenLength(blocks[1..]);
    }
  }

  lemma {:induction false} FlattenAppend<T>(a: seq<seq<T>>, b: seq<seq<T>>)
    ensures Flatten(a + b) == Flatten(a) + Flatten(b)
    decreases |a|
  {
    if |a| > 0 {
      assert (a + b)[1..] == a[1..] + b;
      FlattenAppend(a[1..], b);
    } else {
      assert a + b == b;
    }
  }

  /** With seven items per block, item `j` of block `i` is item `7i + j` of the whole. */
  lemma {:induction false} FlattenAt<T>(blocks: seq<seq<T>>, i: nat, j: nat)
    requires Uniform(blocks, 7) && i < |blocks| && j < 7
    ensures |Flatten(blocks)| == 7 * |blocks|
    ensures Flatten(blocks)[7 * i + j] == blocks[i][j]
    decreases i
  {
    FlattenLength(blocks);
    FlattenLength(blocks[1..]);
    var tail := Flatten(blocks[1..]);
    assert Flatten(blocks) == blocks[0] + tail;
    if i > 0 {
      FlattenAt(blocks[1..], i - 1, j);
      assert (blocks[0] + tail)[7 * i + j] == tail[7 * (i - 1) + j];
    }
  }

  /** The seven-line blocks of the rounds, in list order. */
  function RoundBlocks(rounds: seq<RoundRecord>): (r: seq<seq<string>>)
    ensures |r| == |rounds| && Uniform(r, 7)
    ensures forall i :: 0 <= i < |rounds| ==> r[i] == EntryLines(rounds[i])
  {
    seq(|rounds|, i requires 0 <= i < |rounds| => EntryLines(rounds[i]))
  }

  function RoundLines(rounds: seq<RoundRecord>): seq<string> {
    Flatten(RoundBlocks(rounds))
  }

  lemma RoundLinesLength(rounds: seq<RoundRecord>)
    ensures |RoundLines(rounds)| == 7 * |rounds|
  {
    FlattenLength(RoundBlocks(rounds));
  }

  /** The transcript lines of consecutive runs of rounds follow one another. */
  lemma RoundLinesAppend(a: seq<RoundRecord>, b: seq<RoundRecord>)
    ensures RoundLines(a + b) == RoundLines(a) + RoundLines(b)
  {
    assert RoundBlocks(a + b) == RoundBlocks(a) + RoundBlocks(b);
    FlattenAppend(RoundBlocks(a), RoundBlocks(b));
  }

  /** Line `j` of round `i` is line `7i + j` of the transcript. */
  lemma RoundLineAt(rounds: seq<RoundRecord>, i: nat, j: nat)
    requires i < |rounds| && j < 7
    ensures |RoundLines(rounds)| == 7 * |rounds|
    ensures RoundLines(rounds)[7 * i + j] == EntryLines(rounds[i])[j]
  {
    FlattenAt(RoundBlocks(rounds), i, j);
  }

  /** Rounds in list order, seven lines each: round `i` occupies lines `7i` to `7i + 6`. */
  lemma RoundLinesLayout(rounds: seq<RoundRecord>, i: nat)
    requires i < |rounds|
    ensures |RoundLines(rounds)| == 7 * |rounds|
    ensures RoundLines(rounds)[7 * i..7 * i + 7] == EntryLines(rounds[i])
  {
    RoundLinesLength(rounds);
    forall j | 0 <= j < 7
      ensures RoundLines(rounds)[7 * i..7 * i + 7][j] == EntryLines(rounds[i])[j]
    {
      RoundLineAt(rounds, i, j);
    }
  }

  /** Within round `i`, the header comes first, then persona `k` of the fixed order on line `7i + 3 + k`. */
  lemma TranscriptOrder(rounds: seq<RoundRecord>, i: nat, k: nat)
    requires i < |rounds| && k < 4
    ensures |RoundLines(rounds)| == 7 * |rounds|
    ensures RoundLines(rounds)[7 * i + 1] == "Round " + NatToString(rounds[i].round)
    ensures RoundLines(rounds)[7 * i + 3 + k] == "\n" + TranscriptTag(Personas[k]) + "\n" + rounds[i].replies.Of(Personas[k])
  {
    TranscriptHeader(rounds, i);
    TranscriptPersona(rounds, i, k);
  }

  /** Line `7i + 1` names round `i`. */
  lemma TranscriptHeader(rounds: seq<RoundRecord>, i: nat)
    requires i < |rounds|
    ensures |RoundLines(rounds)| == 7 * |rounds|
    ensures RoundLines(rounds)[7 * i + 1] == "Round " + NatToString(rounds[i].round)
  {
    RoundLineAt(rounds, i, 1);
    EntryHeaderLine(rounds[i]);
  }

  /** Line `7i + 3 + k` holds the reply of the `k`-th persona in round `i`. */
  lemma TranscriptPersona(rounds: seq<RoundRecord>, i: nat, k: nat)
    requires i < |rounds| && k < 4
    ensures |RoundLines(rounds)| == 7 * |rounds|
    ensures RoundLines(rounds)[7 * i + 3 + k] == "\n" + TranscriptTag(Personas[k]) + "\n" + rounds[i].replies.Of(Personas[k])
  {
    RoundLineAt(rounds, i, 3 + k);
    EntryPersonaLine(rounds[i], k);
  }

  lemma EntryHeaderLine(e: RoundRecord)
    ensures EntryLines(e)[1] == "Round " + NatToString(e.round)
  {
  }

  lemma EntryPersonaLine(e: RoundRecord, k: nat)
    requires k < 4
    ensures EntryLines(e)[3 + k] == "\n" + TranscriptTag(Personas[k]) + "\n" + e.replies.Of(Personas[k])
  {
    if k == 0 {
    } else if k == 1 {
    } else if k == 2 {
    } else {
    }
  }

  function FormatRounds(rounds: seq<RoundRecord>): string {
    Join("\n", RoundLines(rounds))
  }

  lemma FormatRoundsNonEmpty(rounds: seq<RoundRecord>)
    requires |rounds| >= 1
    ensures FormatRounds(rounds) != []
  {
    RoundLinesLayout(rounds, 0);
    var lines := RoundLines(rounds);
    assert lines[0] == lines[0..7][0] == "\n" + Rule;
    assert lines[0] <= Join("\n", lines);
  }

  // ------------------------------------------------------------------
  // the readable summary

  /** The emoji for an action name; a name not in the table gets ⚪. */
  function ActionEmoji(name: string): (r: string)
    ensures name !in {"STRONG_BUY", "BUY", "HOLD", "SELL", "STRONG_SELL"} ==> r == "⚪"
  {
    if name == "STRONG_BUY" then "🟢"
    else if name == "BUY" then "🔵"
    else if name == "HOLD" then "⚪"
    else if name == "SELL" then "🟠"
    else if name == "STRONG_SELL" then "🔴"
    else "⚪"
  }

  /** Each action's emoji, followed by a space and its name spelled with a
      space, is one of the parser's own table keys for that action. */
  lemma EmojiKeysParseBack(a: Action)
    ensures (ActionEmoji(a.Name()) + " " + SpacedName(a), a) in ActionTable
  {
    var key := ActionEmoji(a.Name()) + " " + SpacedName(a);
    match a
    case StrongBuy =>
      assert key == "🟢 STRONG BUY";
      assert ActionTable[2] == (key, a);
    case Buy =>
      assert key == "🔵 BUY";
      assert ActionTable[4] == (key, a);
    case Hold =>
      assert key == "⚪ HOLD";
      assert ActionTable[6] == (key, a);
    case Sell =>
      assert key == "🟠 SELL";
      assert ActionTable[8] == (key, a);
    case StrongSell =>
      assert key == "🔴 STRONG SELL";
      assert ActionTable[11] == (key, a);
  }

  function SpacedName(a: Action): string {
    match a
    case StrongBuy => "STRONG BUY"
    case Buy => "BUY"
    case Hold => "HOLD"
    case Sell => "SELL"
    case StrongSell => "STRONG SELL"
  }

  /** Python truthiness of an optional string. */
  predicate Present(v: Option<string>) {
    v.Some? && v.value != []
  }

  function PlanLines(header: string, v: Option<string>): (r: seq<string>)
    ensures |r| == if Present(v) then 2 else 0
  {
    if Present(v) then [header, "• " + v.value] else []
  }

  function TriggerLines(header: string, t: Option<KeyTrigger>): (r: seq<string>)
    ensures |r| == if t.Some? then 3 else 0
  {
    if t.Some? then [header, "조건: " + t.value.condition, "→ 액션: " + t.value.action] else []
  }

  const ImmediateHeader: string := "\n**⚡ 즉시 행동 (1-5일)**"
  const ShortTermHeader: string := "\n**📅 단기 전략 (1-3개월)**"
  const LongTermHeader: string := "\n**🎯 장기 전략 (6개월-1년)**"
  const BullishHeader: string := "\n**📈 상승 시그널**"
  const BearishHeader: string := "\n**📉 하락 시그널**"

  function HeaderLines(c: Conclusion, svc: Services): (r: seq<string>)
    ensures |r| == 9
  {
    ["\n" + ActionEmoji(c.action.Name()) + " **최종 판단: " + c.action.Name() + "**",
     "추천 포지션: " + NatToString(c.positionSize) + "% | 전문가 합의도: " + svc.percent(c.confidence) + "\n",
     "**📝 핵심 요약**",
     c.executiveSummary,
     "\n**💯 종합 평가: " + svc.oneDecimal(c.scores.overall) + "/10**",
     "├─ 💼 Fundamental: " + NatToString(c.scores.fundamental) + "/10 (재무/비즈니스)",
     "├─ ⚠️  Risk: " + NatToString(c.scores.risk) + "/10 (위험도, 높을수록 위험)",
     "├─ 🚀 Growth: " + NatToString(c.scores.growth) + "/10 (성장 가능성)",
     "└─ 📊 Sentiment: " + NatToString(c.scores.sentiment) + "/10 (시장 심리)"]
  }

  function ReadableLines(c: Conclusion, svc: Services): seq<string> {
    HeaderLines(c, svc)
      + PlanLines(ImmediateHeader, c.immediateAction)
      + PlanLines(ShortTermHeader, c.shortTermStrategy)
      + PlanLines(LongTermHeader, c.longTermStrategy)
      + TriggerLines(BullishHeader, c.bullishTrigger)
      + TriggerLines(BearishHeader, c.bearishTrigger)
  }

  function Count(b: bool, n: nat): nat {
    if b then n else 0
  }

  /** Nine fixed lines, then two per present plan and three per trigger,
      in the fixed section order; an absent or empty section adds nothing. */
  lemma ReadableLayout(c: Conclusion, svc: Services)
    ensures |ReadableLines(c, svc)| ==
              9 + Count(Present(c.immediateAction), 2) + Count(Present(c.shortTermStrategy), 2)
                + Count(Present(c.longTermStrategy), 2) + Count(c.bullishTrigger.Some?, 3)
                + Count(c.bearishTrigger.Some?, 3)
    ensures ReadableLines(c, svc)[3] == c.executiveSummary
    ensures Present(c.immediateAction) ==>
              ReadableLines(c, svc)[9] == ImmediateHeader && ReadableLines(c, svc)[10] == "• " + c.immediateAction.value
    ensures c.bearishTrigger.Some? ==>
              ReadableLines(c, svc)[|ReadableLines(c, svc)| - 3] == BearishHeader
  {
  }

  function FormatReadable(c: Conclusion, svc: Services): string {
    Join("\n", ReadableLines(c, svc))
  }
}

=== FILE: news_content_fetcher.dfy ===
/** The article-body fetcher (src/news_content_fetcher.py): the text
    cleaner and the loop that stores downloaded bodies. Downloading and
    HTML extraction, and the database, are parameters. */
module NewsContentFetcher {
  import opened Wrappers
  import opened Strings

  // ------------------------------------------------------------------
  // cleaning

  /** The stripped, non-blank segments, in order. */
  function KeptOf(segs: seq<string>): (r: seq<string>)
    ensures |r| <= |segs|
    ensures forall k :: 0 <= k < |r| ==> r[k] != "" && IsStripped(r[k])
    ensures (forall k :: 0 <= k < |segs| ==> NoLineBreak(segs[k])) ==> forall k :: 0 <= k < |r| ==> NoLineBreak(r[k])
    decreases |segs|
  {
    if |segs| == 0 then []
    else
      var line := Strip(segs[0]);
      var rest := KeptOf(segs[1..]);
      assert (forall k :: 0 <= k < |segs| ==> NoLineBreak(segs[k])) ==> forall k :: 0 <= k < |segs[1..]| ==> NoLineBreak(segs[1..][k]);
      if line == "" then rest else [line] + rest
  }

  /** Keeping works segment by segment: the surviving lines keep their relative order. */
  lemma {:induction false} KeptOfAppend(a: seq<string>, b: seq<string>)
    ensures KeptOf(a + b) == KeptOf(a) + KeptOf(b)
    decreases |a|
  {
    if |a| == 0 {
      assert a + b == b;
    } else {
      assert (a + b)[0] == a[0];
      assert (a + b)[1..] == a[1..] + b;
      KeptOfAppend(a[1..], b);
    }
  }

  /** Nothing survives exactly when every segment is blank. */
  lemma {:induction false} KeptOfEmptyIffBlank(segs: seq<string>)
    ensures KeptOf(segs) == [] <==> AllBlank(segs)
    decreases |segs|
  {
    if |segs| > 0 {
      KeptOfEmptyIffBlank(segs[1..]);
      assert segs == [segs[0]] + segs[1..];
      AllBlankCons(segs[0], segs[1..]);
    }
  }

  /** The lines `_clean_text` keeps. */
  function KeptLines(s: string): seq<string> {
    KeptOf(SplitAtBreaks(s))
  }

  /** `_clean_text`: `None` for a missing or empty text and for one that is
      all whitespace; otherwise the kept lines joined by newlines. */
  function CleanText(raw: Option<string>): (r: Option<string>)
    ensures raw.None? || raw == Some("") ==> r.None?
    ensures raw.Some? ==> (r.None? <==> AllSpace(raw.value))
    ensures r.Some? ==> SplitAtBreaks(r.value) == KeptLines(raw.value)
    ensures r.Some? ==> forall k :: 0 <= k < |SplitAtBreaks(r.value)| ==>
              SplitAtBreaks(r.value)[k] != "" && IsStripped(SplitAtBreaks(r.value)[k])
    ensures r.Some? ==> OnlyNewlineBreaks(r.value)
  {
    match raw
    case None => None
    case Some(s) =>
      if s == "" then None
      else
        var lines := KeptLines(s);
        KeptOfEmptyIffBlank(SplitAtBreaks(s));
        AllSpaceIffSegmentsBlank(s);
        if lines == [] then None
        else
          SplitJoinRoundTrip(lines);
          JoinOnlyNewlines(lines);
          var joined := Join("\n", lines);
          assert lines[0] <= joined;
          Some(joined)
  }

  /** The cleaned text is the one text whose lines are the kept lines and
      whose only line boundaries are `\n`. */
  lemma CleanTextUnique(raw: Option<string>, t: string)
    requires CleanText(raw).Some?
    requires OnlyNewlineBreaks(t) && SplitAtBreaks(t) == KeptLines(raw.value)
    ensures t == CleanText(raw).value
  {
    NewlineTextDeterminedBySplit(t, CleanText(raw).value);
  }

  /** Cleaning a cleaned text changes nothing. */
  lemma CleanTextIdempotent(raw: Option<string>)
    requires CleanText(raw).Some?
    ensures CleanText(CleanText(raw)) == CleanText(raw)
  {
    var c := CleanText(raw).value;
    var lines := KeptLines(raw.value);
    assert SplitAtBreaks(c) == lines;
    KeptOfClean(lines);
    assert KeptLines(c) == lines;
    SplitJoinRoundTrip(lines);
  }

  /** Segments that are already stripped and non-empty are all kept, unchanged. */
  lemma {:induction false} KeptOfClean(segs: seq<string>)
    requires forall k :: 0 <= k < |segs| ==> segs[k] != "" && IsStripped(segs[k])
    ensures KeptOf(segs) == segs
    decreases |segs|
  {
    if |segs| > 0 {
      StripOfStripped(segs[0]);
      KeptOfClean(segs[1..]);
    }
  }

  lemma StripOfStripped(s: string)
    requires IsStripped(s)
    ensures Strip(s) == s
  {
    assert LeadingSpace(s) == 0;
    assert TrailingCut(s) == |s|;
  }

  // ------------------------------------------------------------------
  // storing

  /** A database row without a body; `url` may be missing. */
  datatype Row = Row(id: int, url: Option<string>, ticker: string)

  /** The download (an exception is `Err`) and the update (which may raise too). */
  datatype StoreEnv = StoreEnv(download: string -> Result<Option<string>>, update: (int, string) -> Result<bool>)

  /** The row has a URL, its download gave a non-empty body, and the update reported success. */
  predicate Stored(row: Row, env: StoreEnv) {
    && row.url.Some? && row.url.value != ""
    && env.download(row.url.value).Ok?
    && env.download(row.url.value).value.Some?
    && env.download(row.url.value).value.value != ""
    && env.update(row.id, env.download(row.url.value).value.value) == Ok(true)
  }

  function CountStored(rows: seq<Row>, env: StoreEnv): (r: nat)
    ensures r <= |rows|
    decreases |rows|
  {
    if |rows| == 0 then 0
    else CountStored(rows[..|rows| - 1], env) + (if Stored(rows[|rows| - 1], env) then 1 else 0)
  }

  /** Counts add up over consecutive batches of rows. */
  lemma {:induction false} CountStoredAppend(a: seq<Row>, b: seq<Row>, env: StoreEnv)
    ensures CountStored(a + b, env) == CountStored(a, env) + CountStored(b, env)
    decreases |b|
  {
    if |b| == 0 {
      assert a + b == a;
    } else {
      assert (a + b)[..|a + b| - 1] == a + b[..|b| - 1];
      assert (a + b)[|a + b| - 1] == b[|b| - 1];
      CountStoredAppend(a, b[..|b| - 1], env);
    }
  }

  /** Rows without a URL never count. */
  lemma {:induction false} CountStoredSkipsMissingUrls(rows: seq<Row>, env: StoreEnv)
    requires forall k :: 0 <= k < |rows| ==> rows[k].url.None? || rows[k].url == Some("")
    ensures CountStored(rows, env) == 0
    decreases |rows|
  {
    if |rows| > 0 {
      CountStoredSkipsMissingUrls(rows[..|rows| - 1], env);
    }
  }

  /** `fetch_and_store` over the rows the database returned. */
  method FetchAndStore(rows: seq<Row>, env: StoreEnv) returns (success: nat)
    ensures success == CountStored(rows, env)
    ensures success <= |rows|
    ensures rows == [] ==> success == 0
  {
    if rows == [] {
      return 0;
    }
    success := 0;
    var i := 0;
    while i < |rows|
      invariant 0 <= i <= |rows|
      invariant success == CountStored(rows[..i], env)
    {
      var row := rows[i];
      assert rows[..i + 1][..i] == rows[..i];
      if row.url.Some? && row.url.value != "" {
        var content := env.download(row.url.value);
        if content.Ok? && content.value.Some? && content.value.value != "" {
          var updated := env.update(row.id, content.value.value);
          if updated == Ok(true) {
            success := success + 1;
          }
        }
      }
      i := i + 1;
    }
    assert rows[..i] == rows;
  }
}

=== FILE: news_crawler.dfy ===
/** The Google News feed crawler (src/news_crawler.py): link unwrapping,
    removal of tracking parameters, and the per-item filter of the feed.
    Splitting a URL into parts and putting it back together is Python's
    `urllib.parse`; it is a parameter here, and the model works on the
    parts. */
module NewsCrawler {
  import opened Wrappers
  import opened Strings

  // ------------------------------------------------------------------
  // URLs

  /** One query key with every value it was given, in order. */
  datatype QueryField = QueryField(key: string, values: seq<string>)

  /** The parts `urlparse` yields, with the query already decoded by
      `parse_qs(..., keep_blank_values=True)`. */
  datatype Url = Url(scheme: string, netloc: string, path: string, params: string,
                     query: seq<QueryField>, fragment: string)

  /** `urlparse` followed by `parse_qs`, and `urlencode(doseq=True)` followed
      by `urlunparse`. `parse` gives `None` where `urlparse` raises
      `ValueError` (a netloc with an unbalanced bracket, say). */
  datatype UrlCodec = UrlCodec(parse: string -> Option<Url>, unparse: Url -> string)

  const TrackingPrefix: string := "utm_"
  const TrackingKeys: set<string> := {"ocid", "cmpid", "fbclid", "gclid", "ref", "ref_src", "ref_url", "spref"}

  /** A query key that only identifies where a click came from, compared in lower case. */
  predicate IsTracking(key: string) {
    StartsWith(Lower(key), TrackingPrefix) || Lower(key) in TrackingKeys
  }

  /** The query without its tracking keys; every other field is kept whole and in place. */
  function StripTracking(query: seq<QueryField>): (r: seq<QueryField>)
    ensures forall f :: f in r <==> f in query && !IsTracking(f.key)
    ensures |r| <= |query|
    decreases |query|
  {
    if |query| == 0 then []
    else if IsTracking(query[0].key) then StripTracking(query[1..])
    else [query[0]] + StripTracking(query[1..])
  }

  /** Filtering works field by field, so the kept fields stay in their relative order. */
  lemma {:induction false} StripTrackingAppend(a: seq<QueryField>, b: seq<QueryField>)
    ensures StripTracking(a + b) == StripTracking(a) + StripTracking(b)
    decreases |a|
  {
    if |a| == 0 {
      assert a + b == b;
    } else {
      assert (a + b)[0] == a[0];
      assert (a + b)[1..] == a[1..] + b;
      StripTrackingAppend(a[1..], b);
    }
  }

  /** A query with nothing to remove is left exactly as it was. */
  lemma {:induction false} StripTrackingKeepsClean(query: seq<QueryField>)
    requires forall k :: 0 <= k < |query| ==> !IsTracking(query[k].key)
    ensures StripTracking(query) == query
    decreases |query|
  {
    if |query| > 0 {
      StripTrackingKeepsClean(query[1..]);
    }
  }

  lemma StripTrackingIdempotent(query: seq<QueryField>)
    ensures StripTracking(StripTracking(query)) == StripTracking(query)
  {
    var r := StripTracking(query);
    assert forall k :: 0 <= k < |r| ==> r[k] in r;
    StripTrackingKeepsClean(r);
  }

  /** The parts of a normalised URL: tracking keys dropped, fragment cleared, nothing else touched. */
  function Normalized(u: Url): (r: Url)
    ensures r.fragment == ""
    ensures forall f :: f in r.query ==> !IsTracking(f.key)
    ensures forall f :: f in u.query && !IsTracking(f.key) ==> f in r.query
    ensures r.scheme == u.scheme && r.netloc == u.netloc && r.path == u.path && r.params == u.params
  {
    u.(query := StripTracking(u.query), fragment := "")
  }

  /** `_normalize_url`: `None` where `urlparse` raises; a URL without a
      scheme comes back as given. */
  function NormalizeUrl(url: string, codec: UrlCodec): (r: Option<string>)
    ensures r.None? <==> codec.parse(url).None?
    ensures codec.parse(url).Some? && codec.parse(url).value.scheme == "" ==> r == Some(url)
    ensures codec.parse(url).Some? && codec.parse(url).value.scheme != "" ==>
              r == Some(codec.unparse(Normalized(codec.parse(url).value)))
  {
    match codec.parse(url)
    case None => None
    case Some(u) => if u.scheme == "" then Some(url) else Some(codec.unparse(Normalized(u)))
  }

  /** With a codec whose parse undoes its unparse, a URL that normalises
      normalises again, to itself. */
  lemma NormalizeIdempotent(url: string, codec: UrlCodec)
    requires forall v :: codec.parse(codec.unparse(v)) == Some(v)
    ensures NormalizeUrl(url, codec).Some? ==>
              NormalizeUrl(NormalizeUrl(url, codec).value, codec) == NormalizeUrl(url, codec)
  {
    if codec.parse(url).Some? && codec.parse(url).value.scheme != "" {
      var u := codec.parse(url).value;
      var n := Normalized(u);
      assert codec.parse(codec.unparse(n)) == Some(n);
      StripTrackingIdempotent(u.query);
      assert Normalized(n) == n;
    }
  }

  // ------------------------------------------------------------------
  // links

  const GoogleNewsHost: string := "news.google.com"

  /** The first non-empty value of the first `url` key: what
      `parse_qs(query).get("url")[0]` yields, since `parse_qs` without
      `keep_blank_values` drops empty values and keys left with none. */
  function RedirectTarget(query: seq<QueryField>): (r: Option<string>)
    ensures r.Some? ==> r.value != "" && exists k :: 0 <= k < |query| && query[k].key == "url" && r.value in query[k].values
    ensures (forall k :: 0 <= k < |query| ==> query[k].key != "url") ==> r.None?
    ensures forall k :: 0 <= k < |query| && query[k].key == "url" && (forall j :: 0 <= j < k ==> query[j].key != "url") ==>
              r == FirstNonEmpty(query[k].values)
    decreases |query|
  {
    if |query| == 0 then None
    else if query[0].key == "url" then FirstNonEmpty(query[0].values)
    else
      var r := RedirectTarget(query[1..]);
      assert r.Some? ==> exists k :: 1 <= k < |query| && query[k].key == "url" && r.value in query[k].values by {
        if r.Some? {
          var k :| 0 <= k < |query[1..]| && query[1..][k].key == "url" && r.value in query[1..][k].values;
          assert query[k + 1] == query[1..][k];
        }
      }
      assert forall k :: 0 <= k < |query| && query[k].key == "url" && (forall j :: 0 <= j < k ==> query[j].key != "url") ==>
               r == FirstNonEmpty(query[k].values) by {
        forall k | 0 <= k < |query| && query[k].key == "url" && (forall j :: 0 <= j < k ==> query[j].key != "url")
          ensures r == FirstNonEmpty(query[k].values)
        {
          assert query[1..][k - 1] == query[k];
          forall j | 0 <= j < k - 1 ensures query[1..][j].key != "url" {
            assert query[1..][j] == query[j + 1];
          }
        }
      }
      r
  }

  function FirstNonEmpty(xs: seq<string>): (r: Option<string>)
    ensures r.Some? ==> r.value != "" && r.value in xs
    ensures r.None? <==> forall k :: 0 <= k < |xs| ==> xs[k] == ""
    decreases |xs|
  {
    if |xs| == 0 then None
    else if xs[0] != "" then Some(xs[0])
    else
      var r := FirstNonEmpty(xs[1..]);
      assert r.None? ==> forall k :: 0 <= k < |xs| ==> xs[k] == "" by {
        if r.None? {
          forall k | 0 <= k < |xs| ensures xs[k] == "" {
            if k > 0 { assert xs[k] == xs[1..][k - 1]; }
          }
        }
      }
      r
  }

  /** The URL `_extract_link` normalises: a Google News link's redirect
      target when it has one, else the link itself; `None` where parsing
      the Google News link raises. */
  function LinkTarget(cleaned: string, codec: UrlCodec): (r: Option<string>)
    ensures !Contains(cleaned, GoogleNewsHost) ==> r == Some(cleaned)
    ensures Contains(cleaned, GoogleNewsHost) ==>
              (r.None? <==> codec.parse(cleaned).None?)
              && (codec.parse(cleaned).Some? ==> r == Some(RedirectTarget(codec.parse(cleaned).value.query).GetOr(cleaned)))
  {
    if !Contains(cleaned, GoogleNewsHost) then Some(cleaned)
    else
      match codec.parse(cleaned)
      case None => None
      case Some(u) => Some(RedirectTarget(u.query).GetOr(cleaned))
  }

  /** `_extract_link`: strip, unwrap a Google News redirect, then normalise;
      `None` where either `urlparse` raises. */
  function ExtractLink(raw: string, codec: UrlCodec): (r: Option<string>)
    ensures AllSpace(raw) ==> r == Some("")
    ensures !AllSpace(raw) && !Contains(Strip(raw), GoogleNewsHost) ==> r == NormalizeUrl(Strip(raw), codec)
    ensures !AllSpace(raw) && Contains(Strip(raw), GoogleNewsHost) ==>
              match codec.parse(Strip(raw))
              case None => r.None?
              case Some(u) =>
                match RedirectTarget(u.query)
                case Some(target) => r == NormalizeUrl(target, codec)
                case None => r == NormalizeUrl(Strip(raw), codec)
  {
    var cleaned := Strip(raw);
    if cleaned == "" then Some(cleaned)
    else
      match LinkTarget(cleaned, codec)
      case None => None
      case Some(target) => NormalizeUrl(target, codec)
  }

  // ------------------------------------------------------------------
  // the feed

  /** The texts of one `<item>`; a missing element reads as "". */
  datatype FeedItem = FeedItem(title: string, link: string, description: string, pubDate: string,
                               atomSource: string, source: string)

  datatype Article = Article(ticker: string, title: string, summary: string, url: string,
                             source: string, publishedAt: string)

  /** Link parsing, HTML entity decoding, and the publication-date conversion (which reads the clock when the date is missing or malformed). */
  datatype FeedEnv = FeedEnv(codec: UrlCodec, unescape: string -> string, publishedAt: string -> string)

  /** An article worth keeping: a title and a link, and the ticker in upper case. */
  predicate Valid(a: Article, ticker: string) {
    a.title != "" && a.url != "" && IsStripped(a.title) && a.ticker == Upper(ticker)
  }

  const LinkError: string := "urlparse raised ValueError"

  /** One item as an article, nothing when its title or link is blank, or the
      exception of a link `urlparse` rejects: the link is extracted before the
      title is looked at, so such a link raises whatever the title. */
  function ToArticle(item: FeedItem, ticker: string, env: FeedEnv): (r: Result<Option<Article>>)
    ensures r.Err? <==> ExtractLink(item.link, env.codec).None?
    ensures r.Ok? && r.value.Some? ==> Valid(r.value.value, ticker)
    ensures r.Ok? ==> (r.value.None? <==> AllSpace(item.title) || ExtractLink(item.link, env.codec) == Some(""))
    ensures r.Ok? && r.value.Some? ==>
              r.value.value.title == Strip(item.title) && Some(r.value.value.url) == ExtractLink(item.link, env.codec)
  {
    var title := Strip(item.title);
    match ExtractLink(item.link, env.codec)
    case None => Err(LinkError)
    case Some(link) =>
      var source := Strip(if item.atomSource != "" then item.atomSource else item.source);
      if title == "" || link == "" then Ok(None)
      else Ok(Some(Article(Upper(ticker), title, env.unescape(Strip(item.description)), link, source,
                           env.publishedAt(item.pubDate))))
  }

  /** The articles among the items' outcomes, in order, or the first exception. */
  function Gather(outcomes: seq<Result<Option<Article>>>): (r: Result<seq<Article>>)
    ensures r.Err? <==> exists k :: 0 <= k < |outcomes| && outcomes[k].Err?
    ensures r.Ok? ==> |r.value| <= |outcomes|
    ensures r.Ok? ==> forall a :: a in r.value ==> Ok(Some(a)) in outcomes
    ensures r.Ok? ==> forall k :: 0 <= k < |outcomes| && outcomes[k].Ok? && outcomes[k].value.Some? ==>
                        outcomes[k].value.value in r.value
    decreases |outcomes|
  {
    if |outcomes| == 0 then Ok([])
    else
      var rest := Gather(outcomes[1..]);
      assert rest.Err? <==> exists k :: 1 <= k < |outcomes| && outcomes[k].Err? by {
        if rest.Err? {
          var k :| 0 <= k < |outcomes[1..]| && outcomes[1..][k].Err?;
          assert outcomes[1..][k] == outcomes[k + 1];
        }
        if exists k :: 1 <= k < |outcomes| && outcomes[k].Err? {
          var k :| 1 <= k < |outcomes| && outcomes[k].Err?;
          assert outcomes[1..][k - 1] == outcomes[k];
        }
      }
      match outcomes[0]
      case Err(e) => Err(e)
      case Ok(a) =>
        match rest
        case Err(e) => Err(e)
        case Ok(tail) =>
          assert forall k :: 1 <= k < |outcomes| ==> outcomes[k] == outcomes[1..][k - 1];
          if a.None? then Ok(tail) else Ok([a.value] + tail)
  }

  /** One outcome on its own: its exception, nothing, or its article. */
  lemma GatherSingle(o: Result<Option<Article>>)
    ensures o.Err? ==> Gather([o]) == Err(o.message)
    ensures o == Ok(None) ==> Gather([o]) == Ok([])
    ensures o.Ok? && o.value.Some? ==> Gather([o]) == Ok([o.value.value])
  {
    assert [o][1..] == [];
    if o.Ok? && o.value.Some? {
      assert [o.value.value] + [] == [o.value.value];
    }
  }

  /** Gathering works outcome by outcome, in order. */
  lemma {:induction false} GatherAppend(a: seq<Result<Option<Article>>>, b: seq<Result<Option<Article>>>)
    ensures Gather(a + b).Err? <==> Gather(a).Err? || Gather(b).Err?
    ensures Gather(a).Ok? && Gather(b).Ok? ==> Gather(a + b) == Ok(Gather(a).value + Gather(b).value)
    decreases |a|
  {
    if |a| == 0 {
      assert a + b == b;
      if Gather(b).Ok? {
        assert [] + Gather(b).value == Gather(b).value;
      }
    } else {
      assert (a + b)[0] == a[0];
      assert (a + b)[1..] == a[1..] + b;
      GatherAppend(a[1..], b);
      if a[0].Ok? && a[0].value.Some? && Gather(a[1..]).Ok? && Gather(b).Ok? {
        var x, ta, tb := a[0].value.value, Gather(a[1..]).value, Gather(b).value;
        assert [x] + (ta + tb) == ([x] + ta) + tb;
      }
    }
  }

  function Outcomes(items: seq<FeedItem>, ticker: string, env: FeedEnv): (r: seq<Result<Option<Article>>>)
    ensures |r| == |items| && forall k :: 0 <= k < |items| ==> r[k] == ToArticle(items[k], ticker, env)
  {
    seq(|items|, k requires 0 <= k < |items| => ToArticle(items[k], ticker, env))
  }

  /** The kept articles, in feed order, or the exception of the first item
      whose link `urlparse` rejects. */
  function Articles(items: seq<FeedItem>, ticker: string, env: FeedEnv): (r: Result<seq<Article>>)
    ensures r.Err? <==> exists k :: 0 <= k < |items| && ToArticle(items[k], ticker, env).Err?
    ensures r.Ok? ==> |r.value| <= |items|
    ensures r.Ok? ==> forall k :: 0 <= k < |r.value| ==> Valid(r.value[k], ticker)
    ensures r.Ok? ==> forall k :: 0 <= k < |items| && Kept(items[k], ticker, env) ==>
                        ToArticle(items[k], ticker, env).value.value in r.value
  {
    GatheredRaises(items, ticker, env);
    GatheredValid(items, ticker, env);
    GatheredKeeps(items, ticker, env);
    Gather(Outcomes(items, ticker, env))
  }

  /** The item does not raise and gives an article. */
  predicate Kept(item: FeedItem, ticker: string, env: FeedEnv) {
    ToArticle(item, ticker, env).Ok? && ToArticle(item, ticker, env).value.Some?
  }

  lemma GatheredKeeps(items: seq<FeedItem>, ticker: string, env: FeedEnv)
    ensures Gather(Outcomes(items, ticker, env)).Ok? ==>
              forall k :: 0 <= k < |items| && Kept(items[k], ticker, env) ==>
                ToArticle(items[k], ticker, env).value.value in Gather(Outcomes(items, ticker, env)).value
  {
    var outcomes := Outcomes(items, ticker, env);
    assert forall k :: 0 <= k < |items| ==> outcomes[k] == ToArticle(items[k], ticker, env);
  }

  /** One item on its own: its exception, no article, or its article. */
  lemma ArticlesSingle(item: FeedItem, ticker: string, env: FeedEnv)
    ensures ToArticle(item, ticker, env).Err? ==> Articles([item], ticker, env).Err?
    ensures ToArticle(item, ticker, env) == Ok(None) ==> Articles([item], ticker, env) == Ok([])
    ensures Kept(item, ticker, env) ==> Articles([item], ticker, env) == Ok([ToArticle(item, ticker, env).value.value])
  {
    assert Outcomes([item], ticker, env) == [ToArticle(item, ticker, env)];
    GatherSingle(ToArticle(item, ticker, env));
  }

  lemma GatheredRaises(items: seq<FeedItem>, ticker: string, env: FeedEnv)
    ensures Gather(Outcomes(items, ticker, env)).Err? <==> exists k :: 0 <= k < |items| && ToArticle(items[k], ticker, env).Err?
  {
    var outcomes := Outcomes(items, ticker, env);
    if Gather(outcomes).Err? {
      var k :| 0 <= k < |outcomes| && outcomes[k].Err?;
      assert ToArticle(items[k], ticker, env).Err?;
    }
  }

  lemma GatheredValid(items: seq<FeedItem>, ticker: string, env: FeedEnv)
    ensures Gather(Outcomes(items, ticker, env)).Ok? ==>
              forall k :: 0 <= k < |Gather(Outcomes(items, ticker, env)).value| ==> Valid(Gather(Outcomes(items, ticker, env)).value[k], ticker)
  {
    var outcomes := Outcomes(items, ticker, env);
    var r := Gather(outcomes);
    if r.Ok? {
      forall k | 0 <= k < |r.value| ensures Valid(r.value[k], ticker) {
        assert r.value[k] in r.value;
        var j :| 0 <= j < |outcomes| && outcomes[j] == Ok(Some(r.value[k]));
        assert ToArticle(items[j], ticker, env) == Ok(Some(r.value[k]));
      }
    }
  }

  /** Items are handled one after another, in order: the articles of a
      concatenation are the two lists of articles, concatenated, and it
      raises exactly when either part does. */
  lemma ArticlesAppend(a: seq<FeedItem>, b: seq<FeedItem>, ticker: string, env: FeedEnv)
    ensures Articles(a + b, ticker, env).Err? <==> Articles(a, ticker, env).Err? || Articles(b, ticker, env).Err?
    ensures Articles(a, ticker, env).Ok? && Articles(b, ticker, env).Ok? ==>
              Articles(a + b, ticker, env) == Ok(Articles(a, ticker, env).value + Articles(b, ticker, env).value)
  {
    var oa := Outcomes(a, ticker, env);
    var ob := Outcomes(b, ticker, env);
    assert Outcomes(a + b, ticker, env) == oa + ob;
    GatherAppend(oa, ob);
  }

  /** Python's `xs[:n]` for any integer `n`: a negative `n` drops that many from the end. */
  function SliceTo<T>(xs: seq<T>, n: int): (r: seq<T>)
    ensures n >= 0 ==> r == Take(xs, n)
    ensures n < 0 && -n <= |xs| ==> r == xs[..|xs| + n]
    ensures n < 0 && -n > |xs| ==> r == []
  {
    if n >= 0 then Take(xs, n)
    else if -n <= |xs| then xs[..|xs| + n]
    else []
  }

  /** `fetch_news`: `feed` is the parsed `<item>` list, or `None` when the
      request or the XML parse failed; the exception of a link `urlparse`
      rejects is not caught. */
  function FetchNews(ticker: string, limit: int, feed: Option<seq<FeedItem>>, env: FeedEnv): (r: Result<seq<Article>>)
    ensures feed.None? ==> r == Ok([])
    ensures feed.Some? ==> (r.Err? <==> exists k :: 0 <= k < |SliceTo(feed.value, limit)| &&
                                          ToArticle(SliceTo(feed.value, limit)[k], ticker, env).Err?)
    ensures r.Ok? && limit >= 0 ==> |r.value| <= limit
    ensures r.Ok? && feed.Some? ==> |r.value| <= |feed.value|
    ensures r.Ok? ==> forall k :: 0 <= k < |r.value| ==> Valid(r.value[k], ticker)
    ensures r.Ok? && feed.Some? ==>
              forall k :: 0 <= k < |SliceTo(feed.value, limit)| && Kept(SliceTo(feed.value, limit)[k], ticker, env) ==>
                ToArticle(SliceTo(feed.value, limit)[k], ticker, env).value.value in r.value
  {
    match feed
    case None => Ok([])
    case Some(items) => Articles(SliceTo(items, limit), ticker, env)
  }
}

=== FILE: pattern.dfy ===
/** Regular-expression search, split into its two halves: an anchored
    matcher says what a pattern captures when a match starts at a given
    index, and `Search` finds the leftmost index where it does, as
    Python's `re.search` does. The anchored matchers for the patterns the
    conclusion parser uses are written out in that module; the building
    blocks they share are here. */
module Pattern {
  import opened Wrappers
  import opened Strings

  /** `m(text, i)` is the capture of a match starting exactly at index `i`, or `None`. */
  type Matcher<T> = (string, nat) -> Option<T>

  /** `m` matches at `j` and at no earlier index: the match `re.search` reports. */
  ghost predicate IsLeftmost<T>(m: Matcher<T>, text: string, j: nat) {
    j <= |text| && m(text, j).Some? && forall k :: 0 <= k < j ==> m(text, k).None?
  }

  /** The capture of the leftmost match starting at an index `>= i`. */
  function SearchFrom<T>(m: Matcher<T>, text: string, i: nat): (r: Option<T>)
    ensures r.None? <==> forall j :: i <= j <= |text| ==> m(text, j).None?
    ensures r.Some? ==> exists j :: i <= j <= |text| && m(text, j) == r && forall k :: i <= k < j ==> m(text, k).None?
    decreases |text| + 1 - i
  {
    if i > |text| then None
    else if m(text, i).Some? then m(text, i)
    else SearchFrom(m, text, i + 1)
  }

  /** `SearchFrom` at 0 reports exactly the leftmost match. */
  lemma SearchFromIsLeftmost<T>(m: Matcher<T>, text: string, j: nat)
    requires IsLeftmost(m, text, j)
    ensures SearchFrom(m, text, 0) == m(text, j)
  {
    var r := SearchFrom(m, text, 0);
    if r.Some? {
      var j' :| 0 <= j' <= |text| && m(text, j') == r && forall k :: 0 <= k < j' ==> m(text, k).None?;
    }
  }

  /** Python's `re.search`: the capture of the leftmost match, and `None` when nothing matches. */
  function Search<T>(m: Matcher<T>, text: string): (r: Option<T>)
    ensures r.None? <==> forall j :: 0 <= j <= |text| ==> m(text, j).None?
    ensures forall j :: IsLeftmost(m, text, j) ==> r == m(text, j)
  {
    var r := SearchFrom(m, text, 0);
    assert forall j :: IsLeftmost(m, text, j) ==> r == m(text, j) by {
      forall j | IsLeftmost(m, text, j) ensures r == m(text, j) {
        SearchFromIsLeftmost(m, text, j);
      }
    }
    r
  }

  /** End of the longest run of characters satisfying `p` from index `i`: a greedy `[...]*`. */
  function SkipWhile(text: string, i: nat, p: char -> bool): (k: nat)
    requires i <= |text|
    ensures i <= k <= |text|
    ensures forall j :: i <= j < k ==> p(text[j])
    ensures k == |text| || !p(text[k])
    decreases |text| - i
  {
    if i < |text| && p(text[i]) then SkipWhile(text, i + 1, p) else i
  }

  /** A greedy `\d+` at index `i`: the value of the run and the index after it. */
  datatype Number = Number(value: nat, end: nat)

  function DigitsAt(text: string, i: nat): (r: Option<Number>)
    requires i <= |text|
    ensures r.Some? ==> i < r.value.end <= |text| && AllDigits(text[i..r.value.end])
    ensures r.Some? ==> forall j :: i <= j < r.value.end ==> IsDigit(text[j])
    ensures r.Some? ==> r.value.end == |text| || !IsDigit(text[r.value.end])
    ensures r.Some? ==> r.value.value == DigitsValue(text[i..r.value.end])
    ensures r.None? <==> i == |text| || !IsDigit(text[i])
  {
    var k := SkipWhile(text, i, IsDigit);
    if k == i then None
    else
      assert AllDigits(text[i..k]) by {
        forall j | 0 <= j < k - i ensures IsDigit(text[i..k][j]) {
          assert text[i..k][j] == text[i + j];
        }
      }
      Some(Number(DigitsValue(text[i..k]), k))
  }

  /** A numeral written out, then a non-digit or the end, reads back as its value. */
  lemma DigitsAtNumeral(text: string, i: nat, n: nat)
    requires i + |NatToString(n)| <= |text|
    requires text[i..i + |NatToString(n)|] == NatToString(n)
    requires i + |NatToString(n)| == |text| || !IsDigit(text[i + |NatToString(n)|])
    ensures DigitsAt(text, i) == Some(Number(n, i + |NatToString(n)|))
  {
    var s := NatToString(n);
    assert text[i] == s[0];
    assert forall j :: i <= j < i + |s| ==> text[j] == s[j - i];
    var r := DigitsAt(text, i);
    var e := r.value.end;
    assert e == i + |s|;
    NatToStringRoundTrip(n);
  }

  /** `word` occurs at index `i`, letters compared without regard to ASCII case. */
  predicate CaselessAt(text: string, i: nat, word: string) {
    i + |word| <= |text| && Lower(text[i..i + |word|]) == Lower(word)
  }

  /** `word` occurs at index `i` exactly. */
  predicate LiteralAt(text: string, i: nat, word: string) {
    i + |word| <= |text| && text[i..i + |word|] == word
  }

  predicate IsColonOrSpace(c: char) {
    c == ':' || IsSpace(c)
  }
}

=== FILE: quartr_crawler.dfy ===
/** The Quartr earnings-call crawler (src/quartr_crawler.py): the shape
    check on the events payload, the mapping of one event to a call record,
    the "strictly after the last seen call" filter with its saved counter,
    and the per-ticker result map. HTTP, transcript downloads, the database
    and timestamp parsing are parameters; instants are integers so that
    they compare as Python's datetimes do. */
module QuartrCrawler {
  import opened Wrappers
  import opened Strings

  // ------------------------------------------------------------------
  // decoded JSON

  /** A decoded JSON value (numbers other than integers are not modelled). */
  datatype Json =
    | JNull
    | JBool(b: bool)
    | JInt(i: int)
    | JStr(s: string)
    | JList(items: seq<Json>)
    | JObject(fields: map<string, Json>)

  /** Python's truthiness of a decoded value. */
  predicate Truthy(v: Json) {
    match v
    case JNull => false
    case JBool(b) => b
    case JInt(i) => i != 0
    case JStr(s) => s != ""
    case JList(items) => |items| > 0
    case JObject(fields) => |fields| > 0
  }

  /** `d.get(key)`: `None` for a missing key. */
  function Get(fields: map<string, Json>, key: string): (r: Json)
    ensures key !in fields ==> r == JNull
    ensures key in fields ==> r == fields[key]
  {
    if key in fields then fields[key] else JNull
  }

  /** Python's `a or b`. */
  function Or(a: Json, b: Json): (r: Json)
    ensures Truthy(a) ==> r == a
    ensures !Truthy(a) ==> r == b
    ensures Truthy(r) <==> Truthy(a) || Truthy(b)
  {
    if Truthy(a) then a else b
  }

  /** `str(v)` for the scalar values an identifier takes; `repr` renders the rest. */
  function PyStr(v: Json, repr: Json -> string): string {
    match v
    case JStr(s) => s
    case JInt(i) => IntToString(i)
    case JBool(b) => if b then "True" else "False"
    case JNull => "None"
    case _ => repr(v)
  }

  // ------------------------------------------------------------------
  // the events payload

  const EventsKey: string := "events"

  /** `_fetch_events`: a dict yields its `events` field, anything else is
      taken as the list itself; a non-list is an error. `payload` is `None`
      when `_request` raised `QuartrAPIError`: an error status or a body
      that is not JSON. */
  function FetchEvents(payload: Option<Json>): (r: Result<seq<Json>>)
    ensures payload.None? ==> r.Err?
    ensures r.Ok? ==>
              && payload.Some?
              && (|| payload.value == JList(r.value)
                  || (payload.value.JObject? && Get(payload.value.fields, EventsKey) == JList(r.value)))
    ensures payload.Some? && payload.value.JList? ==> r == Ok(payload.value.items)
    ensures payload.Some? && payload.value.JObject? ==> (r.Ok? <==> Get(payload.value.fields, EventsKey).JList?)
    ensures payload.Some? && !payload.value.JList? && !payload.value.JObject? ==> r.Err?
  {
    match payload
    case None => Err("request failed")
    case Some(body) =>
      var events := if body.JObject? then Get(body.fields, EventsKey) else body;
      match events
      case JList(items) => Ok(items)
      case _ => Err("unknown events payload")
  }

  // ------------------------------------------------------------------
  // one event

  /** The call record built from an event. */
  datatype CallInfo = CallInfo(
    eventId: string,
    callDatetime: int,
    callType: Json,
    timezone: Json,
    sourceUrl: Json,
    language: Json,
    transcriptHash: Json,
    cursor: Json)

  /** The keys that may hold the call time, tried in this order. */
  const DatetimeKeys: seq<string> := ["call_datetime", "start_time", "startTime", "datetime"]

  const DefaultLanguage: string := "en"

  /** The first key of `keys` whose value `parse` accepts, and the instant it gives. */
  function FirstParsed(fields: map<string, Json>, keys: seq<string>, parse: Json -> Option<int>): (r: Option<int>)
    ensures r.None? <==> forall k :: 0 <= k < |keys| ==> parse(Get(fields, keys[k])).None?
    ensures r.Some? ==>
              exists k :: 0 <= k < |keys| && parse(Get(fields, keys[k])) == r
                && forall j :: 0 <= j < k ==> parse(Get(fields, keys[j])).None?
    decreases |keys|
  {
    if |keys| == 0 then None
    else if parse(Get(fields, keys[0])).Some? then parse(Get(fields, keys[0]))
    else
      var r := FirstParsed(fields, keys[1..], parse);
      assert r.None? ==> forall k :: 0 <= k < |keys| ==> parse(Get(fields, keys[k])).None? by {
        if r.None? {
          forall k | 0 <= k < |keys| ensures parse(Get(fields, keys[k])).None? {
            if k > 0 { assert keys[k] == keys[1..][k - 1]; }
          }
        }
      }
      assert r.Some? ==>
               exists k :: 0 <= k < |keys| && parse(Get(fields, keys[k])) == r
                 && forall j :: 0 <= j < k ==> parse(Get(fields, keys[j])).None? by {
        if r.Some? {
          var k :| 0 <= k < |keys[1..]| && parse(Get(fields, keys[1..][k])) == r
                   && forall j :: 0 <= j < k ==> parse(Get(fields, keys[1..][j])).None?;
          assert keys[k + 1] == keys[1..][k];
          forall j | 0 <= j < k + 1 ensures parse(Get(fields, keys[j])).None? {
            if j > 0 { assert keys[j] == keys[1..][j - 1]; }
          }
        }
      }
      r
  }

  /** `event_id`, falling back to `id`. */
  function EventIdOf(fields: map<string, Json>): Json {
    Or(Get(fields, "event_id"), Get(fields, "id"))
  }

  /** `_event_to_call_info`: `None` when the event has no truthy identifier
      or no parseable time. `parse` is the ISO-8601 parser, which answers
      `None` for a missing or malformed value. */
  function EventToCallInfo(fields: map<string, Json>, parse: Json -> Option<int>, repr: Json -> string): (r: Option<CallInfo>)
    ensures r.None? <==> !Truthy(EventIdOf(fields)) || FirstParsed(fields, DatetimeKeys, parse).None?
    ensures r.Some? ==> r.value.eventId == PyStr(EventIdOf(fields), repr)
    ensures r.Some? ==> Some(r.value.callDatetime) == FirstParsed(fields, DatetimeKeys, parse)
    ensures r.Some? ==> Truthy(r.value.language)
    ensures r.Some? && Truthy(Get(fields, "language")) ==> r.value.language == Get(fields, "language")
    ensures r.Some? && !Truthy(Get(fields, "language")) ==> r.value.language == JStr(DefaultLanguage)
    ensures r.Some? ==> r.value.cursor == Get(fields, "cursor") && r.value.transcriptHash == Get(fields, "transcript_hash")
    ensures r.Some? && Truthy(Get(fields, "type")) ==> r.value.callType == Get(fields, "type")
    ensures r.Some? && !Truthy(Get(fields, "type")) ==> r.value.callType == Get(fields, "event_type")
    ensures r.Some? && Truthy(Get(fields, "timezone")) ==> r.value.timezone == Get(fields, "timezone")
    ensures r.Some? && !Truthy(Get(fields, "timezone")) ==> r.value.timezone == Get(fields, "timeZone")
    ensures r.Some? && Truthy(Get(fields, "source_url")) ==> r.value.sourceUrl == Get(fields, "source_url")
    ensures r.Some? && !Truthy(Get(fields, "source_url")) ==> r.value.sourceUrl == Get(fields, "sourceUrl")
  {
    var id := EventIdOf(fields);
    var when := FirstParsed(fields, DatetimeKeys, parse);
    if !Truthy(id) || when.None? then None
    else
      Some(CallInfo(
        PyStr(id, repr),
        when.value,
        Or(Get(fields, "type"), Get(fields, "event_type")),
        Or(Get(fields, "timezone"), Get(fields, "timeZone")),
        Or(Get(fields, "source_url"), Get(fields, "sourceUrl")),
        Or(Get(fields, "language"), JStr(DefaultLanguage)),
        Get(fields, "transcript_hash"),
        Get(fields, "cursor")))
  }

  /** A string identifier is kept as it is; an integer one is written in decimal. */
  lemma EventIdText(fields: map<string, Json>, parse: Json -> Option<int>, repr: Json -> string)
    requires EventToCallInfo(fields, parse, repr).Some?
    ensures Get(fields, "event_id").JStr? && Get(fields, "event_id").s != "" ==>
              EventToCallInfo(fields, parse, repr).value.eventId == Get(fields, "event_id").s
    ensures !Truthy(Get(fields, "event_id")) && Get(fields, "id").JInt? ==>
              EventToCallInfo(fields, parse, repr).value.eventId == IntToString(Get(fields, "id").i)
  {
  }

  // ------------------------------------------------------------------
  // the starting point

  /** `_load_since`: the stored time of the last saved call when there is
      one and it parses, else the start of the batch window. `stored` is
      the state's `last_call_datetime`, `None` when there is no state. */
  function LoadSince(stored: Option<string>, fromIso: string -> Option<int>, windowStart: int): (r: int)
    ensures stored.None? || stored.value == "" ==> r == windowStart
    ensures stored.Some? && stored.value != "" && fromIso(stored.value).None? ==> r == windowStart
    ensures stored.Some? && stored.value != "" && fromIso(stored.value).Some? ==> r == fromIso(stored.value).value
  {
    match stored
    case Some(text) =>
      if text != "" then
        match fromIso(text)
        case Some(t) => t
        case None => windowStart
      else windowStart
    case None => windowStart
  }

  // ------------------------------------------------------------------
  // the filter and the counter

  /** What the crawler reads from outside for one ticker. `stored` is the
      fetch state's `last_call_datetime` (`None` without a state), or an
      error when the database read raised. `save` downloads the transcript
      and stores the call, giving the new record id, or an error when either
      raised. `write` and `mark` tell whether `update_fetch_state` and
      `mark_successful_run` went through; when they do not, they raised. */
  datatype QuartrEnv = QuartrEnv(
    stored: string -> Result<Option<string>>,
    fromIso: string -> Option<int>,
    windowStart: int,
    payload: (string, int) -> Option<Json>,
    parse: Json -> Option<int>,
    repr: Json -> string,
    save: (string, CallInfo, Json) -> Result<Json>,
    write: (string, FetchUpdate) -> bool,
    mark: string -> bool)

  /** A call time and cursor written to the fetch state. */
  datatype FetchUpdate = FetchUpdate(callDatetime: int, cursor: Json)

  function UpdateOf(info: CallInfo): FetchUpdate {
    FetchUpdate(info.callDatetime, info.cursor)
  }

  /** The walk over the events: records saved, fetch-state writes in order,
      and whether an exception left the loop. */
  datatype Progress = Progress(saved: nat, updates: seq<FetchUpdate>, raised: bool)

  /** The call record of an event that is a dict, maps, and lies strictly after `since`. */
  function Fresh(event: Json, since: int, env: QuartrEnv): (r: Option<CallInfo>)
    ensures r.Some? ==> event.JObject? && r.value.callDatetime > since
    ensures r.Some? ==> EventToCallInfo(event.fields, env.parse, env.repr) == r
    ensures event.JObject? ==>
              var c := EventToCallInfo(event.fields, env.parse, env.repr);
              c.Some? && c.value.callDatetime > since ==> r == c
  {
    if !event.JObject? then None
    else
      match EventToCallInfo(event.fields, env.parse, env.repr)
      case Some(info) => if info.callDatetime <= since then None else Some(info)
      case None => None
  }

  /** The loop of `process_ticker`. An event that is not a dict makes
      `.get` raise, as does a failed save or fetch-state write; each ends
      the walk. A save whose record id is falsy is skipped. */
  function Walk(ticker: string, events: seq<Json>, since: int, env: QuartrEnv): (r: Progress)
    ensures r.saved <= |events|
    ensures |r.updates| <= r.saved
    ensures !r.raised ==> r.saved == |r.updates|
    ensures forall k :: 0 <= k < |r.updates| ==> r.updates[k].callDatetime > since
    decreases |events|
  {
    if |events| == 0 then Progress(0, [], false)
    else
      var event := events[0];
      if !event.JObject? then Progress(0, [], true)
      else
        match Fresh(event, since, env)
        case None => Walk(ticker, events[1..], since, env)
        case Some(info) =>
          match env.save(ticker, info, event)
          case Err(_) => Progress(0, [], true)
          case Ok(id) =>
            if !Truthy(id) then Walk(ticker, events[1..], since, env)
            else if !env.write(ticker, UpdateOf(info)) then Progress(1, [], true)
            else
              var rest := Walk(ticker, events[1..], since, env);
              var updates := [UpdateOf(info)] + rest.updates;
              assert forall k :: 0 <= k < |updates| ==> updates[k].callDatetime > since by {
                forall k | 0 <= k < |updates| ensures updates[k].callDatetime > since {
                  if k > 0 {
                    assert updates[k] == rest.updates[k - 1];
                  }
                }
              }
              Progress(rest.saved + 1, updates, rest.raised)
  }

  /** Whether handling `event` raises: it is not a dict, or it is fresh and
      its save raises, or its save yields a record id and the fetch-state
      write then raises. */
  predicate RaisesAt(ticker: string, event: Json, since: int, env: QuartrEnv) {
    || !event.JObject?
    || (&& Fresh(event, since, env).Some?
        && var info := Fresh(event, since, env).value;
           var saved := env.save(ticker, info, event);
           saved.Err? || (Truthy(saved.value) && !env.write(ticker, UpdateOf(info))))
  }

  /** The fresh calls whose save yields a truthy record id, in order: an
      independent statement of what the loop counts. */
  function SavedCalls(ticker: string, events: seq<Json>, since: int, env: QuartrEnv): (r: seq<CallInfo>)
    ensures |r| <= |events|
    decreases |events|
  {
    if |events| == 0 then []
    else
      var rest := SavedCalls(ticker, events[1..], since, env);
      match Fresh(events[0], since, env)
      case Some(info) =>
        var saved := env.save(ticker, info, events[0]);
        if saved.Ok? && Truthy(saved.value) then [info] + rest else rest
      case None => rest
  }

  /** The fetch-state writes a sequence of saved calls makes, one per call. */
  function UpdatesOf(calls: seq<CallInfo>): (r: seq<FetchUpdate>)
    ensures |r| == |calls|
    ensures forall k :: 0 <= k < |calls| ==> r[k] == FetchUpdate(calls[k].callDatetime, calls[k].cursor)
  {
    seq(|calls|, k requires 0 <= k < |calls| => UpdateOf(calls[k]))
  }

  /** The walk raises exactly when one of the events raises. */
  lemma {:induction false} WalkRaisedIff(ticker: string, events: seq<Json>, since: int, env: QuartrEnv)
    ensures Walk(ticker, events, since, env).raised <==>
            exists k :: 0 <= k < |events| && RaisesAt(ticker, events[k], since, env)
    decreases |events|
  {
    if |events| > 0 {
      WalkRaisedIff(ticker, events[1..], since, env);
      if exists k :: 0 <= k < |events[1..]| && RaisesAt(ticker, events[1..][k], since, env) {
        var k :| 0 <= k < |events[1..]| && RaisesAt(ticker, events[1..][k], since, env);
        assert events[k + 1] == events[1..][k];
      }
      if exists k :: 0 <= k < |events| && RaisesAt(ticker, events[k], since, env) {
        var k :| 0 <= k < |events| && RaisesAt(ticker, events[k], since, env);
        if k > 0 {
          assert events[1..][k - 1] == events[k];
        }
      }
    }
  }

  /** When nothing raises, every call saved with a truthy record id is
      counted once and writes the fetch state with its own time and cursor,
      in order; a call whose record id is falsy is neither counted nor
      written. */
  lemma {:induction false} WalkCountsSavedCalls(ticker: string, events: seq<Json>, since: int, env: QuartrEnv)
    ensures !Walk(ticker, events, since, env).raised ==>
              && Walk(ticker, events, since, env).saved == |SavedCalls(ticker, events, since, env)|
              && Walk(ticker, events, since, env).updates == UpdatesOf(SavedCalls(ticker, events, since, env))
    decreases |events|
  {
    if |events| > 0 {
      WalkCountsSavedCalls(ticker, events[1..], since, env);
      var rest := SavedCalls(ticker, events[1..], since, env);
      match Fresh(events[0], since, env)
      case Some(info) =>
        var saved := env.save(ticker, info, events[0]);
        if saved.Ok? && Truthy(saved.value) {
          assert SavedCalls(ticker, events, since, env) == [info] + rest;
          UpdatesOfCons(info, rest);
        }
      case None =>
    }
  }

  lemma UpdatesOfCons(c: CallInfo, rest: seq<CallInfo>)
    ensures UpdatesOf([c] + rest) == [UpdateOf(c)] + UpdatesOf(rest)
  {
    var a := UpdatesOf([c] + rest);
    var b := [UpdateOf(c)] + UpdatesOf(rest);
    forall k | 0 <= k < |a| ensures a[k] == b[k] {
      if k > 0 {
        assert ([c] + rest)[k] == rest[k - 1];
      }
    }
  }

  /** The result of `process_ticker` and what it wrote. */
  datatype Outcome = Outcome(count: nat, updates: seq<FetchUpdate>, markedRun: bool, raised: bool)

  /** `process_ticker`: 0 when the events request fails with
      `QuartrAPIError`, which it catches; otherwise the
      number of calls saved with a truthy record id, with the run marked
      successful when there was at least one. An exception (from the
      fetch-state read, the loop, or the final mark) reaches `run`, which
      records 0. */
  function ProcessTicker(ticker: string, env: QuartrEnv): (r: Outcome)
    ensures r.markedRun <==> r.count > 0
    ensures r.raised ==> r.count == 0
    ensures env.stored(ticker).Err? ==> r == Outcome(0, [], false, true)
    ensures env.stored(ticker).Ok? ==>
      var since := LoadSince(env.stored(ticker).value, env.fromIso, env.windowStart);
      match FetchEvents(env.payload(ticker, since))
      case Err(_) => r == Outcome(0, [], false, false)
      case Ok(events) =>
        var calls := SavedCalls(ticker, events, since, env);
        && (r.raised <==> (exists k :: 0 <= k < |events| && RaisesAt(ticker, events[k], since, env))
                          || (|calls| > 0 && !env.mark(ticker)))
        && (!r.raised ==> r.count == |calls| && r.updates == UpdatesOf(calls))
  {
    match env.stored(ticker)
    case Err(_) => Outcome(0, [], false, true)
    case Ok(stored) =>
      var since := LoadSince(stored, env.fromIso, env.windowStart);
      match FetchEvents(env.payload(ticker, since))
      case Err(_) => Outcome(0, [], false, false)
      case Ok(events) =>
        var p := Walk(ticker, events, since, env);
        WalkRaisedIff(ticker, events, since, env);
        WalkCountsSavedCalls(ticker, events, since, env);
        if p.raised then Outcome(0, p.updates, false, true)
        else if p.saved > 0 && !env.mark(ticker) then Outcome(0, p.updates, false, true)
        else Outcome(p.saved, p.updates, p.saved > 0, false)
  }

  // ------------------------------------------------------------------
  // all tickers

  /** The result map of `run` for per-ticker counts `count`: one entry per
      ticker, keyed in upper case; a later ticker with the same key
      overwrites an earlier one. */
  function Results(tickers: seq<string>, count: string -> nat): (r: map<string, nat>)
    decreases |tickers|
  {
    if |tickers| == 0 then map[]
    else
      var n := |tickers| - 1;
      Results(tickers[..n], count)[Upper(tickers[n]) := count(tickers[n])]
  }

  /** `run`: a ticker whose processing raised counts 0, which `ProcessTicker` already reports. */
  function Run(tickers: seq<string>, env: QuartrEnv): (r: map<string, nat>)
    ensures forall key :: key in r ==> exists k :: 0 <= k < |tickers| && Upper(tickers[k]) == key && r[key] == ProcessTicker(tickers[k], env).count
    ensures forall k :: 0 <= k < |tickers| ==> Upper(tickers[k]) in r
    ensures forall k :: 0 <= k < |tickers| && (forall j :: k < j < |tickers| ==> Upper(tickers[j]) != Upper(tickers[k])) ==>
              r[Upper(tickers[k])] == ProcessTicker(tickers[k], env).count
  {
    var count := (t: string) => ProcessTicker(t, env).count;
    ResultsFacts(tickers, count);
    Results(tickers, count)
  }

  /** The three facts about the result map together, for any per-ticker counts. */
  lemma ResultsFacts(tickers: seq<string>, count: string -> nat)
    ensures forall key :: key in Results(tickers, count) ==>
              exists k :: 0 <= k < |tickers| && Upper(tickers[k]) == key && Results(tickers, count)[key] == count(tickers[k])
    ensures forall k :: 0 <= k < |tickers| ==> Upper(tickers[k]) in Results(tickers, count)
    ensures forall k :: 0 <= k < |tickers| && (forall j :: k < j < |tickers| ==> Upper(tickers[j]) != Upper(tickers[k])) ==>
              Results(tickers, count)[Upper(tickers[k])] == count(tickers[k])
  {
    var r := Results(tickers, count);
    forall key | key in r ensures exists k :: 0 <= k < |tickers| && Upper(tickers[k]) == key && r[key] == count(tickers[k]) {
      ResultsValuesAreCounts(tickers, count, key);
    }
    forall k | 0 <= k < |tickers| ensures Upper(tickers[k]) in r {
      ResultsKeys(tickers, count, Upper(tickers[k]));
    }
    forall k | 0 <= k < |tickers| && (forall j :: k < j < |tickers| ==> Upper(tickers[j]) != Upper(tickers[k]))
      ensures r[Upper(tickers[k])] == count(tickers[k])
    {
      ResultsLastWins(tickers, count, k);
    }
  }

  /** The keys of the result are exactly the tickers in upper case. */
  lemma {:induction false} ResultsKeys(tickers: seq<string>, count: string -> nat, key: string)
    ensures key in Results(tickers, count) <==> exists k :: 0 <= k < |tickers| && Upper(tickers[k]) == key
    decreases |tickers|
  {
    if |tickers| > 0 {
      var n := |tickers| - 1;
      ResultsKeys(tickers[..n], count, key);
      if key in Results(tickers[..n], count) {
        var k :| 0 <= k < n && Upper(tickers[..n][k]) == key;
        assert tickers[k] == tickers[..n][k];
      }
      if exists k :: 0 <= k < |tickers| && Upper(tickers[k]) == key {
        var k :| 0 <= k < |tickers| && Upper(tickers[k]) == key;
        if k < n {
          assert tickers[..n][k] == tickers[k];
        }
      }
    }
  }

  /** A ticker whose key no later ticker repeats has its own count in the result. */
  lemma {:induction false} ResultsLastWins(tickers: seq<string>, count: string -> nat, k: nat)
    requires k < |tickers|
    requires forall j :: k < j < |tickers| ==> Upper(tickers[j]) != Upper(tickers[k])
    ensures Upper(tickers[k]) in Results(tickers, count)
    ensures Results(tickers, count)[Upper(tickers[k])] == count(tickers[k])
    decreases |tickers|
  {
    var n := |tickers| - 1;
    if k < n {
      assert tickers[..n][k] == tickers[k];
      forall j | k < j < n ensures Upper(tickers[..n][j]) != Upper(tickers[..n][k]) {
        assert tickers[..n][j] == tickers[j];
      }
      ResultsLastWins(tickers[..n], count, k);
    }
  }

  /** Every key of the result holds a count one of its tickers produced. */
  lemma ResultsValuesAreCounts(tickers: seq<string>, count: string -> nat, key: string)
    requires key in Results(tickers, count)
    ensures exists k :: 0 <= k < |tickers| && Upper(tickers[k]) == key && Results(tickers, count)[key] == count(tickers[k])
  {
    ResultsKeys(tickers, count, key);
    var k :| 0 <= k < |tickers| && Upper(tickers[k]) == key;
    LastWithKey(tickers, key, k);
    var m :| k <= m < |tickers| && Upper(tickers[m]) == key && forall j :: m < j < |tickers| ==> Upper(tickers[j]) != key;
    ResultsLastWins(tickers, count, m);
  }

  /** There is a last index carrying a key that occurs at index `k`. */
  lemma {:induction false} LastWithKey(tickers: seq<string>, key: string, k: nat)
    requires k < |tickers| && Upper(tickers[k]) == key
    ensures exists m :: k <= m < |tickers| && Upper(tickers[m]) == key && forall j :: m < j < |tickers| ==> Upper(tickers[j]) != key
    decreases |tickers| - k
  {
    if exists j :: k < j < |tickers| && Upper(tickers[j]) == key {
      var j :| k < j < |tickers| && Upper(tickers[j]) == key;
      LastWithKey(tickers, key, j);
    } else {
      assert forall j :: k < j < |tickers| ==> Upper(tickers[j]) != key;
    }
  }
}

=== FILE: sec_crawler.dfy ===
/** The SEC EDGAR crawler (src/sec_crawler.py): ticker-to-CIK lookup,
    selection of a filing from the parallel arrays of the submissions
    record, the list of candidate file names, and the chain that ties them
    together. HTTP, JSON decoding, the clock, the batch-date conversion and
    the database are parameters; a request or decoding failure is `None`. */
module SecCrawler {
  import opened Wrappers
  import opened Strings

  // ------------------------------------------------------------------
  // CIK lookup

  /** One value of `company_tickers.json`; a missing key is `None`. */
  datatype CompanyEntry = CompanyEntry(ticker: Option<string>, cik: Option<nat>)

  const CikWidth: nat := 10

  /** The entry's ticker compared in upper case; a missing ticker reads as "". */
  predicate TickerMatches(e: CompanyEntry, ticker: string) {
    Upper(e.ticker.GetOr("")) == Upper(ticker)
  }

  /** Index of the first entry whose ticker matches. */
  function FirstMatch(entries: seq<CompanyEntry>, ticker: string): (r: Option<nat>)
    ensures r.Some? ==> r.value < |entries| && TickerMatches(entries[r.value], ticker)
    ensures r.Some? ==> forall k :: 0 <= k < r.value ==> !TickerMatches(entries[k], ticker)
    ensures r.None? <==> forall k :: 0 <= k < |entries| ==> !TickerMatches(entries[k], ticker)
    decreases |entries|
  {
    if |entries| == 0 then None
    else if TickerMatches(entries[0], ticker) then Some(0)
    else
      match FirstMatch(entries[1..], ticker)
      case Some(k) => Some(k + 1)
      case None => None
  }

  /** `str(cik).zfill(10)`. */
  function PaddedCik(n: nat): (r: string)
    ensures |r| == if |NatToString(n)| >= CikWidth then |NatToString(n)| else CikWidth
    ensures AllDigits(r) && DigitsValue(r) == n
  {
    var s := NatToString(n);
    NatToStringRoundTrip(n);
    if |s| >= CikWidth then s
    else
      LeadingZerosValue(CikWidth - |s|, s);
      assert s[0] != '+' && s[0] != '-';
      ZFill(s, CikWidth)
  }

  /** `get_cik_from_ticker`: `companies` is `None` when the request or the
      decoding failed; a first match without a CIK raises, which is caught. */
  function CikFromTicker(ticker: string, companies: Option<seq<CompanyEntry>>): (r: Option<string>)
    ensures companies.None? ==> r.None?
    ensures companies.Some? && FirstMatch(companies.value, ticker).None? ==> r.None?
    ensures companies.Some? && FirstMatch(companies.value, ticker).Some? ==>
              var e := companies.value[FirstMatch(companies.value, ticker).value];
              (e.cik.None? ==> r.None?) && (e.cik.Some? ==> r == Some(PaddedCik(e.cik.value)))
    ensures r.Some? ==> |r.value| >= CikWidth && AllDigits(r.value)
    ensures r.Some? ==>
              exists k :: 0 <= k < |companies.value| && TickerMatches(companies.value[k], ticker)
                && (forall j :: 0 <= j < k ==> !TickerMatches(companies.value[j], ticker))
                && companies.value[k].cik.Some? && DigitsValue(r.value) == companies.value[k].cik.value
  {
    match companies
    case None => None
    case Some(entries) =>
      match FirstMatch(entries, ticker)
      case None => None
      case Some(k) =>
        match entries[k].cik
        case Some(n) => Some(PaddedCik(n))
        case None => None
  }

  /** Two spellings of a ticker that differ only in ASCII case find the same entry. */
  lemma {:induction false} FirstMatchIgnoresCase(entries: seq<CompanyEntry>, a: string, b: string)
    requires Upper(a) == Upper(b)
    ensures FirstMatch(entries, a) == FirstMatch(entries, b)
    decreases |entries|
  {
    if |entries| > 0 {
      FirstMatchIgnoresCase(entries[1..], a, b);
    }
  }

  /** Looking a ticker up in lower case gives the CIK of its upper-case spelling. */
  lemma CikIgnoresCase(ticker: string, companies: Option<seq<CompanyEntry>>)
    ensures CikFromTicker(Lower(ticker), companies) == CikFromTicker(ticker, companies)
  {
    assert Upper(Lower(ticker)) == Upper(ticker) by {
      forall i | 0 <= i < |ticker| ensures Upper(Lower(ticker))[i] == Upper(ticker)[i] {
        assert Lower(ticker)[i] == LowerChar(ticker[i]);
      }
    }
    if companies.Some? {
      FirstMatchIgnoresCase(companies.value, Lower(ticker), ticker);
    }
  }

  // ------------------------------------------------------------------
  // filing selection

  /** `filings.recent`: parallel arrays, one slot per filing, newest first.
      A falsy `reportDate` or `acceptanceDateTime` is `None`; an empty or
      missing acceptance string is "". */
  datatype Recent = Recent(
    form: seq<string>,
    filingDate: seq<string>,
    reportDate: Option<seq<string>>,
    accessionNumber: seq<string>,
    acceptanceDateTime: Option<seq<string>>)

  /** The submissions record; `recent` is `None` when `filings.recent` is missing or empty. */
  datatype Submissions = Submissions(name: Option<string>, recent: Option<Recent>)

  /** An acceptance time and the batch date it falls on. */
  datatype Acceptance = Acceptance(dateTime: string, batchDate: string)

  datatype Filing = Filing(
    form: string,
    filed: string,
    reportingFor: Option<string>,
    entity: string,
    accession: string,
    acceptance: Option<Acceptance>,
    cik: string)

  /** The acceptance string at `idx`, when the array reaches it and the string is non-empty. */
  function AcceptanceAt(rc: Recent, idx: nat): (r: Option<string>)
    ensures r.Some? <==> rc.acceptanceDateTime.Some? && idx < |rc.acceptanceDateTime.value| && rc.acceptanceDateTime.value[idx] != ""
    ensures r.Some? ==> r.value == rc.acceptanceDateTime.value[idx]
  {
    match rc.acceptanceDateTime
    case Some(acc) => if idx < |acc| && acc[idx] != "" then Some(acc[idx]) else None
    case None => None
  }

  /** The report date at `idx`, when the array reaches it. */
  function ReportingFor(rc: Recent, idx: nat): (r: Option<string>)
    ensures r.None? <==> rc.reportDate.None? || |rc.reportDate.value| <= idx
    ensures r.Some? ==> r.value == rc.reportDate.value[idx]
  {
    match rc.reportDate
    case Some(rd) => if idx < |rd| then Some(rd[idx]) else None
    case None => None
  }

  /** Slot `idx` was accepted on the target batch date. */
  predicate Qualifies(rc: Recent, idx: nat, batchDate: string -> string, target: string) {
    AcceptanceAt(rc, idx).Some? && batchDate(AcceptanceAt(rc, idx).value) == target
  }

  /** The first slot at or after `i` (among the `form` slots) that qualifies. */
  function FirstQualifying(rc: Recent, i: nat, batchDate: string -> string, target: string): (r: Option<nat>)
    requires i <= |rc.form|
    ensures r.Some? ==> i <= r.value < |rc.form| && Qualifies(rc, r.value, batchDate, target)
    ensures r.Some? ==> forall k :: i <= k < r.value ==> !Qualifies(rc, k, batchDate, target)
    ensures r.None? <==> forall k :: i <= k < |rc.form| ==> !Qualifies(rc, k, batchDate, target)
    decreases |rc.form| - i
  {
    if i == |rc.form| then None
    else if Qualifies(rc, i, batchDate, target) then Some(i)
    else FirstQualifying(rc, i + 1, batchDate, target)
  }

  /** The record for slot `idx`; `None` when `filingDate` or `accessionNumber` is too short (an `IndexError`). */
  function FilingAt(rc: Recent, idx: nat, entity: string, acceptance: Option<Acceptance>, cik: string): (r: Option<Filing>)
    requires idx < |rc.form|
    ensures r.None? <==> idx >= |rc.filingDate| || idx >= |rc.accessionNumber|
    ensures r.Some? ==>
              && r.value.form == rc.form[idx] && r.value.filed == rc.filingDate[idx]
              && r.value.accession == rc.accessionNumber[idx] && r.value.reportingFor == ReportingFor(rc, idx)
              && r.value.acceptance == acceptance && r.value.entity == entity && r.value.cik == cik
  {
    if idx < |rc.filingDate| && idx < |rc.accessionNumber| then
      Some(Filing(rc.form[idx], rc.filingDate[idx], ReportingFor(rc, idx), entity, rc.accessionNumber[idx], acceptance, cik))
    else None
  }

  /** `get_latest_filing`. With `onlyToday`, the first slot accepted on the
      target batch date; otherwise slot 0, with its acceptance time when it
      has one. `submissions` is `None` when the request failed. */
  function LatestFiling(cik: string, submissions: Option<Submissions>, onlyToday: bool,
                        batchDate: string -> string, target: string): (r: Option<Filing>)
    ensures submissions.None? || submissions.value.recent.None? || |submissions.value.recent.value.form| == 0 ==> r.None?
    ensures onlyToday && r.Some? ==>
              var rc := submissions.value.recent.value;
              exists idx :: 0 <= idx < |rc.form| && idx < |rc.filingDate| && idx < |rc.accessionNumber| && Qualifies(rc, idx, batchDate, target)
                && (forall k :: 0 <= k < idx ==> !Qualifies(rc, k, batchDate, target))
                && r.value.form == rc.form[idx] && r.value.filed == rc.filingDate[idx]
                && r.value.accession == rc.accessionNumber[idx]
                && r.value.reportingFor == ReportingFor(rc, idx)
                && r.value.acceptance == Some(Acceptance(rc.acceptanceDateTime.value[idx], target))
    ensures onlyToday && submissions.Some? && submissions.value.recent.Some? ==>
              var rc := submissions.value.recent.value;
              match FirstQualifying(rc, 0, batchDate, target)
              case None => r.None?
              case Some(idx) => r.Some? <==> idx < |rc.filingDate| && idx < |rc.accessionNumber|
    ensures !onlyToday && submissions.Some? && submissions.value.recent.Some? ==>
              var rc := submissions.value.recent.value;
              r.Some? <==> |rc.form| > 0 && |rc.filingDate| > 0 && |rc.accessionNumber| > 0
    ensures !onlyToday && r.Some? ==>
              var rc := submissions.value.recent.value;
              |rc.form| > 0 && |rc.accessionNumber| > 0 && r.value.form == rc.form[0] && r.value.filed == rc.filingDate[0]
              && r.value.accession == rc.accessionNumber[0]
              && r.value.reportingFor == ReportingFor(rc, 0)
              && (r.value.acceptance.Some? <==> AcceptanceAt(rc, 0).Some?)
              && (r.value.acceptance.Some? ==>
                    r.value.acceptance.value == Acceptance(AcceptanceAt(rc, 0).value, batchDate(AcceptanceAt(rc, 0).value)))
    ensures r.Some? ==> r.value.cik == cik && r.value.entity == submissions.value.name.GetOr("")
  {
    match submissions
    case None => None
    case Some(sub) =>
      match sub.recent
      case None => None
      case Some(rc) =>
        if |rc.form| == 0 then None
        else
          var entity := sub.name.GetOr("");
          if onlyToday then
            match FirstQualifying(rc, 0, batchDate, target)
            case None => None
            case Some(idx) =>
              var acc := AcceptanceAt(rc, idx).value;
              FilingAt(rc, idx, entity, Some(Acceptance(acc, batchDate(acc))), cik)
          else
            var acceptance := match AcceptanceAt(rc, 0)
              case Some(acc) => Some(Acceptance(acc, batchDate(acc)))
              case None => None;
            FilingAt(rc, 0, entity, acceptance, cik)
  }

  /** When slot 0 was accepted on the target date, the filtered lookup and
      the unfiltered one pick the same filing. */
  lemma TodayAgreesWithLatestAtSlotZero(cik: string, sub: Submissions, batchDate: string -> string, target: string)
    requires sub.recent.Some? && |sub.recent.value.form| > 0 && Qualifies(sub.recent.value, 0, batchDate, target)
    ensures LatestFiling(cik, Some(sub), true, batchDate, target) == LatestFiling(cik, Some(sub), false, batchDate, target)
  {
  }

  /** Without the date filter the target date plays no part. */
  lemma LatestIgnoresTarget(cik: string, submissions: Option<Submissions>, batchDate: string -> string, t1: string, t2: string)
    ensures LatestFiling(cik, submissions, false, batchDate, t1) == LatestFiling(cik, submissions, false, batchDate, t2)
  {
  }

  // ------------------------------------------------------------------
  // download candidates

  datatype FileFormat = Xml | Html | Txt

  /** The format word compared in lower case; anything else means plain text. */
  function FormatOf(word: string): (r: FileFormat)
    ensures r == Xml <==> Lower(word) == "xml"
    ensures r == Html <==> Lower(word) == "html"
  {
    if Lower(word) == "xml" then Xml
    else if Lower(word) == "html" then Html
    else Txt
  }

  predicate HasSuffix(name: string, suffixes: seq<string>) {
    exists x :: x in suffixes && EndsWith(name, x)
  }

  /** The index of the first directory name with one of the suffixes. */
  function FirstWithSuffix(names: seq<string>, suffixes: seq<string>): (r: Option<nat>)
    ensures r.Some? ==> r.value < |names| && HasSuffix(names[r.value], suffixes)
    ensures r.Some? ==> forall k :: 0 <= k < r.value ==> !HasSuffix(names[k], suffixes)
    ensures r.None? <==> forall k :: 0 <= k < |names| ==> !HasSuffix(names[k], suffixes)
    decreases |names|
  {
    if |names| == 0 then None
    else if HasSuffix(names[0], suffixes) then Some(0)
    else
      match FirstWithSuffix(names[1..], suffixes)
      case Some(k) => Some(k + 1)
      case None => None
  }

  /** The name the directory scan puts in front, if any. */
  function Found(directory: Option<seq<string>>, suffixes: seq<string>): (r: Option<string>)
    ensures r.Some? <==> directory.Some? && FirstWithSuffix(directory.value, suffixes).Some?
    ensures r.Some? ==> r.value == directory.value[FirstWithSuffix(directory.value, suffixes).value]
  {
    match directory
    case Some(names) =>
      (match FirstWithSuffix(names, suffixes)
       case Some(k) => Some(names[k])
       case None => None)
    case None => None
  }

  /** `found` (when there is one) in front of the fixed names. */
  function WithFound(found: Option<string>, fixed: seq<string>): (r: seq<string>)
    ensures found.None? ==> r == fixed
    ensures found.Some? ==> r == [found.value] + fixed
  {
    match found
    case Some(name) => [name] + fixed
    case None => fixed
  }

  const XmlSuffixes: seq<string> := [".xml"]
  const HtmlSuffixes: seq<string> := [".htm", ".html"]

  /** The file names to try, best first: for XML and HTML the first
      directory name with a matching suffix, when there is one, in front of
      two fixed names. `directory` is the index's item names (a missing
      `name` reads as ""), or `None` when the index has no `directory`. */
  function Candidates(format: FileFormat, form: string, accession: string, directory: Option<seq<string>>): (r: seq<string>)
    ensures format == Txt ==> r == [RemoveChar(accession, '-') + ".txt"]
    ensures format != Txt ==> |r| == 2 || |r| == 3
    ensures format == Xml ==> r[|r| - 2..] == [form + ".xml", RemoveChar(accession, '-') + ".txt"]
    ensures format == Html ==> r[|r| - 2..] == [form + ".htm", form + ".html"]
    ensures format == Xml ==>
              (|r| == 3 <==> directory.Some? && FirstWithSuffix(directory.value, XmlSuffixes).Some?)
    ensures format == Xml && |r| == 3 ==> r[0] == directory.value[FirstWithSuffix(directory.value, XmlSuffixes).value]
    ensures format == Html ==>
              (|r| == 3 <==> directory.Some? && FirstWithSuffix(directory.value, HtmlSuffixes).Some?)
    ensures format == Html && |r| == 3 ==> r[0] == directory.value[FirstWithSuffix(directory.value, HtmlSuffixes).value]
  {
    var bare := RemoveChar(accession, '-');
    match format
    case Xml => WithFound(Found(directory, XmlSuffixes), [form + ".xml", bare + ".txt"])
    case Html => WithFound(Found(directory, HtmlSuffixes), [form + ".htm", form + ".html"])
    case Txt => [bare + ".txt"]
  }

  /** The first candidate whose download and write succeeded. */
  function FirstDownloaded(cands: seq<string>, ok: string -> bool): (r: Option<nat>)
    ensures r.Some? ==> r.value < |cands| && ok(cands[r.value])
    ensures r.Some? ==> forall k :: 0 <= k < r.value ==> !ok(cands[k])
    ensures r.None? <==> forall k :: 0 <= k < |cands| ==> !ok(cands[k])
    decreases |cands|
  {
    if |cands| == 0 then None
    else if ok(cands[0]) then Some(0)
    else
      match FirstDownloaded(cands[1..], ok)
      case Some(k) => Some(k + 1)
      case None => None
  }

  const DownloadDir: string := "downloads/sec_filings"

  function SavedPath(cik: string, bare: string, filename: string): string {
    DownloadDir + "/" + cik + "_" + bare + "_" + filename
  }

  /** Everything the download needs from outside: the index (`None` when the
      request failed, then the item names of its `directory` if any) and
      whether fetching and writing a given file name succeeded. */
  datatype Archive = Archive(index: Option<Option<seq<string>>>, fetched: string -> bool)

  /** `download_filing_file`: the path the first successful candidate was saved under. */
  function DownloadFiling(cik: string, accession: string, form: string, fileFormat: string, archive: Archive): (r: Option<string>)
    ensures archive.index.None? ==> r.None?
    ensures r.Some? ==>
              var cands := Candidates(FormatOf(fileFormat), form, accession, archive.index.value);
              exists k :: 0 <= k < |cands| && archive.fetched(cands[k]) && (forall j :: 0 <= j < k ==> !archive.fetched(cands[j]))
                && r.value == SavedPath(cik, RemoveChar(accession, '-'), cands[k])
    ensures r.Some? <==>
              && archive.index.Some?
              && var cands := Candidates(FormatOf(fileFormat), form, accession, archive.index.value);
                 exists k :: 0 <= k < |cands| && archive.fetched(cands[k])
  {
    match archive.index
    case None => None
    case Some(directory) =>
      var cands := Candidates(FormatOf(fileFormat), form, accession, directory);
      match FirstDownloaded(cands, archive.fetched)
      case Some(k) => Some(SavedPath(cik, RemoveChar(accession, '-'), cands[k]))
      case None => None
  }

  /** In XML mode the whole-submission text file is always tried, with no dash in its name. */
  lemma XmlTriesSubmissionText(form: string, accession: string, directory: Option<seq<string>>)
    ensures RemoveChar(accession, '-') + ".txt" in Candidates(Xml, form, accession, directory)
    ensures '-' !in RemoveChar(accession, '-')
  {
    var r := Candidates(Xml, form, accession, directory);
    assert r[|r| - 1] == r[|r| - 2..][1];
  }

  /** In XML mode a directory's first `.xml` file is tried first, so when it
      downloads it is the file kept. */
  lemma DirectoryMatchWins(cik: string, accession: string, form: string, names: seq<string>, fetched: string -> bool, k: nat)
    requires FirstWithSuffix(names, XmlSuffixes) == Some(k) && fetched(names[k])
    ensures DownloadFiling(cik, accession, form, "xml", Archive(Some(Some(names)), fetched)) ==
            Some(SavedPath(cik, RemoveChar(accession, '-'), names[k]))
  {
    assert Lower("xml") == "xml";
    var cands := Candidates(Xml, form, accession, Some(names));
    assert cands[0] == names[k];
    assert FirstDownloaded(cands, fetched) == Some(0);
  }

  // ------------------------------------------------------------------
  // the chain

  /** Everything `crawl_latest_filing` reads from outside. `save` is the
      database write, whose failure is caught and reported only. */
  datatype SecEnv = SecEnv(
    companies: Option<seq<CompanyEntry>>,
    submissions: string -> Option<Submissions>,
    batchDate: string -> string,
    target: string,
    archive: (string, string) -> Archive,
    save: (string, Filing, string) -> Result<bool>)

  /** `crawl_latest_filing`: each stage may end the chain with `None`. */
  function CrawlLatestFiling(ticker: string, fileFormat: string, saveToDb: bool, onlyToday: bool, env: SecEnv): (r: Option<(Filing, string)>)
    ensures CikFromTicker(ticker, env.companies).None? ==> r.None?
    ensures r.Some? ==>
              var cik := CikFromTicker(ticker, env.companies).value;
              && LatestFiling(cik, env.submissions(cik), onlyToday, env.batchDate, env.target) == Some(r.value.0)
              && DownloadFiling(cik, r.value.0.accession, r.value.0.form, fileFormat, env.archive(cik, r.value.0.accession)) == Some(r.value.1)
    ensures CikFromTicker(ticker, env.companies).Some? ==>
              var cik := CikFromTicker(ticker, env.companies).value;
              match LatestFiling(cik, env.submissions(cik), onlyToday, env.batchDate, env.target)
              case None => r.None?
              case Some(f) =>
                match DownloadFiling(cik, f.accession, f.form, fileFormat, env.archive(cik, f.accession))
                case None => r.None?
                case Some(path) => r == Some((f, path))
  {
    match CikFromTicker(ticker, env.companies)
    case None => None
    case Some(cik) =>
      match LatestFiling(cik, env.submissions(cik), onlyToday, env.batchDate, env.target)
      case None => None
      case Some(filing) =>
        match DownloadFiling(cik, filing.accession, filing.form, fileFormat, env.archive(cik, filing.accession))
        case None => None
        case Some(path) =>
          var _ := if saveToDb then env.save(Upper(ticker), filing, path) else Ok(false);
          Some((filing, path))
  }

  /** Whether and how the database write went has no effect on the result. */
  lemma SaveDoesNotMatter(ticker: string, fileFormat: string, onlyToday: bool, env: SecEnv,
                          save: (string, Filing, string) -> Result<bool>, saveToDb: bool)
    ensures CrawlLatestFiling(ticker, fileFormat, saveToDb, onlyToday, env.(save := save)) ==
            CrawlLatestFiling(ticker, fileFormat, false, onlyToday, env)
  {
  }
}

=== FILE: strings.dfy ===
/** The Python `str` operations the crawlers and the conclusion parser rely
    on, over `seq<char>`. Whitespace and line boundaries are Python's own
    character sets; case mapping covers ASCII letters only. */
module Strings {

  /** Characters for which Python's `str.isspace()` holds; `\s` in a `str`
      regular expression matches the same set. */
  predicate IsSpace(c: char) {
    c == ' ' || ('\t' <= c <= '\r') || ('\U{1c}' <= c <= '\U{1f}') || c == '\U{85}' || c == '\U{a0}'
    || c == '\U{1680}' || ('\U{2000}' <= c <= '\U{200a}') || c == '\U{2028}' || c == '\U{2029}'
    || c == '\U{202f}' || c == '\U{205f}' || c == '\U{3000}'
  }

  /** Characters at which Python's `str.splitlines()` ends a line. */
  predicate IsLineBreak(c: char) {
    ('\n' <= c <= '\r') || ('\U{1c}' <= c <= '\U{1e}') || c == '\U{85}' || c == '\U{2028}' || c == '\U{2029}'
  }

  predicate AllSpace(s: string) {
    forall i :: 0 <= i < |s| ==> IsSpace(s[i])
  }

  predicate NoLineBreak(s: string) {
    forall i :: 0 <= i < |s| ==> !IsLineBreak(s[i])
  }

  /** Neither end of `s` is whitespace: what `str.strip()` leaves behind. */
  predicate IsStripped(s: string) {
    |s| == 0 || (!IsSpace(s[0]) && !IsSpace(s[|s| - 1]))
  }

  // ------------------------------------------------------------------
  // strip

  /** Number of leading whitespace characters of `s`. */
  function LeadingSpace(s: string): (k: nat)
    ensures k <= |s|
    ensures forall i :: 0 <= i < k ==> IsSpace(s[i])
    ensures k < |s| ==> !IsSpace(s[k])
    decreases |s|
  {
    if |s| > 0 && IsSpace(s[0]) then 1 + LeadingSpace(s[1..]) else 0
  }

  /** Length of `s` without its trailing whitespace. */
  function TrailingCut(s: string): (k: nat)
    ensures k <= |s|
    ensures forall i :: k <= i < |s| ==> IsSpace(s[i])
    ensures k > 0 ==> !IsSpace(s[k - 1])
    decreases |s|
  {
    if |s| > 0 && IsSpace(s[|s| - 1]) then TrailingCut(s[..|s| - 1]) else |s|
  }

  /** Python's `str.strip()` with no argument. */
  function Strip(s: string): (r: string)
    ensures IsStripped(r)
    ensures |r| <= |s|
    ensures r == [] <==> AllSpace(s)
    ensures NoLineBreak(s) ==> NoLineBreak(r)
    ensures exists a :: 0 <= a && a + |r| <= |s| && r == s[a..a + |r|] && AllSpace(s[..a]) && AllSpace(s[a + |r|..])
  {
    var a := LeadingSpace(s);
    var b := TrailingCut(s[a..]);
    StripMiddle(s, a, b);
    s[a..a + b]
  }

  /** Cutting the leading whitespace and then the trailing whitespace leaves
      a middle that is stripped and surrounded by whitespace only. */
  lemma StripMiddle(s: string, a: nat, b: nat)
    requires a == LeadingSpace(s) && b == TrailingCut(s[a..])
    ensures a + b <= |s|
    ensures IsStripped(s[a..a + b])
    ensures AllSpace(s[..a]) && AllSpace(s[a + b..])
    ensures s[a..a + b] == [] <==> AllSpace(s)
    ensures NoLineBreak(s) ==> NoLineBreak(s[a..a + b])
  {
    StripMiddleEnds(s, a, b);
    StripMiddleSurround(s, a, b);
    StripMiddleNoBreak(s, a, b);
  }

  lemma StripMiddleEnds(s: string, a: nat, b: nat)
    requires a == LeadingSpace(s) && b == TrailingCut(s[a..])
    ensures a + b <= |s|
    ensures IsStripped(s[a..a + b])
    ensures s[a..a + b] == [] <==> AllSpace(s)
  {
    StripMiddleStripped(s, a, b);
    StripMiddleEmpty(s, a, b);
  }

  lemma StripMiddleStripped(s: string, a: nat, b: nat)
    requires a == LeadingSpace(s) && b == TrailingCut(s[a..])
    ensures a + b <= |s|
    ensures IsStripped(s[a..a + b])
  {
    if b > 0 {
      var t := s[a..];
      var m := s[a..a + b];
      var first, last := s[a], t[b - 1];
      assert !IsSpace(first) && !IsSpace(last);
      assert m[0] == first && m[b - 1] == last;
    }
  }

  lemma StripMiddleEmpty(s: string, a: nat, b: nat)
    requires a == LeadingSpace(s) && b == TrailingCut(s[a..])
    ensures a + b <= |s|
    ensures b == 0 <==> AllSpace(s)
    ensures s[a..a + b] == [] <==> b == 0
  {
    if a < |s| {
      var t := s[a..];
      assert t[0] == s[a];
      assert !AllSpace(s);
    }
  }

  lemma StripMiddleSurround(s: string, a: nat, b: nat)
    requires a == LeadingSpace(s) && b == TrailingCut(s[a..])
    ensures a + b <= |s|
    ensures AllSpace(s[..a]) && AllSpace(s[a + b..])
  {
    var t := s[a..];
    var p := s[..a];
    forall i | 0 <= i < |p| ensures IsSpace(p[i]) {
      assert p[i] == s[i];
    }
    assert s[a + b..] == t[b..];
    SpaceTail(t, b);
  }

  lemma SpaceTail(t: string, b: nat)
    requires b <= |t| && forall i :: b <= i < |t| ==> IsSpace(t[i])
    ensures AllSpace(t[b..])
  {
    var u := t[b..];
    forall i | 0 <= i < |u| ensures IsSpace(u[i]) {
      assert u[i] == t[b + i];
    }
  }

  lemma StripMiddleNoBreak(s: string, a: nat, b: nat)
    requires a == LeadingSpace(s) && b == TrailingCut(s[a..])
    ensures a + b <= |s|
    ensures NoLineBreak(s) ==> NoLineBreak(s[a..a + b])
  {
    var m := s[a..a + b];
    if NoLineBreak(s) {
      forall i | 0 <= i < |m| ensures !IsLineBreak(m[i]) {
        assert m[i] == s[a + i];
      }
    }
  }

  // ------------------------------------------------------------------
  // case mapping (ASCII letters only)

  function UpperChar(c: char): char {
    if 'a' <= c <= 'z' then (c as int - 32) as char else c
  }

  function LowerChar(c: char): char {
    if 'A' <= c <= 'Z' then (c as int + 32) as char else c
  }

  /** `str.upper()`, ASCII letters only. */
  function Upper(s: string): (r: string)
    ensures |r| == |s|
    ensures forall i :: 0 <= i < |s| ==> r[i] == UpperChar(s[i])
  {
    seq(|s|, i requires 0 <= i < |s| => UpperChar(s[i]))
  }

  /** `str.lower()`, ASCII letters only. */
  function Lower(s: string): (r: string)
    ensures |r| == |s|
    ensures forall i :: 0 <= i < |s| ==> r[i] == LowerChar(s[i])
  {
    seq(|s|, i requires 0 <= i < |s| => LowerChar(s[i]))
  }

  // ------------------------------------------------------------------
  // substrings

  /** Python's `k in s` for strings: `k` is a prefix of some suffix of `s`. */
  predicate Contains(s: string, k: string)
    decreases |s|
  {
    k <= s || (|s| > 0 && Contains(s[1..], k))
  }

  /** An occurrence at index `i` makes `k` occur. */
  lemma {:induction false} ContainsAt(s: string, k: string, i: nat)
    requires i <= |s| && k <= s[i..]
    ensures Contains(s, k)
    decreases i
  {
    if i > 0 {
      assert s[1..][i - 1..] == s[i..];
      ContainsAt(s[1..], k, i - 1);
    }
  }

  /** An occurring string occurs at some index. */
  lemma {:induction false} ContainsWitness(s: string, k: string) returns (i: nat)
    requires Contains(s, k)
    ensures i <= |s| && k <= s[i..]
    decreases |s|
  {
    if k <= s {
      i := 0;
    } else {
      var j := ContainsWitness(s[1..], k);
      assert s[1..][j..] == s[j + 1..];
      i := j + 1;
    }
  }

  /** Whatever occurs inside an occurring string occurs too. */
  lemma ContainsInner(s: string, k: string, off: nat, sub: string)
    requires Contains(s, k)
    requires off + |sub| <= |k| && k[off..off + |sub|] == sub
    ensures Contains(s, sub)
  {
    var i := ContainsWitness(s, k);
    assert s[i..][off..off + |sub|] == sub;
    assert sub <= s[i + off..];
    ContainsAt(s, sub, i + off);
  }

  /** The tail of an occurring string occurs too. */
  lemma ContainsSuffix(s: string, pre: string, sub: string)
    requires Contains(s, pre + sub)
    ensures Contains(s, sub)
  {
    assert (pre + sub)[|pre|..|pre| + |sub|] == sub;
    ContainsInner(s, pre + sub, |pre|, sub);
  }

  /** A string with a character the text lacks never occurs in it. */
  lemma {:induction false} NotContainsMissingChar(s: string, k: string, c: char)
    requires c in k && c !in s
    ensures !Contains(s, k)
    decreases |s|
  {
    if |s| > 0 {
      assert c !in s[1..];
      NotContainsMissingChar(s[1..], k, c);
    }
  }

  predicate StartsWith(s: string, p: string) {
    p <= s
  }

  predicate EndsWith(s: string, suffix: string) {
    |suffix| <= |s| && s[|s| - |suffix|..] == suffix
  }

  /** Python's `s[:n]` for `n >= 0`. */
  function Take<T>(s: seq<T>, n: nat): (r: seq<T>)
    ensures |r| <= n && |r| <= |s|
    ensures r <= s
    ensures |s| <= n ==> r == s
    ensures n <= |s| ==> |r| == n
  {
    if |s| <= n then s else s[..n]
  }

  /** `sep.join(xs)`. */
  function Join(sep: string, xs: seq<string>): string
    decreases |xs|
  {
    if |xs| == 0 then ""
    else if |xs| == 1 then xs[0]
    else xs[0] + sep + Join(sep, xs[1..])
  }

  /** `s.replace(c, "")` for a single character `c`. */
  function RemoveChar(s: string, c: char): (r: string)
    ensures c !in r
    ensures |r| <= |s|
    ensures multiset(r) == multiset(s)[c := 0]
    decreases |s|
  {
    if |s| == 0 then ""
    else
      var rest := RemoveChar(s[1..], c);
      assert s == [s[0]] + s[1..];
      assert multiset(s) == multiset{s[0]} + multiset(s[1..]);
      if s[0] == c then rest
      else [s[0]] + rest
  }

  /** Removing `c` keeps every other character, in order: it undoes inserting `c`s. */
  lemma {:induction false} RemoveCharKeepsOthers(s: string, c: char)
    requires c !in s
    ensures RemoveChar(s, c) == s
    decreases |s|
  {
    if |s| > 0 {
      RemoveCharKeepsOthers(s[1..], c);
    }
  }

  lemma {:induction false} RemoveCharDistributes(a: string, b: string, c: char)
    ensures RemoveChar(a + b, c) == RemoveChar(a, c) + RemoveChar(b, c)
    decreases |a|
  {
    if |a| > 0 {
      assert (a + b)[1..] == a[1..] + b;
      RemoveCharDistributes(a[1..], b, c);
    } else {
      assert a + b == b;
    }
  }

  // ------------------------------------------------------------------
  // line splitting

  /** The segments between line-boundary characters, splitting at each
      boundary character on its own. Python's `str.splitlines()` treats
      `\r\n` as one boundary and drops a final empty segment; the two
      differ only in empty segments, which every caller here discards. */
  function SplitAtBreaks(s: string): (r: seq<string>)
    ensures |r| >= 1
    ensures forall k :: 0 <= k < |r| ==> NoLineBreak(r[k])
    decreases |s|
  {
    if |s| == 0 then [""]
    else
      var rest := SplitAtBreaks(s[1..]);
      if IsLineBreak(s[0]) then [""] + rest
      else [[s[0]] + rest[0]] + rest[1..]
  }

  /** A break-free prefix joins the first segment of what follows it. */
  lemma {:induction false} SplitBreakFreePrefix(u: string, t: string)
    requires NoLineBreak(u)
    ensures SplitAtBreaks(u + t) == [u + SplitAtBreaks(t)[0]] + SplitAtBreaks(t)[1..]
    decreases |u|
  {
    if |u| == 0 {
      var x := SplitAtBreaks(t);
      assert u + t == t;
      assert u + x[0] == x[0];
      assert [x[0]] + x[1..] == x;
    } else {
      assert (u + t)[1..] == u[1..] + t;
      SplitBreakFreePrefix(u[1..], t);
      assert [u[0]] + (u[1..] + SplitAtBreaks(t)[0]) == u + SplitAtBreaks(t)[0];
    }
  }

  /** Splitting undoes joining with a newline when no part holds a line boundary. */
  lemma {:induction false} SplitJoinRoundTrip(xs: seq<string>)
    requires |xs| >= 1
    requires forall k :: 0 <= k < |xs| ==> NoLineBreak(xs[k])
    ensures SplitAtBreaks(Join("\n", xs)) == xs
    decreases |xs|
  {
    if |xs| == 1 {
      SplitBreakFreePrefix(xs[0], "");
      assert xs[0] + "" == xs[0];
    } else {
      var tail := Join("\n", xs[1..]);
      SplitJoinRoundTrip(xs[1..]);
      assert Join("\n", xs) == xs[0] + ("\n" + tail);
      SplitBreakFreePrefix(xs[0], "\n" + tail);
      assert ("\n" + tail)[1..] == tail;
      assert SplitAtBreaks("\n" + tail) == [""] + xs[1..];
      assert xs[0] + "" == xs[0];
    }
  }

  /** Every line boundary in `s` is a plain `\n`. */
  predicate OnlyNewlineBreaks(s: string) {
    forall i :: 0 <= i < |s| && IsLineBreak(s[i]) ==> s[i] == '\n'
  }

  /** Joining break-free lines with `\n` leaves `\n` as the only boundary. */
  lemma {:induction false} JoinOnlyNewlines(xs: seq<string>)
    requires forall k :: 0 <= k < |xs| ==> NoLineBreak(xs[k])
    ensures OnlyNewlineBreaks(Join("\n", xs))
    decreases |xs|
  {
    if |xs| > 1 {
      var tail := Join("\n", xs[1..]);
      JoinOnlyNewlines(xs[1..]);
      var j := Join("\n", xs);
      assert j == xs[0] + "\n" + tail;
      forall i | 0 <= i < |j| && IsLineBreak(j[i]) ensures j[i] == '\n' {
        if i > |xs[0]| {
          assert j[i] == tail[i - |xs[0]| - 1];
        }
      }
    }
  }

  /** A one-line join is the line itself. */
  lemma JoinOne(x: string)
    ensures Join("\n", [x]) == x
  {
  }

  /** A character in front of the first line is a character in front of the join. */
  lemma JoinCons(c: char, x: string, rest: seq<string>)
    requires |rest| >= 1
    ensures Join("\n", [[c] + x] + rest) == [c] + Join("\n", [x] + rest)
  {
    assert ([[c] + x] + rest)[1..] == rest;
    assert ([x] + rest)[1..] == rest;
    var j := Join("\n", rest);
    assert ([c] + x) + "\n" + j == [c] + (x + "\n" + j);
  }

  /** Joining the segments with `\n` rebuilds a text whose only boundaries are `\n`. */
  lemma {:induction false} JoinSplitRoundTrip(s: string)
    requires OnlyNewlineBreaks(s)
    ensures Join("\n", SplitAtBreaks(s)) == s
    decreases |s|
  {
    if |s| > 0 {
      var rest := SplitAtBreaks(s[1..]);
      assert OnlyNewlineBreaks(s[1..]) by {
        forall i | 0 <= i < |s[1..]| && IsLineBreak(s[1..][i]) ensures s[1..][i] == '\n' {
          assert s[1..][i] == s[i + 1];
        }
      }
      JoinSplitRoundTrip(s[1..]);
      if IsLineBreak(s[0]) {
        var ys := [""] + rest;
        assert ys[1..] == rest;
        assert Join("\n", ys) == "" + "\n" + Join("\n", rest);
        assert s == [s[0]] + s[1..];
      } else {
        if |rest| == 1 {
          JoinOne([s[0]] + rest[0]);
          JoinOne(rest[0]);
          assert rest == [rest[0]];
        } else {
          JoinCons(s[0], rest[0], rest[1..]);
          assert rest == [rest[0]] + rest[1..];
        }
        assert s == [s[0]] + s[1..];
      }
    }
  }

  /** A text whose only boundaries are `\n` is fixed by its segments. */
  lemma NewlineTextDeterminedBySplit(a: string, b: string)
    requires OnlyNewlineBreaks(a) && OnlyNewlineBreaks(b)
    requires SplitAtBreaks(a) == SplitAtBreaks(b)
    ensures a == b
  {
    JoinSplitRoundTrip(a);
    JoinSplitRoundTrip(b);
  }

  /** Every segment in `segs` is all whitespace. */
  predicate AllBlank(segs: seq<string>) {
    forall k :: 0 <= k < |segs| ==> AllSpace(segs[k])
  }

  lemma AllSpaceCons(c: char, s: string)
    ensures AllSpace([c] + s) <==> IsSpace(c) && AllSpace(s)
  {
    var x := [c] + s;
    if AllSpace(x) {
      assert x[0] == c;
      forall i | 0 <= i < |s| ensures IsSpace(s[i]) {
        assert x[i + 1] == s[i];
      }
    }
    if IsSpace(c) && AllSpace(s) {
      forall i | 0 <= i < |x| ensures IsSpace(x[i]) {
        if i > 0 { assert x[i] == s[i - 1]; }
      }
    }
  }

  lemma AllBlankCons(x: string, ys: seq<string>)
    ensures AllBlank([x] + ys) <==> AllSpace(x) && AllBlank(ys)
  {
    var z := [x] + ys;
    if AllBlank(z) {
      assert z[0] == x;
      forall k | 0 <= k < |ys| ensures AllSpace(ys[k]) {
        assert z[k + 1] == ys[k];
      }
    }
    if AllSpace(x) && AllBlank(ys) {
      forall k | 0 <= k < |z| ensures AllSpace(z[k]) {
        if k > 0 { assert z[k] == ys[k - 1]; }
      }
    }
  }

  /** A string is all whitespace exactly when each of its segments is. */
  lemma {:induction false} AllSpaceIffSegmentsBlank(s: string)
    ensures AllSpace(s) <==> AllBlank(SplitAtBreaks(s))
    decreases |s|
  {
    if |s| > 0 {
      var rest := SplitAtBreaks(s[1..]);
      AllSpaceIffSegmentsBlank(s[1..]);
      assert s == [s[0]] + s[1..];
      AllSpaceCons(s[0], s[1..]);
      if !IsLineBreak(s[0]) {
        AllSpaceCons(s[0], rest[0]);
        AllBlankCons(rest[0], rest[1..]);
        assert rest == [rest[0]] + rest[1..];
        AllBlankCons([s[0]] + rest[0], rest[1..]);
      } else {
        AllBlankCons("", rest);
      }
    }
  }

  // ------------------------------------------------------------------
  // decimal numerals

  predicate IsDigit(c: char) {
    '0' <= c <= '9'
  }

  predicate AllDigits(s: string) {
    forall i :: 0 <= i < |s| ==> IsDigit(s[i])
  }

  function DigitChar(d: nat): (c: char)
    requires d < 10
    ensures IsDigit(c)
  {
    ('0' as int + d) as char
  }

  /** Python's `int(s)` for a non-empty run of ASCII digits (the empty run reads as 0). */
  function DigitsValue(s: string): nat
    requires AllDigits(s)
    decreases |s|
  {
    if |s| == 0 then 0
    else 10 * DigitsValue(s[..|s| - 1]) + (s[|s| - 1] as int - '0' as int)
  }

  /** Python's `str(n)` for a natural number. */
  function NatToString(n: nat): (r: string)
    ensures |r| >= 1
    ensures AllDigits(r)
    decreases n
  {
    if n < 10 then [DigitChar(n)] else NatToString(n / 10) + [DigitChar(n % 10)]
  }

  /** Reading back the decimal spelling of `n` gives `n`. */
  lemma {:induction false} NatToStringRoundTrip(n: nat)
    ensures DigitsValue(NatToString(n)) == n
    decreases n
  {
    if n >= 10 {
      var a := NatToString(n / 10);
      var s := a + [DigitChar(n % 10)];
      assert s[..|s| - 1] == a;
      NatToStringRoundTrip(n / 10);
    } else {
      var s := [DigitChar(n)];
      assert s[..0] == [];
    }
  }

  /** Python's `str(i)` for an integer. */
  function IntToString(i: int): (r: string)
    ensures |r| >= 1
  {
    if i < 0 then "-" + NatToString(-i) else NatToString(i)
  }

  function Repeat(c: char, n: nat): (r: string)
    ensures |r| == n
    ensures forall i :: 0 <= i < n ==> r[i] == c
  {
    seq(n, i => c)
  }

  /** Python's `str.zfill(width)`: pad with `0` on the left, after a leading sign if any. */
  function ZFill(s: string, width: nat): (r: string)
    ensures |r| == if |s| >= width then |s| else width
    ensures |s| >= width ==> r == s
  {
    if |s| >= width then s
    else if |s| > 0 && (s[0] == '+' || s[0] == '-') then [s[0]] + Repeat('0', width - |s|) + s[1..]
    else Repeat('0', width - |s|) + s
  }

  /** Leading zeros do not change the value of a numeral. */
  lemma {:induction false} LeadingZerosValue(k: nat, s: string)
    requires AllDigits(s)
    ensures AllDigits(Repeat('0', k) + s)
    ensures DigitsValue(Repeat('0', k) + s) == DigitsValue(s)
    decreases |s|
  {
    var z := Repeat('0', k);
    if |s| == 0 {
      assert z + s == z;
      ZerosValue(k);
    } else {
      var t := z + s;
      assert t[..|t| - 1] == z + s[..|s| - 1];
      LeadingZerosValue(k, s[..|s| - 1]);
    }
  }

  lemma {:induction false} ZerosValue(k: nat)
    ensures DigitsValue(Repeat('0', k)) == 0
    decreases k
  {
    if k > 0 {
      assert Repeat('0', k)[..k - 1] == Repeat('0', k - 1);
      ZerosValue(k - 1);
    }
  }
}

=== FILE: wrappers.dfy ===
/** Optional values and error-carrying results, used for Python's `None`
    returns and for the exceptions the modelled code catches or raises. */
module Wrappers {

  /** A value that may be absent: Python's `Optional[T]`. */
  datatype Option<+T> = None | Some(value: T) {

    /** The wrapped value, or `default` when absent (Python's `x if x is not None else default`). */
    function GetOr(default: T): T {
      match this
      case Some(v) => v
      case None => default
    }
  }

  /** The outcome of a call that may raise: `Ok` carries the return value, `Err` the exception's message. */
  datatype Result<+T> = Ok(value: T) | Err(message: string)
}
